=== FILE: README.md ===
# A Dafny model of tango, chromp, the RFB server and the PWM blinker

This project models four small programs in Dafny and proves properties about
each of them.

- **tango** (`tango/lib/tango.rb`) is a Ruby DSL for timing diagrams. A
  script declares channels and records samples on a clock. It places
  labels, marks and measurements. `render_to_points` then turns the replayed
  channel states into point streams, which `write_svg` splits into polylines
  and compacts. The model covers the following:
  - the timeline store (`Samples#new`, `time_range`);
  - the state replay (`Samples#each_sample`);
  - the channel list (`Channels#[]`, `channel`);
  - the authoring clock (`sample`, `step`, `lead_in`, `seek`, `untimed`,
    `repeat`, `fold`);
  - labels and marks (`label`, `mark`, `mark_seek`);
  - the measurement tracker (`measure`, `start_measure`, `end_measure`);
  - unit conversion (`scale_units`);
  - coordinate mapping (`baseline_for_channel`, `scaled_time`, `xy`, `guide`,
    `tick`, `scale_vertex`);
  - the per-channel waveform compiler of `render_to_points`;
  - the measurement bracket data;
  - the path splitting and compaction loop of `write_svg`.
- **chromp** (`nes/chromp/chromp.rb`) turns an image into NES CHR-ROM
  characters. The model covers the following:
  - `NesChar`: pixel addressing, tile extraction, colour mapping and the
    two-bit-plane `bin` encoding;
  - `NesCharRom`: the 256-slot table, with `<<`, `seek`, `[]` and the padded
    `bin` image.
- **The RFB server** (`rfb/main.c`) speaks the remote framebuffer protocol
  (RFC 6143). The model covers the following:
  - the big-endian send helpers;
  - the `RFB16`/`RFB32` swaps;
  - the ServerInit layout;
  - the receive-buffer cursor (`RFB_Realloc`, `RFB_Expecting`, `RFB_WaitFor`);
  - the handshake;
  - client-command reading;
  - the two-state connection loop of `RFB_HandleClient`.
- **The PWM blinker** (`esp8266/04/blinky_pwm.c`) runs `some_timerfunc`.
  This is a two-counter timer tick that drives one GPIO pin.

Modules follow the programs' structure:

| module | covers |
|---|---|
| `Results` | shared `Option`/`Result` and a first-match search |
| `TangoValues`, `TangoChannels` | sample values, channel keys, negative logic, channel lookup |
| `TangoTimeline`, `TangoReplay` | the sample store and its replay |
| `TangoLabels`, `TangoMeasures`, `TangoScope` | the authoring side of a scope |
| `TangoUnits`, `TangoCoords` | unit conversion and coordinate mapping |
| `TangoWaveform`, `TangoPaths`, `TangoBrackets` | the rendering computations |
| `Bytes`, `ChrTile`, `ChrRom` | chromp |
| `RfbWire`, `RfbConn`, `RfbSession` | the RFB server |
| `Pwm` | the blinker |

Some things the programs do are not computations. The model turns them into
parameters:

- **Sockets.** `recv` becomes a sequence of chunks, each `Chunk(bytes)` or
  `Failed`. An empty chunk is a closed peer.
- **Sends.** Sends are collected into a transcript and always succeed.
- **Compiler choices.** The host's byte order and whether plain `char` is
  signed become a `Platform` parameter.
- **Unset memory.** The three never-set padding bytes of the pixel format
  are a parameter.
- **Blocks.** The blocks of a tango script are functions from scope to
  scope.

## Model

| member | source | states |
|---|---|---|
| TangoValues.Shown | tango/lib/tango.rb:176-179 | negative logic inverts booleans and leaves every other value as it is |
| TangoValues.ShownInvolution | tango/lib/tango.rb:189-193 | inverting twice gives back the stored value |
| TangoValues.Strip | tango/lib/tango.rb:110 | `strip` gives the substring left once the leading and trailing whitespace are removed: it starts and ends with a non-space, only spaces lie outside it, and a string with a non-space stays non-empty |
| TangoChannels.Lookup | tango/lib/tango.rb:107-118 | a name or sentinel finds the first matching channel, and finds one exactly when some channel matches; an index follows Ruby Array indexing, including negative and out-of-range indices |
| TangoChannels.AddChannel | tango/lib/tango.rb:352-357 | a name an existing channel answers to raises; otherwise exactly one channel is appended with the given key, initial value and polarity, and its rise/fall defaults to the scope's |
| TangoChannels.ControlDefWellFormed | tango/lib/tango.rb:285-300 | the list every scope starts with holds only the control channel, first |
| TangoChannels.AddChannelKeepsWellFormed | tango/lib/tango.rb:352-357 | adding channels keeps the control channel first and every key unique |
| TangoTimeline.New | tango/lib/tango.rb:153-170 | a channel written twice at one instant raises, naming exactly the conflicting channels; otherwise the record is created or merged, and every other instant and every earlier assignment is kept |
| TangoTimeline.NewCommutes | tango/lib/tango.rb:153-170 | the order of two recordings does not matter: both orders fail or neither does, and then they build the same store |
| TangoTimeline.NewTwiceApart | tango/lib/tango.rb:153-170 | recordings at two different instants do not interact |
| TangoTimeline.NewTwiceTogether | tango/lib/tango.rb:158-163 | two recordings at one instant merge both assignments into its record |
| TangoTimeline.NewIsMerge | tango/lib/tango.rb:158-169 | `new` succeeds exactly when the channels are disjoint from those already at that instant, and then merges them |
| TangoTimeline.MinExists | tango/lib/tango.rb:144 | every non-empty set of recorded instants has an earliest one, so `sort` is defined |
| TangoTimeline.Sorted | tango/lib/tango.rb:184 | `keys.sort` lists every recorded instant once, in strictly ascending order |
| TangoTimeline.TimeRange | tango/lib/tango.rb:143-146 | `time_range` spans from the earliest to the latest recorded instant, and every instant lies within it |
| TangoReplay.InitialState | tango/lib/tango.rb:172-182 | the `:initial` state holds exactly the non-control channels, each at its initial value, with booleans inverted on negative channels |
| TangoReplay.Step | tango/lib/tango.rb:185-195 | one replay step drops the previous control value, overwrites the assigned channels (through negative logic) and keeps every other channel; a key no channel answers to fails |
| TangoReplay.Frames | tango/lib/tango.rb:184-198 | one frame per given instant, each the step from the previous state by that instant's record |
| TangoReplay.EachSample | tango/lib/tango.rb:171-199 | the initial state, then one frame per recorded instant in strictly ascending order, each the previous state stepped by that instant's record; the control channel is present only where it was recorded |
| TangoReplay.ControlNotSticky | tango/lib/tango.rb:185-187 | the control channel holds a value in a frame exactly when that instant recorded one |
| TangoReplay.LastWrite | tango/lib/tango.rb:184-195 | finds the latest record up to a frame that assigns a channel, or reports that none does |
| TangoReplay.StepsKeepLatestWrite | tango/lib/tango.rb:184-198 | along any run of steps, each channel holds its latest assignment or else its initial value |
| TangoReplay.ReplayKeepsLatestWrite | tango/lib/tango.rb:171-199 | the replay loses no assignment: every frame shows each channel's latest assignment, or its initial value when none was made |
| TangoLabels.AddLabel | tango/lib/tango.rb:397-399 | `label` always appends exactly one visible, untagged entry at the current time and keeps the rest |
| TangoLabels.Mark | tango/lib/tango.rb:401-421 | a visible mark is rejected (the list unchanged) exactly when a visible entry holds its instant or tag; a hidden mark moves the first entry with its tag, else appends |
| TangoLabels.MarkSeek | tango/lib/tango.rb:423-428 | `mark_seek` goes to the first tagged entry's time plus the offset, and fails exactly when no entry carries the tag |
| TangoLabels.VisibleMarkIdempotent | tango/lib/tango.rb:407-418 | marking the same instant twice rejects the second mark and leaves the list as the first left it |
| TangoLabels.HiddenMarkThenSeek | tango/lib/tango.rb:402-428 | seeking a hidden mark's tag right after marking lands at the marked instant plus the offset |
| TangoLabels.HiddenMarkKeepsOneEntry | tango/lib/tango.rb:402-414 | marking the same hidden tag again moves the entry and adds none |
| TangoMeasures.Defaults | tango/lib/tango.rb:576-582 | the option defaults: the row below the last channel, left alignment, the scope's units |
| TangoMeasures.FinishMeasure | tango/lib/tango.rb:553-563 | a recorded measure finalises its name from the clock before the block to the clock after it, and keeps every other name |
| TangoMeasures.StartMeasure | tango/lib/tango.rb:569-583 | `start_measure` does nothing for a name that is finalised, unselected or already open, and otherwise opens exactly that name, with the option defaults and its start at the current time |
| TangoMeasures.EndMeasure | tango/lib/tango.rb:585-594 | `end_measure` does nothing without an open partial (or when unselected), and otherwise moves that whole partial to finalised, its `end` set to the current time, keeping every other name |
| TangoMeasures.StartEndKeepDisjoint | tango/lib/tango.rb:569-594 | no name is ever both open and finalised |
| TangoMeasures.FinalisedIsKept | tango/lib/tango.rb:552-575 | once finalised, a name is neither reopened nor measured again |
| TangoMeasures.EndOverwritesMeasured | tango/lib/tango.rb:585-594 | `end_measure` does not look at finalised names, so it overwrites a measure taken while its partial was open |
| TangoUnits.UnitIndex | tango/lib/tango.rb:324-325 | `find_index` gives the first table position holding the unit, or nothing exactly when the unit is absent |
| TangoUnits.MultipliersAreTable | tango/lib/tango.rb:309-319 | the multipliers are those of `UNIT_MAP`, in order, and all positive |
| TangoUnits.ProdSplit | tango/lib/tango.rb:327-333 | the products of adjacent spans of the table compose |
| TangoUnits.WalkUp | tango/lib/tango.rb:327-329 | going to a larger unit divides by every multiplier passed, so the result times the span's product is the value |
| TangoUnits.WalkDown | tango/lib/tango.rb:330-333 | going to a smaller unit multiplies by every multiplier passed |
| TangoUnits.ScaleUnits | tango/lib/tango.rb:321-335 | `scale_units` is the conversion between the two units' positions, and an unknown unit is an error |
| TangoUnits.ConvertSame | tango/lib/tango.rb:321-335 | converting to the same unit gives back the value |
| TangoUnits.ConvertRoundTrip | tango/lib/tango.rb:321-335 | converting there and back gives back the value |
| TangoUnits.ConvertHoursToSeconds | tango/lib/tango.rb:309-335 | hours to seconds multiplies by 3600 |
| TangoUnits.ConvertMicrosToMillis | tango/lib/tango.rb:309-335 | microseconds to milliseconds divides by 1000 |
| TangoCoords.Baseline | tango/lib/tango.rb:515-517 | a channel's baseline lies the channel offset plus index times pitch down the diagram |
| TangoCoords.BaselinePitch | tango/lib/tango.rb:515-517 | consecutive channels sit one pitch apart |
| TangoCoords.ScaledTime | tango/lib/tango.rb:529-531 | an instant's x, less the time offset, is the instant times the time scale (the order and the inverse are `ScaledTimeOrder`) |
| TangoCoords.ScaledTimeOrder | tango/lib/tango.rb:529-531 | with a positive scale, time order is x order and an instant can be read back from its x |
| TangoCoords.LevelHeight | tango/lib/tango.rb:534-544 | true and Peak draw at 1, false and Trough at 0, numbers at themselves, Tristate at half, anything else at 0 |
| TangoCoords.XY | tango/lib/tango.rb:533-547 | a value's point is at the instant's x, its level times the channel height above the baseline |
| TangoCoords.LevelsOrdered | tango/lib/tango.rb:533-547 | high is drawn above low, Peak and Trough coincide with true and false, and Tristate lies half-way |
| TangoCoords.Guide | tango/lib/tango.rb:519-522 | a guide is a vertical line at the instant from the ruler to below the last channel, followed by a break |
| TangoCoords.Tick | tango/lib/tango.rb:524-527 | a ruler tick is vertical at the instant, longer when major, followed by a break |
| TangoCoords.ScaleVertex | tango/lib/tango.rb:861-864 | a canvas point is the offset vertex stretched by 14/9 across and by 20 down, 5 pixels from the top (the inverse is `ScaleVertexInverse`) |
| TangoCoords.ScaleVertexInverse | tango/lib/tango.rb:861-864 | the canvas mapping is invertible: every vertex can be read back from its canvas point |
| TangoScope.NewScope | tango/lib/tango.rb:285-300 | a new scope has its clock at 0, only the control channel, and nothing recorded |
| TangoScope.AddChannelTo | tango/lib/tango.rb:352-357 | `channel` fails exactly when the channel list refuses the key, and otherwise changes only the channel list |
| TangoScope.Sample | tango/lib/tango.rb:365-379 | `sample` records at the clock plus the timeframe's start and leaves the clock there, or at the end of a range; a conflict raises; nothing else changes |
| TangoScope.SampleHereDoublesClock | tango/lib/tango.rb:360-373 | as written, `sample(data)` records at twice the clock and moves the clock there; it agrees with recording at the current time only at clock 0 |
| TangoScope.SampleAtNow | tango/lib/tango.rb:360-361 | the documented `sample(data)` records at the current time and leaves the clock alone |
| TangoScope.SampleAtNowIsAfterZero | tango/lib/tango.rb:365-376 | the documented form is `sample(0, data)` |
| TangoScope.Fold | tango/lib/tango.rb:431-433 | `fold` puts a fold marker on the control channel at the current time, and raises only when one is already there; nothing else about the scope changes (the clock, labels and measurements are kept) |
| TangoScope.Step | tango/lib/tango.rb:382-385 | `step` advances the clock by the duration and raises exactly on a negative one |
| TangoScope.StepsAdd | tango/lib/tango.rb:382-385 | two steps end where their sum does |
| TangoScope.LeadIn | tango/lib/tango.rb:387-391 | `lead_in` raises unless the clock is 0, and otherwise sets the clock and the lead-in |
| TangoScope.Seek | tango/lib/tango.rb:501-503 | `seek` sets the clock to the instant and changes nothing else |
| TangoScope.Untimed | tango/lib/tango.rb:509-513 | `untimed` keeps what its block did but restores the clock |
| TangoScope.LabelNow | tango/lib/tango.rb:397-399 | `label` appends one named label at the current time and changes nothing else; the label list itself is `TangoLabels` |
| TangoScope.MarkNow | tango/lib/tango.rb:401-421 | `mark` changes only the label list, as the label-list `mark` at the current time does (its cases are `TangoLabels.Mark`) |
| TangoScope.MarkSeekTo | tango/lib/tango.rb:423-428 | `mark_seek` fails exactly when the tag is unknown, and otherwise seeks to the tagged time plus the offset |
| TangoScope.HiddenMarkRoundTrip | tango/lib/tango.rb:401-428 | a hidden mark sought from anywhere later brings the clock back to it, plus the offset |
| TangoScope.StartMeasureAt | tango/lib/tango.rb:569-583 | `start_measure` changes only the measurement tracker, as `TangoMeasures.StartMeasure` does at the current time with the scope's channel count and units |
| TangoScope.EndMeasureAt | tango/lib/tango.rb:585-594 | `end_measure` changes only the measurement tracker, as `TangoMeasures.EndMeasure` does at the current time |
| TangoScope.Measure | tango/lib/tango.rb:549-567 | `measure` always runs its block, and records the block's span only for a new, selected name; when it records, the tracker is the block's own with just that name finalised (`FinishMeasure`: defaults read after the block, every other finalised name and every open partial kept) |
| TangoScope.MeasureRepeatedOnce | tango/lib/tango.rb:549-567 | a block repeated under one measure name is measured only the first time |
| TangoScope.RepeatCount | tango/lib/tango.rb:474-481 | a counted repeat with a period ends at the base plus count times the period, and a non-positive count runs nothing |
| TangoScope.RepeatCountStarts | tango/lib/tango.rb:474-481 | with a period, iteration n starts at the base plus n periods: a block that labels the clock leaves the labels at base + n·p for n below the count, in order, and the clock at base + count·p |
| TangoScope.RepeatCountPlain | tango/lib/tango.rb:474-481 | without a period, the block runs `count` times and the repeat itself leaves the clock alone: a block that labels the clock leaves `count` labels at `now` and the clock where it was |
| TangoScope.RepeatFromPlain | tango/lib/tango.rb:477-480 | from iteration n on, a period-less repeat runs the labelling block once per remaining iteration without moving the clock |
| TangoScope.RepeatFromStarts | tango/lib/tango.rb:477-480 | from iteration n on, the labelling block adds one label per remaining iteration, each at the base plus its number of periods |
| TangoScope.RepeatUntil | tango/lib/tango.rb:466-471 | the range repeat stops only once the clock has reached its limit, and runs no iteration when the clock is already there |
| TangoScope.RepeatRange | tango/lib/tango.rb:444-471 | a range repeat `a..b` without samples ends with the clock at or past `now + a + b` (Ruby's `start+range.last`, with `start = now + a`), not at `now + b` where the sampled form ends |
| TangoScope.FractionsSpanRange | tango/lib/tango.rb:455-458 | sample offsets start at the range start and strictly increase; inclusive ends exactly at the range end, exclusive stays short of it |
| TangoScope.RepeatSamples | tango/lib/tango.rb:444-464 | an exclusive sampled repeat ends with the clock at `now + b`, the end of the range `a..b`; one inclusive sample, where Ruby's clock becomes NaN, is reported as `NotANumber` instead (see Left out) |
| TangoScope.SampleFromStarts | tango/lib/tango.rb:454-462 | samples `n` to `count - 1` run the block in order, each at `start + Fraction(i) * size`, and the clock is left at the last one's offset |
| TangoScope.RepeatSamplesStarts | tango/lib/tango.rb:444-464 | over a forward range `a..b`, sample `i` runs the block at `now + a + Fraction(i) * (b - a)` for every `i < count`, in order (a labelling block leaves exactly those labels), and the clock ends at `now + b` |
| TangoScope.RepeatSamplesOverlap | tango/lib/tango.rb:455-460 | a block that moves the clock past the second sample's offset raises "Overlapping time in sample-based repeat!" |
| TangoScope.RepeatSamplesBackwards | tango/lib/tango.rb:449-460 | over a backward range, the second sample's offset lies before the first, so the repeat raises the overlap error |
| TangoWaveform.Seed | tango/lib/tango.rb:623-655 | the initial state puts the channel's name (and subtext) in the margin and starts the main rail at the initial value at time 0 |
| TangoWaveform.Advance | tango/lib/tango.rb:685-774 | a logic or analog sample appends the gap point at the previous level then the new point to main, leaves sub alone after a non-bus value, and after a bus value closes sub with the trough point, the new point and a break; an unchanged bus value only extends both rails with peak and trough; a changed bus value breaks both rails and crosses them over; a bus value after a non-bus one starts both rails at the gap point; a change into a bus value adds exactly its value label, placed by the channel's nudge |
| TangoWaveform.TextPerArbChange | tango/lib/tango.rb:739-751 | each change into a new arbitrary value adds exactly one text label, and nothing else adds one |
| TangoWaveform.BreaksAppend | tango/lib/tango.rb:705-708 | counting breaks distributes over concatenation |
| TangoWaveform.MainBreaksOnlyOnArbChange | tango/lib/tango.rb:696-774 | the main rail breaks only where one arbitrary value changes into another |
| TangoWaveform.Compile | tango/lib/tango.rb:622-775 | compiling a track leaves the stream ready to draw, starts the main rail at the initial value at time 0, gives the main rail more points than the track has samples, and keeps the margin name texts first |
| TangoWaveform.CompileOnLevels | tango/lib/tango.rb:672-775 | a channel carrying only logic and bus values is drawn entirely on its two levels |
| TangoWaveform.BusScenario | tango/lib/tango.rb:696-751 | `b7`, `b7` again, then `b6` adds exactly two text items after the channel's name: one per change, none for the repeat |
| TangoWaveform.ReplayedTrack | tango/lib/tango.rb:171-199 | the track of a channel other than control, taken from the replay, has one entry per recorded instant in strictly ascending time, each the latest value recorded for the channel up to then (through negative logic) or its initial value |
| TangoPaths.RunsKeepPoints | tango/lib/tango.rb:910 | splitting on breaks loses and invents no point: the runs, joined, are the stream's points in order |
| TangoPaths.Paths | tango/lib/tango.rb:910-912 | splitting succeeds exactly when every run has at least two vertices, and otherwise names a short run |
| TangoPaths.CompactPath | tango/lib/tango.rb:913-927 | the compaction loop, which compares with the last kept point, keeps exactly the points of the reference (ends, and interior points not level with both neighbours) |
| TangoPaths.CompactedKeepsEnds | tango/lib/tango.rb:918-926 | compaction keeps both ends, so a compacted path still has two vertices |
| TangoPaths.CompactedCount | tango/lib/tango.rb:918-926 | compaction drops exactly the interior points level with both neighbours |
| TangoBrackets.MeasureBracket | tango/lib/tango.rb:822-833 | a bracket runs from the begin to the end x at half height on its row, and its size is the duration converted to the measurement's units; an unknown unit fails |
| TangoBrackets.Brackets | tango/lib/tango.rb:820-834 | one bracket per finalised measurement, under its name; the measurements with unknown units are named exactly |
| Bytes.ToFromBits | nes/chromp/chromp.rb:153 | reading bits back as a number and writing them again gives the bits |
| Bytes.FromToBits | nes/chromp/chromp.rb:153 | writing a number below 2^n as n bits and reading them gives the number |
| Bytes.SameBitsSameByte | nes/chromp/chromp.rb:153 | a byte is determined by its eight bits |
| Bytes.Pack | nes/chromp/chromp.rb:153 | `pack('B*')` puts bit 8k+x of the string at bit x (from the most significant) of byte k |
| ChrTile.PixelIndex | nes/chromp/chromp.rb:160-163 | within the tile, index x + 8y has column x and row y |
| ChrTile.RowRange | nes/chromp/chromp.rb:164-168 | the range of a row is eight long and holds exactly that row's pixels |
| ChrTile.Row | nes/chromp/chromp.rb:104-106 | `self[row]` is that row's 8 pixels, counts from the bottom for negative rows, is empty at row 8 and nil beyond |
| ChrTile.BlankTile | nes/chromp/chromp.rb:117 | a new character is 64 zero pixels |
| ChrTile.ExtractTile | nes/chromp/chromp.rb:120-126 | pixel (x, y) of the tile at (tx, ty) is source pixel (8tx + x, 8ty + y); a tile outside the image raises |
| ChrTile.MapColors | nes/chromp/chromp.rb:137-139 | every pixel becomes its map entry or the default, and there are still 64 |
| ChrTile.MapColorsTwoBit | nes/chromp/chromp.rb:137-139 | a map onto 0..3 with a default in 0..3 yields NES pixel values |
| ChrTile.Planes | nes/chromp/chromp.rb:150-151 | the planes are 128 bits |
| ChrTile.Bin | nes/chromp/chromp.rb:141-158 | `bin` is 16 bytes: bytes 0-7 carry the low bits of rows 0-7, bytes 8-15 the high bits, leftmost pixel in the most significant bit |
| ChrTile.Decode | nes/chromp/chromp.rb:150-153 | each pixel read back is its low-plane bit plus twice its high-plane bit |
| ChrTile.BinRoundTrip | nes/chromp/chromp.rb:141-154 | decoding the encoding of a character of NES pixel values gives it back |
| ChrTile.DecodeRoundTrip | nes/chromp/chromp.rb:141-154 | every 16 bytes are the encoding of the character they decode to |
| ChrTile.BlankBinIsZero | nes/chromp/chromp.rb:199-201 | the blank character encodes as the 16 zero bytes of an empty slot |
| ChrRom.EmptyRom | nes/chromp/chromp.rb:173-176 | a new ROM has 256 empty slots and its counter at 0 |
| ChrRom.SlotOf | nes/chromp/chromp.rb:179 | a Ruby array index names a slot from the front for 0..255 and from the back for -256..-1 |
| ChrRom.Push | nes/chromp/chromp.rb:177-182 | `<<` raises at a counter of 256 or more (or before the table); otherwise it stores at the counter, advances it, and leaves every other slot alone |
| ChrRom.Seek | nes/chromp/chromp.rb:183-185 | `seek` sets only the counter |
| ChrRom.Get | nes/chromp/chromp.rb:186-189 | `[]` reads the slot the index names, and nil past either end |
| ChrRom.GetByName | nes/chromp/chromp.rb:186-189 | a string names the slot of its first character's code; the empty string raises |
| ChrRom.PushThenGet | nes/chromp/chromp.rb:177-189 | a pushed character is found again at the index it was pushed at |
| ChrRom.FillRom | nes/chromp/chromp.rb:205-215 | pushing up to 256 characters into a new ROM puts character n in slot n; pushing more raises |
| ChrRom.Join | nes/chromp/chromp.rb:201 | block i of the joined image is slot i's encoding |
| ChrRom.SlotBin | nes/chromp/chromp.rb:199-201 | a slot's 16 bytes are its character's `bin`, or 16 zero bytes for an empty slot |
| ChrRom.Bin | nes/chromp/chromp.rb:198-202 | the image is 4 KiB (8 KiB padded) with slot i at block i, and zeros after the slots |
| ChrRom.BinSlotRoundTrip | nes/chromp/chromp.rb:198-202 | each block of the image decodes to its slot's character, or to the blank one for an empty slot |
| RfbWire.EncodeU8 | rfb/main.c:191-196 | `SOCK_SendU8` sends the low byte |
| RfbWire.EncodeU16 | rfb/main.c:199-205 | `SOCK_SendU16` sends two bytes whose big-endian value is the low 16 bits |
| RfbWire.EncodeU32 | rfb/main.c:208-216 | `SOCK_SendU32` sends four bytes whose big-endian value is the low 32 bits, most significant first |
| RfbWire.DecodeEncodeU16 | rfb/main.c:199-205 | every two bytes are the encoding of their big-endian value |
| RfbWire.DecodeEncodeU32 | rfb/main.c:208-216 | every four bytes are the encoding of their big-endian value |
| RfbWire.Digits | rfb/main.c:43-46 | a value's low 16 and 32 bits are made of its bytes `B0`..`B3` |
| RfbWire.Rfb16 | rfb/main.c:48-55 | `RFB16` swaps the two low bytes on a little-endian host and only masks on a big-endian one |
| RfbWire.Rfb32 | rfb/main.c:48-55 | `RFB32` reverses the four low bytes on a little-endian host and only masks on a big-endian one |
| RfbWire.Rfb16Twice | rfb/main.c:48-55 | applying `RFB16` twice gives the masked value |
| RfbWire.Rfb32Twice | rfb/main.c:48-55 | applying `RFB32` twice gives the masked value |
| RfbWire.LoadU16 | rfb/main.c:48-55 | a 16-bit field read by the host is its bytes in network order on a big-endian host and reversed on a little-endian one |
| RfbWire.LoadU32 | rfb/main.c:48-55 | a 32-bit field read by the host is its bytes in network order on a big-endian host and reversed on a little-endian one |
| RfbWire.SwapLoadedU16 | rfb/main.c:48-55 | a 16-bit field loaded by the host and passed through `RFB16` is its network-order value, on either host |
| RfbWire.SwapLoadedU32 | rfb/main.c:48-55 | a 32-bit field loaded by the host and passed through `RFB32` is its network-order value, on either host |
| RfbWire.ProtocolVersion | rfb/main.c:240-241 | the version message is the 12 bytes `RFB 003.003\n` |
| RfbWire.EncodeFormat | rfb/main.c:59-71 | a pixel format is 16 bytes laid out as the packed structure: four single bytes, the three maxima big-endian, the three shifts, then the padding |
| RfbWire.DecodeFormat | rfb/main.c:59-71 | any 16 bytes read as a pixel format give a valid one (that it is the inverse of `EncodeFormat` is `FormatBytesRoundTrip`) |
| RfbWire.FormatRoundTrip | rfb/main.c:59-71 | a pixel format survives its 16-byte encoding |
| RfbWire.FormatBytesRoundTrip | rfb/main.c:59-71 | every 16 bytes encode the format they describe |
| RfbWire.ServerInit | rfb/main.c:348-383 | ServerInit is 24 bytes plus the name, and ends with the name |
| RfbWire.ParseServerInit | rfb/main.c:146-152 | a ServerInit parses exactly when it holds 24 bytes and the announced name |
| RfbWire.ServerInitRoundTrip | rfb/main.c:348-383 | a client reads back the size (mod 2^16), the server's pixel format and the name |
| RfbWire.ServerFormatBytes | rfb/main.c:368-380 | the pixel format bytes are 32, 24, 1, 1, 255, 255, 255 (big-endian 16-bit) and shifts 16, 8, 0 |
| RfbConn.OpenClient | rfb/main.c:228-243 | a new connection has an empty 1024-byte buffer |
| RfbConn.ReallocAsWritten | rfb/main.c:261-281 | as written, a realloc happens when the tail plus the need passes the buffer, and yields `len + size` bytes with offset 0 |
| RfbConn.ReallocAsWrittenOverReads | rfb/main.c:266-274 | every reallocation copies past the end of the old buffer |
| RfbConn.ExpectingAsWritten | rfb/main.c:285-293 | as written, `RFB_Expecting` reallocates by how far the expected bytes overrun the buffer from `offset` |
| RfbConn.ExpectingAsWrittenLeavesNoRoom | rfb/main.c:284-293 | there are cursors after which, as written, the expected bytes still do not fit |
| RfbConn.Realloc | rfb/main.c:260-281 | corrected: afterwards `need` bytes fit at the offset, and the buffered bytes are unchanged |
| RfbConn.Expecting | rfb/main.c:284-293 | corrected: afterwards `n` bytes fit at the offset, the buffered bytes are unchanged, and a buffer with room is left alone |
| RfbConn.ExpectingAgreesWhenRoom | rfb/main.c:285-293 | the corrected and the as-written `RFB_Expecting` agree when there is room |
| RfbConn.Take | rfb/main.c:304-323 | the loop keeps at most what is still wanted |
| RfbConn.Fill | rfb/main.c:304-324 | the receive loop fills the buffer to `n` bytes with the received bytes, in order and clamped, and fails on a closed peer or a failed `recv` |
| RfbConn.Append | rfb/main.c:306-323 | received bytes land right after the buffered ones |
| RfbConn.WaitFor | rfb/main.c:296-330 | `RFB_WaitFor` returns the first `n` buffered-then-received bytes, advances `offset` by `n` and drops `len` by `n`; buffered data is read without receiving, and with nothing to receive a short buffer fails |
| RfbConn.Consume | rfb/main.c:325-329 | handing out `n` bytes returns the oldest `n` buffered bytes and keeps the rest buffered behind them |
| RfbConn.NoSupplyNoData | rfb/main.c:304-311 | with nothing left to receive, a read of more than is buffered fails |
| RfbConn.CloseClient | rfb/main.c:246-257 | a closed connection has no buffer and zero counts |
| RfbSession.ToInt32 | rfb/main.c:558-568 | an `unsigned int` read as `int` wraps to negative from 2^31 |
| RfbSession.CharToUnsigned | rfb/main.c:343 | `(unsigned int)data[0]` sign-extends bytes from 128 when `char` is signed |
| RfbSession.CommandValueOfByte | rfb/main.c:558-651 | the command value is the byte, or the byte minus 256 when `char` is signed and the byte is 128 or more; only then is it negative |
| RfbSession.WaitForU8 | rfb/main.c:336-345 | `RFB_WaitForU8` reads one byte, widened as a `char` |
| RfbSession.ServerName | rfb/main.c:524 | the server's name is the 19 bytes of `Anton's Test Server` |
| RfbSession.SecurityReply | rfb/main.c:515-516 | the security reply is type None as a 32-bit field |
| RfbSession.Handshake | rfb/main.c:505-533 | the handshake reads the 12-byte version and the share flag and sends the security type and ServerInit; failures send only what came before them |
| RfbSession.HandshakeReplyParses | rfb/main.c:515-525 | a client parses what a handshake sent as security None and a 500x500 ServerInit named `Anton's Test Server` |
| RfbSession.StructSize | rfb/main.c:76-143 | the fixed part of each known message type has its packed structure's size |
| RfbSession.CutTextLengthAsWritten | rfb/main.c:624-630 | as written, the ClientCutText length is loaded in host order and not swapped |
| RfbSession.CutTextLength | rfb/main.c:624-630 | corrected: the length is the field's big-endian value on either host |
| RfbSession.CutTextLengthAsWrittenMisreads | rfb/main.c:624-632 | on a little-endian host a length of 5 is read as 83886080 |
| RfbSession.EncodingCount | rfb/main.c:584 | the SetEncodings count is the field's big-endian value on either host |
| RfbSession.ExtraSize | rfb/main.c:579-643 | after the fixed part, SetEncodings reads four bytes per encoding and ClientCutText a positive length of text, that length read with the corrected `RFB32` (see Findings); other types read nothing more |
| RfbSession.ReadBody | rfb/main.c:542-551 | a known message's body consumes at least its fixed part, and a buffered fixed-length body comes from the buffer alone |
| RfbSession.ClientCommand | rfb/main.c:554-652 | `ReadsCommand` holds: a command is the type byte as an `int` plus the body of a known type, cut text taken at the corrected length; it is below 256 and negative only with signed `char` and a byte from 128; it consumes at least its fixed part; a buffered fixed-length message is consumed whole from the buffer; with nothing to read it fails |
| RfbSession.CommandBody | rfb/main.c:567-648 | a known type reads at least its packed structure, buffered fixed-length bodies from the buffer alone; an unknown type (`default:`) reads nothing |
| RfbSession.Served | rfb/main.c:683-694 | the ready state handles commands (cut text at the corrected length) until a read fails or a value is negative, which needs signed `char`; every handled value is a byte, and there are no more of them than bytes the client supplies |
| RfbSession.ServedRound | rfb/main.c:683-694 | one round of the ready state: a failed read ends with no command, a negative value ends without being handled, any other value is handled before the commands read after it |
| RfbSession.Serve | rfb/main.c:683-694 | the loop of the ready state returns exactly the commands and end that `Served` describes |
| RfbSession.Greet | rfb/main.c:655-682 | the session sends the version, then on a complete handshake the security type and ServerInit |
| RfbSession.HandleClient | rfb/main.c:655-699 | the loop sends what `Greet` sends and moves from handshake to ready exactly when the handshake completes; it then handles exactly the commands `Served` gives from the handshake's connection and remaining input (cut text at the corrected length), ends as `Served` ends, and closes the connection |
| Pwm.Bump | esp8266/04/blinky_pwm.c:14-20 | a counter counts up within -10..10 and wraps from 10 to -10 |
| Pwm.Advance | esp8266/04/blinky_pwm.c:14-21 | `step` counts up, and `duty` counts up only when `step` wraps; both stay within -10..10 |
| Pwm.DutyMovesOnlyOnWrap | esp8266/04/blinky_pwm.c:14-21 | `duty` changes only on a tick where `step` wraps; every other tick adds one to `step` and changes nothing else |
| Pwm.LevelOf | esp8266/04/blinky_pwm.c:22-32 | the pin goes low exactly when `step` is further from zero than `duty` |
| Pwm.SquaresOrdered | esp8266/04/blinky_pwm.c:22-23 | comparing squares compares magnitudes |
| Pwm.OutputSet | esp8266/04/blinky_pwm.c:26-31 | `gpio_output_set` clears the clear bits, sets the other set bits, and keeps every other bit of the register |
| Pwm.Tick | esp8266/04/blinky_pwm.c:12-33 | a tick advances the counters, drives the pin low exactly when \|step\| > \|duty\| and high otherwise, and leaves every other pin of the register alone |
| Pwm.TicksStayInRange | esp8266/04/blinky_pwm.c:8-20 | from the start (or any in-range state) both counters stay within -10..10 |
| Pwm.StepPeriod | esp8266/04/blinky_pwm.c:14-20 | every 21 ticks `step` is back where it was and `duty` has counted up once |
| Pwm.BumpsCycle | esp8266/04/blinky_pwm.c:17-20 | `duty` passes through all 21 values before repeating |
| Pwm.Periods | esp8266/04/blinky_pwm.c:14-20 | m sweeps of `step` count `duty` up m times |
| Pwm.FullPeriod | esp8266/04/blinky_pwm.c:12-33 | the whole pattern repeats every 441 ticks |

## Left out

- The SVG and file output is not modelled. That covers the Rasem
  extensions, `write_svg` apart from path splitting and compaction,
  `scale_vertex` offsets in drawing, and `write_csv`. It is string
  templating and I/O.
- The debug and not-implemented prints are not modelled.
- Decimal formatting of label, ruler and measurement texts is not modelled.
  It is float-to-string formatting; the brackets keep the numeric size.
- The ruler is not modelled (`ruler`, and the tick loop in
  `render_to_points`). Neither is placing label texts in the extra stream,
  or the width and height settings. They are layout and formatting of data
  that is modelled elsewhere (`TangoCoords.Tick`, `TangoCoords.Guide`).
- The fold handling inside `render_to_points` is not modelled. It is an
  unfinished stub: it waits on a hard-coded tag and calls `seek`/`mark`
  while rendering. The waveform compiler is modelled for timelines without
  fold values; `fold` itself is modelled.
- `zoom` is not modelled. It only prints a not-implemented message.
- `at` is not modelled. Its body is empty.
- Ruby's Integer and Float are both `real`. Hash keys 5 and 5.0 are
  therefore the same instant. `scale_vertex` divides exactly even where
  Ruby's integer division would floor.
- TangoWaveform.HalfRise divides exactly. Ruby's `points[ci][:rf] *
  time_scale / 2` (line 686) floors when both factors are Integers.
- A nil measurement name is not modelled. Called with no name, `measure`,
  `start_measure` and `end_measure` (tango/lib/tango.rb:551, 571, 587) key
  the measurement under nil; the model's names are strings.
- String and Symbol channel names are not distinguished. A channel is
  looked up by its stripped name.
- TangoScope.RepeatUntil: the range form of `repeat` without `samples:`
  runs for ever in Ruby when the block never moves the clock. The model
  gives up after a fuel bound with `Diverges`.
- TangoBrackets.MeasureBracket states the size as the duration converted to
  the measurement's units. That the conversion can be undone is
  `TangoUnits.ConvertRoundTrip`.
- The chromp command line, PNG decoding and the main loop are not modelled.
  They depend on ChunkyPNG and the file system. Tiles come from a given
  pixel grid and a given colour map.
- ChrTile.MapColors takes the colour map as a parameter. `map_colors!`
  ignores its argument and reads the global `COLOR_MAP`, which is the map
  the program's only caller passes, so the two agree.
- `ascii_render` and `inspect` are not modelled. They are text output.
- malloc failure in `RFB_OpenClient`, `RFB_Realloc` and `RFB_ServerInit` is
  not modelled. Send failures are not modelled either: sends are collected
  and always succeed.
- `printf`, `nprint`, the hex dumps and `DUMP_PIXEL_FORMAT` are not
  modelled.
- `RFB_FramebufferUpdate` and `main` (socket setup and accept) are not
  modelled. The server loop never calls the former; the latter is network
  plumbing.
- `recv` is an abstract chunk supplier. Byte order and `char` signedness
  are a platform parameter. The never-set padding bytes of the pixel format
  are a parameter.
- RfbSession.ExtraSize uses the corrected `RFB32(m->len)` as the ClientCutText
  length. The program uses the loaded field unswapped (line 627), which is
  `RfbSession.CutTextLengthAsWritten`; on a little-endian host the model
  therefore waits for a different number of text bytes than the program.
- RfbSession.ReadBody inherits the corrected cut-text length from `ExtraSize`.
- RfbSession.ClientCommand inherits the corrected cut-text length, so its
  promise about the bytes consumed holds for the corrected program only.
- RfbSession.Serve and the session loop inherit the corrected cut-text length.
- RfbSession.HandleClient inherits the corrected cut-text length.
- TangoScope.RepeatSamples: with `inclusive:` and one sample, Ruby divides
  0.0 by 0, sets the clock to NaN and runs the block once. Reals have no
  NaN, so the model returns `NotANumber` without running the block.
- `RfbConn.WaitFor` uses the corrected `RFB_Expecting`. The as-written
  cursor arithmetic is kept on sizes alone (`RfbConn.ExpectingAsWritten`,
  `RfbConn.ReallocAsWritten`).
- The PWM counters are unbounded integers. From any in-range state they
  stay within -10..10, so the C `int` arithmetic cannot overflow.
- `user_init` is not modelled. It is GPIO and timer setup.
- esp8266/05 and esp8266/06 are not modelled. They are SDK plumbing.

## Findings

| source | as written | input that shows it | evidently intended | confidence | as-written member | corrected member |
|---|---|---|---|---|---|---|
| tango/lib/tango.rb:365-373 | `sample(data)` with no time uses the clock itself as the timeframe and adds it to the clock | clock at 5: the sample is recorded at 10 and the clock is left at 10 | record at the current time and leave the clock alone, as the comment on line 360 says | not executed | TangoScope.SampleHereDoublesClock | TangoScope.SampleAtNow |
| rfb/main.c:284-293 | `RFB_Expecting` asks `RFB_Realloc` for the overflow past the buffer measured from `offset`, but `RFB_Realloc` measures from the end of the buffered data | size 1024, offset 1000, len 0, expecting 30: no reallocation, and 30 bytes do not fit | afterwards there is room for the expected bytes at `offset` | not executed | RfbConn.ExpectingAsWrittenLeavesNoRoom | RfbConn.Expecting |
| rfb/main.c:268-274 | the `memcpy` copies the new buffer's full size, `len + size` bytes, from `offset` | size 1024, offset 0, len 1024, need 1: 1025 bytes are read from a 1024-byte buffer | copy only the `len` buffered bytes | not executed | RfbConn.ReallocAsWrittenOverReads | RfbConn.Realloc |
| rfb/main.c:624-632 | the ClientCutText length is used as loaded, without `RFB32` | little-endian host, length field 00 00 00 05: the server waits for 83886080 bytes | `RFB32(m->len)`, which is 5 | not executed | RfbSession.CutTextLengthAsWrittenMisreads | RfbSession.CutTextLength |

=== FILE: bytes.dfy ===
/** Bytes and the most-significant-first bit layout shared by the CHR-ROM
    packer and the RFB wire format. */
module Bytes {
  type Byte = b: int | 0 <= b < 256

  function Pow2(n: nat): (p: nat)
    ensures p >= 1
  {
    if n == 0 then 1 else 2 * Pow2(n - 1)
  }

  lemma Pow2Values()
    ensures Pow2(8) == 256 && Pow2(16) == 65536 && Pow2(32) == 4294967296
  {
    assert Pow2(4) == 16;
    assert Pow2(8) == 256;
    assert Pow2(12) == 4096;
    assert Pow2(16) == 65536;
    assert Pow2(24) == 16777216;
  }

  predicate IsBits(bits: seq<int>) {
    forall i :: 0 <= i < |bits| ==> 0 <= bits[i] <= 1
  }

  /** The number whose binary digits, most significant first, are `bits`. */
  function FromBits(bits: seq<int>): (v: nat)
    requires IsBits(bits)
    ensures v < Pow2(|bits|)
  {
    if |bits| == 0 then 0 else 2 * FromBits(bits[..|bits| - 1]) + bits[|bits| - 1]
  }

  /** The lowest `n` binary digits of `v`, most significant first. */
  function ToBits(v: nat, n: nat): (bits: seq<int>)
    ensures |bits| == n && IsBits(bits)
  {
    if n == 0 then [] else ToBits(v / 2, n - 1) + [v % 2]
  }

  /** Reading digits back gives the digits that were written. */
  lemma {:induction false} ToFromBits(bits: seq<int>)
    requires IsBits(bits)
    ensures ToBits(FromBits(bits), |bits|) == bits
  {
    if |bits| > 0 {
      var front := bits[..|bits| - 1];
      ToFromBits(front);
      assert FromBits(bits) / 2 == FromBits(front);
      assert FromBits(bits) % 2 == bits[|bits| - 1];
    }
  }

  /** Writing the lowest `n` digits of a number below 2^n and reading them
      back gives the number. */
  lemma {:induction false} FromToBits(v: nat, n: nat)
    requires v < Pow2(n)
    ensures FromBits(ToBits(v, n)) == v
  {
    if n > 0 {
      FromToBits(v / 2, n - 1);
      assert ToBits(v, n)[..n - 1] == ToBits(v / 2, n - 1);
    }
  }

  /** The bit of byte `b` at position `k` counting from the most
      significant (k = 0) to the least significant (k = 7). */
  function BitAt(b: Byte, k: nat): (bit: int)
    requires k < 8
    ensures bit == 0 || bit == 1
  {
    ToBits(b, 8)[k]
  }

  /** A byte is determined by its eight bits. */
  lemma SameBitsSameByte(a: Byte, b: Byte)
    requires forall k :: 0 <= k < 8 ==> BitAt(a, k) == BitAt(b, k)
    ensures a == b
  {
    Pow2Values();
    var ba, bb := ToBits(a, 8), ToBits(b, 8);
    assert forall k :: 0 <= k < 8 ==> ba[k] == BitAt(a, k) && bb[k] == BitAt(b, k);
    assert ba == bb;
    FromToBits(a, 8);
    FromToBits(b, 8);
  }

  /** The byte whose bits, most significant first, are `bits`. */
  function ByteOf(bits: seq<int>): (b: Byte)
    requires |bits| == 8 && IsBits(bits)
    ensures forall k :: 0 <= k < 8 ==> BitAt(b, k) == bits[k]
  {
    Pow2Values();
    ToFromBits(bits);
    FromBits(bits)
  }

  /** Bits packed eight to a byte, most significant first. */
  function Pack(bits: seq<int>): (r: seq<Byte>)
    requires |bits| % 8 == 0 && IsBits(bits)
    ensures |r| == |bits| / 8
    ensures forall k, x :: 0 <= k < |r| && 0 <= x < 8 ==> BitAt(r[k], x) == bits[8 * k + x]
  {
    if |bits| == 0 then []
    else
      var rest := Pack(bits[8..]);
      var r := [ByteOf(bits[..8])] + rest;
      PackTail(bits, rest, r);
      r
  }

  lemma PackTail(bits: seq<int>, rest: seq<Byte>, r: seq<Byte>)
    requires |bits| == 8 * |r| && |r| == |rest| + 1 && r[1..] == rest
    requires forall k, x :: 0 <= k < |rest| && 0 <= x < 8 ==> BitAt(rest[k], x) == bits[8..][8 * k + x]
    ensures forall k, x :: 1 <= k < |r| && 0 <= x < 8 ==> BitAt(r[k], x) == bits[8 * k + x]
  {
    forall k, x | 1 <= k < |r| && 0 <= x < 8
      ensures BitAt(r[k], x) == bits[8 * k + x]
    {
      assert r[k] == rest[k - 1];
      assert bits[8..][8 * (k - 1) + x] == bits[8 * k + x];
    }
  }

  /** `n` zero bytes. */
  function Zeros(n: nat): (r: seq<Byte>)
    ensures |r| == n && forall i :: 0 <= i < n ==> r[i] == 0
  {
    seq(n, i => 0)
  }
}

=== FILE: chr_rom.dfy ===
/** The character ROM (nes/chromp/chromp.rb, class NesCharRom): 256 slots
    filled through a write counter, and its binary image. */
module ChrRom {
  import opened Results
  import opened Bytes
  import opened ChrTile

  const Slots: nat := 256
  const TileBytes: nat := 16

  /** `@chars` (a slot is nil until written) and `@counter`. The counter can
      be sought anywhere, including negative positions. */
  datatype Rom = Rom(chars: seq<Option<Tile>>, counter: int)

  predicate ValidRom(rom: Rom) {
    |rom.chars| == Slots && forall i :: 0 <= i < |rom.chars| && rom.chars[i].Some? ==> ValidTile(rom.chars[i].value)
  }

  /** `NesCharRom.new`. */
  function EmptyRom(): (rom: Rom)
    ensures ValidRom(rom) && rom.counter == 0
    ensures forall i :: 0 <= i < Slots ==> rom.chars[i].None?
  {
    Rom(seq(Slots, i => None), 0)
  }

  /** The slot Ruby's array index `i` denotes: from the front for 0..255,
      from the back for -256..-1, none otherwise. */
  function SlotOf(i: int): (r: Option<nat>)
    ensures r.Some? <==> -(Slots as int) <= i < Slots
    ensures r.Some? ==> r.value < Slots && (r.value == i || r.value == i + Slots)
  {
    if 0 <= i < Slots then Some(i)
    else if -(Slots as int) <= i < 0 then Some(i + Slots)
    else None
  }

  /** `<<` raises once the counter has reached the end of the table; a
      counter sought before the front of the table makes the assignment
      raise; `[]` with an empty string raises. */
  datatype RomError = Full | BeforeStart(counter: int) | EmptyName

  /** `<<(char)`: stores the character at the counter and advances it. */
  function Push(rom: Rom, t: Tile): (r: Result<Rom, RomError>)
    requires ValidRom(rom) && ValidTile(t)
    ensures rom.counter >= Slots as int ==> r == Err(Full)
    ensures r.Err? <==> SlotOf(rom.counter).None?
    ensures r.Ok? ==> ValidRom(r.value) && r.value.counter == rom.counter + 1
    ensures r.Ok? ==> r.value.chars[SlotOf(rom.counter).value] == Some(t)
    ensures r.Ok? ==> forall i :: 0 <= i < Slots && i != SlotOf(rom.counter).value ==> r.value.chars[i] == rom.chars[i]
  {
    if rom.counter >= Slots as int then Err(Full)
    else match SlotOf(rom.counter)
      case None => Err(BeforeStart(rom.counter))
      case Some(s) => Ok(Rom(rom.chars[s := Some(t)], rom.counter + 1))
  }

  /** `seek(index)`. */
  function Seek(rom: Rom, index: int): (r: Rom)
    ensures r.chars == rom.chars && r.counter == index
  {
    rom.(counter := index)
  }

  /** `[](index)`: the character in a slot, nil for an empty slot or an
      index past either end. */
  function Get(rom: Rom, index: int): (r: Option<Tile>)
    requires ValidRom(rom)
    ensures SlotOf(index).None? ==> r.None?
    ensures SlotOf(index).Some? ==> r == rom.chars[SlotOf(index).value]
  {
    match SlotOf(index)
    case None => None
    case Some(s) => rom.chars[s]
  }

  /** `[](string)`: a string names the slot of its first character's code;
      Ruby's `"".ord` raises. */
  function GetByName(rom: Rom, name: string): (r: Result<Option<Tile>, RomError>)
    requires ValidRom(rom)
    ensures r.Err? <==> name == []
    ensures r.Ok? ==> r.value == Get(rom, name[0] as int)
  {
    if name == [] then Err(EmptyName) else Ok(Get(rom, name[0] as int))
  }

  /** A pushed character is found again at the index it was pushed at. */
  lemma PushThenGet(rom: Rom, t: Tile)
    requires ValidRom(rom) && ValidTile(t) && 0 <= rom.counter < Slots
    ensures Push(rom, t).Ok? && Get(Push(rom, t).value, rom.counter) == Some(t)
  {}

  /** Pushing 256 characters into an empty ROM puts character n in slot n;
      one more push raises. */
  method FillRom(ts: seq<Tile>) returns (r: Result<Rom, RomError>)
    requires forall i :: 0 <= i < |ts| ==> ValidTile(ts[i])
    ensures r.Err? <==> |ts| > Slots
    ensures r.Err? ==> r.error == Full
    ensures r.Ok? ==> ValidRom(r.value) && r.value.counter == |ts|
    ensures r.Ok? ==> forall i :: 0 <= i < Slots ==> r.value.chars[i] == (if i < |ts| then Some(ts[i]) else None)
  {
    var rom := EmptyRom();
    var n := 0;
    while n < |ts|
      invariant 0 <= n <= |ts| && n <= Slots
      invariant ValidRom(rom) && rom.counter == n
      invariant forall i :: 0 <= i < Slots ==> rom.chars[i] == (if i < n then Some(ts[i]) else None)
    {
      var pushed := Push(rom, ts[n]);
      if pushed.Err? {
        return Err(Full);
      }
      rom := pushed.value;
      n := n + 1;
      if n == Slots && n < |ts| {
        return Err(Full);
      }
    }
    return Ok(rom);
  }

  /** The 16 bytes of one slot: the character's encoding, zeros when empty. */
  function SlotBin(c: Option<Tile>): (r: seq<Byte>)
    requires c.Some? ==> ValidTile(c.value)
    ensures |r| == TileBytes
    ensures c.None? ==> r == Zeros(TileBytes)
    ensures c.Some? ==> r == ChrTile.Bin(c.value)
  {
    match c
    case None => Zeros(TileBytes)
    case Some(t) => ChrTile.Bin(t)
  }

  /** The slots' encodings, one after another. */
  function Join(cs: seq<Option<Tile>>): (r: seq<Byte>)
    requires forall i :: 0 <= i < |cs| && cs[i].Some? ==> ValidTile(cs[i].value)
    ensures |r| == TileBytes * |cs|
    ensures forall i :: 0 <= i < |cs| ==> r[TileBytes * i..TileBytes * i + TileBytes] == SlotBin(cs[i])
  {
    if |cs| == 0 then []
    else
      var head := SlotBin(cs[0]);
      var rest := Join(cs[1..]);
      BlockAfterHead(head, rest);
      head + rest
  }

  /** Block `i` of a 16-byte block followed by more blocks is block `i - 1`
      of the latter. */
  lemma BlockAfterHead(head: seq<Byte>, rest: seq<Byte>)
    requires |head| == TileBytes && |rest| % TileBytes == 0
    ensures (head + rest)[0..TileBytes] == head
    ensures forall i :: 1 <= i <= |rest| / TileBytes ==>
      (head + rest)[TileBytes * i..TileBytes * i + TileBytes] == rest[TileBytes * (i - 1)..TileBytes * (i - 1) + TileBytes]
  {
    var r := head + rest;
    forall i | 1 <= i <= |rest| / TileBytes
      ensures r[TileBytes * i..TileBytes * i + TileBytes] == rest[TileBytes * (i - 1)..TileBytes * (i - 1) + TileBytes]
    {
      assert r[TileBytes * i..TileBytes * i + TileBytes] == r[|head|..][TileBytes * (i - 1)..TileBytes * (i - 1) + TileBytes];
    }
  }

  /** `bin(pad_to_512)`: 4 KiB, one 16-byte block per slot in slot order,
      followed by another 4 KiB of zeros when padding to the full 8 KiB
      CHR-ROM. */
  function Bin(rom: Rom, pad: bool): (r: seq<Byte>)
    requires ValidRom(rom)
    ensures |r| == (if pad then 2 else 1) * Slots * TileBytes
    ensures forall i :: 0 <= i < Slots ==> r[TileBytes * i..TileBytes * i + TileBytes] == SlotBin(rom.chars[i])
    ensures forall j :: Slots * TileBytes <= j < |r| ==> r[j] == 0
  {
    var body := Join(rom.chars);
    var r := body + (if pad then Zeros(Slots * TileBytes) else []);
    assert forall i :: 0 <= i < Slots ==> r[TileBytes * i..TileBytes * i + TileBytes] == body[TileBytes * i..TileBytes * i + TileBytes];
    r
  }

  /** Each slot of a ROM image can be read back: a written slot decodes to
      its character (for characters of NES pixel values), an empty one to the
      blank character. */
  lemma BinSlotRoundTrip(rom: Rom, pad: bool, i: nat)
    requires ValidRom(rom) && i < Slots
    requires rom.chars[i].Some? ==> TwoBit(rom.chars[i].value)
    ensures var block := Bin(rom, pad)[TileBytes * i..TileBytes * i + TileBytes];
      Decode(block) == (if rom.chars[i].Some? then rom.chars[i].value else BlankTile())
  {
    var block := Bin(rom, pad)[TileBytes * i..TileBytes * i + TileBytes];
    assert block == SlotBin(rom.chars[i]);
    var t := if rom.chars[i].Some? then rom.chars[i].value else BlankTile();
    if rom.chars[i].None? {
      BlankBinIsZero();
      assert block == ChrTile.Bin(t);
    }
    BinRoundTrip(t);
  }
}

=== FILE: chr_tile.dfy ===
/** One 8x8 NES character (nes/chromp/chromp.rb, class NesChar): pixel
    addressing, extraction from a source image, colour mapping and the
    two-bit-plane CHR-ROM encoding. */
module ChrTile {
  import opened Results
  import opened Bytes

  /** A character: 64 pixel values, row by row. Before colour mapping a
      pixel is a source colour; after it, a NES pixel value 0..3. */
  datatype Tile = Tile(pixels: seq<nat>)

  predicate ValidTile(t: Tile) {
    |t.pixels| == 64
  }

  /** Every pixel is a NES pixel value. */
  predicate TwoBit(t: Tile) {
    forall i :: 0 <= i < |t.pixels| ==> t.pixels[i] < 4
  }

  /** `pixel_index(x, y)`: the position of pixel `(x, y)`. Within the tile
      the position determines the pixel: its column is the position modulo
      8 and its row the position divided by 8. */
  function PixelIndex(x: int, y: int): (i: int)
    ensures 0 <= x < 8 && 0 <= y < 8 ==> 0 <= i < 64 && i % 8 == x && i / 8 == y
  {
    x + y * 8
  }

  /** `pixel_index(row)`: the first and last position of a row. Within the
      tile the range holds exactly the pixels of that row. */
  function RowRange(row: int): (r: (int, int))
    ensures r.1 - r.0 == 7
    ensures forall x, y :: 0 <= x < 8 && 0 <= y < 8 ==>
      (r.0 <= PixelIndex(x, y) <= r.1 <==> y == row)
  {
    (row * 8, row * 8 + 7)
  }

  /** `self[x, y]` inside the tile. */
  function Pixel(t: Tile, x: int, y: int): nat
    requires ValidTile(t) && 0 <= x < 8 && 0 <= y < 8
  {
    t.pixels[PixelIndex(x, y)]
  }

  /** `self[row]`: Ruby's range index over the 64 pixels. Rows -8..-1 count
      from the bottom, row 8 is the empty slice just past the end, and every
      other row is nil. */
  function Row(t: Tile, row: int): (r: Option<seq<nat>>)
    requires ValidTile(t)
    ensures -8 <= row < 8 ==> r.Some? && |r.value| == 8
    ensures 0 <= row < 8 ==> forall x :: 0 <= x < 8 ==> r.value[x] == Pixel(t, x, row)
    ensures -8 <= row < 0 ==> forall x :: 0 <= x < 8 ==> r.value[x] == Pixel(t, x, row + 8)
    ensures row == 8 ==> r == Some([])
    ensures row < -8 || row > 8 ==> r.None?
  {
    var (first, last) := RowRange(row);
    var s := if first < 0 then first + 64 else first;
    var e := if last < 0 then last + 64 else last;
    if s < 0 || s > 64 then None
    else if s == 64 then Some([])
    else Some(t.pixels[s..e + 1])
  }

  /** `NesChar.new` with no image: 64 zero pixels. */
  function BlankTile(): (t: Tile)
    ensures ValidTile(t) && TwoBit(t)
    ensures forall x, y :: 0 <= x < 8 && 0 <= y < 8 ==> Pixel(t, x, y) == 0
  {
    Tile(seq(64, i => 0))
  }

  /** A source image: `height` rows of `width` colours. */
  datatype Image = Image(width: nat, height: nat, px: seq<seq<nat>>)

  predicate ValidImage(img: Image) {
    |img.px| == img.height && forall y :: 0 <= y < |img.px| ==> |img.px[y]| == img.width
  }

  /** Reading a pixel outside the image raises. */
  datatype TileError = OutOfBounds

  /** Whether the tile at `(tx, ty)` lies inside the image. */
  predicate Fits(img: Image, tx: int, ty: int) {
    0 <= tx && 8 * tx + 8 <= img.width && 0 <= ty && 8 * ty + 8 <= img.height
  }

  /** `NesChar.new(src, tile_x:, tile_y:)`: column by column, pixel `(x, y)`
      is source pixel `(8 * tile_x + x, 8 * tile_y + y)`. */
  method ExtractTile(img: Image, tx: int, ty: int) returns (r: Result<Tile, TileError>)
    requires ValidImage(img)
    ensures r.Err? <==> !Fits(img, tx, ty)
    ensures r.Ok? ==> ValidTile(r.value)
    ensures r.Ok? ==> forall x, y :: 0 <= x < 8 && 0 <= y < 8 ==>
      Pixel(r.value, x, y) == img.px[8 * ty + y][8 * tx + x]
  {
    if !Fits(img, tx, ty) {
      return Err(OutOfBounds);
    }
    var left, top := tx * 8, ty * 8;
    var pixels := BlankTile().pixels;
    var x := 0;
    while x < 8
      invariant 0 <= x <= 8 && |pixels| == 64
      invariant forall i, j :: 0 <= i < x && 0 <= j < 8 ==> pixels[PixelIndex(i, j)] == img.px[top + j][left + i]
    {
      var y := 0;
      while y < 8
        invariant 0 <= y <= 8 && |pixels| == 64
        invariant forall i, j :: 0 <= i < x && 0 <= j < 8 ==> pixels[PixelIndex(i, j)] == img.px[top + j][left + i]
        invariant forall j :: 0 <= j < y ==> pixels[PixelIndex(x, j)] == img.px[top + j][left + x]
      {
        pixels := pixels[PixelIndex(x, y) := img.px[top + y][left + x]];
        y := y + 1;
      }
      x := x + 1;
    }
    return Ok(Tile(pixels));
  }

  /** `map_colors!`: every pixel becomes its entry in the colour map, or the
      default colour when it has none. */
  function MapColors(t: Tile, colorMap: map<nat, nat>, default: nat): (r: Tile)
    requires ValidTile(t)
    ensures ValidTile(r)
    ensures forall i :: 0 <= i < 64 ==>
      r.pixels[i] == (if t.pixels[i] in colorMap then colorMap[t.pixels[i]] else default)
  {
    Tile(seq(64, i requires 0 <= i < 64 =>
      if t.pixels[i] in colorMap then colorMap[t.pixels[i]] else default))
  }

  /** A map onto NES pixel values, with such a default, yields a tile of NES
      pixel values whatever colours the source used. */
  lemma MapColorsTwoBit(t: Tile, colorMap: map<nat, nat>, default: nat)
    requires ValidTile(t)
    requires default < 4 && forall c :: c in colorMap ==> colorMap[c] < 4
    ensures TwoBit(MapColors(t, colorMap, default))
  {}

  /** The 128 plane bits: the low bit of every pixel, then the second bit of
      every pixel (`b & 1` and `(b >> 1) & 1`). */
  function Planes(t: Tile): (bits: seq<int>)
    requires ValidTile(t)
    ensures |bits| == 128 && IsBits(bits)
  {
    seq(128, i requires 0 <= i < 128 => if i < 64 then t.pixels[i] % 2 else (t.pixels[i - 64] / 2) % 2)
  }

  /** The bit that bit `x` (from the most significant) of byte `k` of the
      encoding carries: bytes 0..7 hold the low bit of rows 0..7, bytes 8..15
      the second bit of rows 0..7, leftmost pixel first. */
  function PlaneBit(t: Tile, k: int, x: int): int
    requires ValidTile(t) && 0 <= k < 16 && 0 <= x < 8
  {
    if k < 8 then Pixel(t, x, k) % 2 else (Pixel(t, x, k - 8) / 2) % 2
  }

  /** `bin` (and `bytes`, its byte values): the planes packed eight bits to
      a byte, most significant first. */
  function Bin(t: Tile): (r: seq<Byte>)
    requires ValidTile(t)
    ensures |r| == 16
    ensures forall k, x :: 0 <= k < 16 && 0 <= x < 8 ==> BitAt(r[k], x) == PlaneBit(t, k, x)
  {
    Pack(Planes(t))
  }

  /** Reading a character back from its 16 bytes: each pixel is its
      low-plane bit plus twice its high-plane bit. */
  function Decode(bin: seq<Byte>): (t: Tile)
    requires |bin| == 16
    ensures ValidTile(t) && TwoBit(t)
    ensures forall x, y :: 0 <= x < 8 && 0 <= y < 8 ==>
      Pixel(t, x, y) == BitAt(bin[y], x) + 2 * BitAt(bin[8 + y], x)
  {
    var t := Tile(seq(64, i requires 0 <= i < 64 => BitAt(bin[i / 8], i % 8) + 2 * BitAt(bin[8 + i / 8], i % 8)));
    assert forall x, y :: 0 <= x < 8 && 0 <= y < 8 ==> PixelIndex(x, y) / 8 == y && PixelIndex(x, y) % 8 == x;
    t
  }

  /** Encoding a character of NES pixel values loses nothing. */
  lemma BinRoundTrip(t: Tile)
    requires ValidTile(t) && TwoBit(t)
    ensures Decode(Bin(t)) == t
  {
    var d := Decode(Bin(t));
    forall i | 0 <= i < 64
      ensures d.pixels[i] == t.pixels[i]
    {
      var x, y := i % 8, i / 8;
      assert PixelIndex(x, y) == i;
      var p := t.pixels[i];
      assert p % 2 + 2 * ((p / 2) % 2) == p;
    }
  }

  /** Every 16-byte block is the encoding of exactly one character of NES
      pixel values. */
  lemma DecodeRoundTrip(bin: seq<Byte>)
    requires |bin| == 16
    ensures Bin(Decode(bin)) == bin
  {
    var r := Bin(Decode(bin));
    forall k | 0 <= k < 16
      ensures r[k] == bin[k]
    {
      DecodedByte(bin, r, k);
    }
  }

  lemma DecodedByte(bin: seq<Byte>, r: seq<Byte>, k: int)
    requires |bin| == 16 && 0 <= k < 16 && r == Bin(Decode(bin))
    ensures r[k] == bin[k]
  {
    var t := Decode(bin);
    forall x | 0 <= x < 8
      ensures BitAt(r[k], x) == BitAt(bin[k], x)
    {
      if k < 8 {
        DecodedBit(bin, t, r, k, x);
      } else {
        DecodedBit(bin, t, r, k - 8, x);
      }
    }
    SameBitsSameByte(r[k], bin[k]);
  }

  lemma DecodedBit(bin: seq<Byte>, t: Tile, r: seq<Byte>, row: int, x: int)
    requires |bin| == 16 && 0 <= row < 8 && 0 <= x < 8
    requires t == Decode(bin) && r == Bin(t)
    ensures BitAt(r[row], x) == BitAt(bin[row], x)
    ensures BitAt(r[8 + row], x) == BitAt(bin[8 + row], x)
  {
    var lo, hi := BitAt(bin[row], x), BitAt(bin[8 + row], x);
    var p := Pixel(t, x, row);
    assert p == lo + 2 * hi;
    SplitPixel(lo, hi);
    assert BitAt(r[row], x) == PlaneBit(t, row, x);
    assert BitAt(r[8 + row], x) == PlaneBit(t, 8 + row, x);
  }

  /** A pixel value's two bits. */
  lemma SplitPixel(lo: int, hi: int)
    requires 0 <= lo <= 1 && 0 <= hi <= 1
    ensures (lo + 2 * hi) % 2 == lo && ((lo + 2 * hi) / 2) % 2 == hi
  {}

  /** The blank character encodes as 16 zero bytes, the encoding of an
      empty ROM slot. */
  lemma BlankBinIsZero()
    ensures Bin(BlankTile()) == seq(16, k => 0)
  {
    var zeros: seq<Byte> := seq(16, k => 0);
    Pow2Values();
    assert ToBits(0, 8) == [0, 0, 0, 0, 0, 0, 0, 0];
    assert forall x :: 0 <= x < 8 ==> BitAt(0, x) == 0;
    assert Decode(zeros).pixels == BlankTile().pixels;
    DecodeRoundTrip(zeros);
  }
}

=== FILE: pwm.dfy ===
/** The software PWM tick of esp8266/04/blinky_pwm.c (`some_timerfunc`):
    two counters, `step` and `duty`, each running from -10 to 10 and
    wrapping, and one GPIO pin driven from their magnitudes. */
module Pwm {
  /** `PWM_STEPS`. */
  const PwmSteps: int := 10

  /** The GPIO the program drives (`pin`). */
  const Pin: nat := 1

  /** The pin's bit in the GPIO output register, `1 << pin`. */
  const PinMask: bv32 := 2

  /** Every other bit of the register. */
  const OtherPins: bv32 := 0xFFFF_FFFD

  /** Ticks for one run of a counter through its range, -10..10. */
  const Sweep: nat := 2 * PwmSteps as nat + 1

  /** The two counters `step` and `duty`. */
  datatype Counters = Counters(step: int, duty: int)

  /** Both counters start at zero. */
  const Start: Counters := Counters(0, 0)

  predicate InRange(x: int) {
    -PwmSteps <= x <= PwmSteps
  }

  predicate Valid(c: Counters) {
    InRange(c.step) && InRange(c.duty)
  }

  function Abs(x: int): (r: nat)
    ensures r == x || r == -x
  {
    if x < 0 then -x else x
  }

  /** `if (++x > PWM_STEPS) x = -PWM_STEPS`: count up, wrapping from the
      top of the range to its bottom. */
  function Bump(x: int): (r: int)
    ensures InRange(x) ==> InRange(r)
    ensures x < PwmSteps ==> r == x + 1
    ensures x >= PwmSteps ==> r == -PwmSteps
  {
    if x + 1 > PwmSteps then -PwmSteps else x + 1
  }

  /** The counter update of one tick: `step` counts up; when it wraps,
      `duty` counts up too. */
  function Advance(c: Counters): (r: Counters)
    ensures Valid(c) ==> Valid(r)
    ensures c.step < PwmSteps ==> r == Counters(c.step + 1, c.duty)
    ensures c.step >= PwmSteps ==> r.step == -PwmSteps && r.duty == Bump(c.duty)
  {
    var step := Bump(c.step);
    Counters(step, if step == -PwmSteps && c.step >= PwmSteps then Bump(c.duty) else c.duty)
  }

  /** `duty` changes only on a tick where `step` wraps; every other tick
      moves `step` up by one and nothing else. */
  lemma DutyMovesOnlyOnWrap(c: Counters)
    requires Valid(c)
    ensures Advance(c).duty != c.duty ==> c.step == PwmSteps && Advance(c).step == -PwmSteps
    ensures c.step != PwmSteps ==> Advance(c) == Counters(c.step + 1, c.duty)
  {}

  /** The level the tick drives the pin to. */
  datatype Level = Low | High

  /** The comparison `step*step > duty*duty`: the pin goes low when `step`
      is further from zero than `duty`, high otherwise. */
  function LevelOf(c: Counters): (l: Level)
    ensures l == Low <==> Abs(c.step) > Abs(c.duty)
  {
    SquaresOrdered(Abs(c.step), Abs(c.duty));
    if c.step * c.step > c.duty * c.duty then Low else High
  }

  /** Squaring keeps the order of magnitudes. */
  lemma SquaresOrdered(x: nat, y: nat)
    ensures x * x > y * y <==> x > y
  {
    if x > y {
      assert x * x >= x * (y + 1) == x * y + x;
      assert x * y >= y * y;
    } else {
      assert x * x <= x * y <= y * y;
    }
  }

  /** `gpio_output_set(setBits, clearBits, 0, 0)` on the output register: the bits
      of `clearBits` become 0, the other bits of `setBits` become 1, and every
      bit in neither keeps its value. */
  function OutputSet(reg: bv32, setBits: bv32, clearBits: bv32): (r: bv32)
    ensures r == (reg & !(setBits | clearBits)) | (setBits & !clearBits)
  {
    (reg | setBits) & !clearBits
  }

  /** `some_timerfunc`: advance the counters, then drive the pin from the
      new counters. Only the pin's bit of the output register changes. */
  function Tick(c: Counters, reg: bv32): (r: (Counters, bv32))
    ensures r.0 == Advance(c)
    ensures (r.1 & OtherPins) == (reg & OtherPins)
    ensures (r.1 & PinMask) == 0 <==> LevelOf(r.0) == Low
    ensures (r.1 & PinMask) == 0 <==> Abs(r.0.step) > Abs(r.0.duty)
  {
    var next := Advance(c);
    var out := if LevelOf(next) == Low
      then OutputSet(reg, 0, PinMask)
      else OutputSet(reg, PinMask, 0);
    (next, out)
  }

  /** The counters after `n` ticks. */
  function Ticks(c: Counters, n: nat): Counters
    decreases n
  {
    if n == 0 then c else Advance(Ticks(c, n - 1))
  }

  /** From the start, both counters always stay within -10..10. */
  lemma {:induction false} TicksStayInRange(c: Counters, n: nat)
    requires Valid(c)
    ensures Valid(Ticks(c, n))
    decreases n
  {
    if n > 0 {
      TicksStayInRange(c, n - 1);
    }
  }

  lemma {:induction false} TicksAdd(c: Counters, a: nat, b: nat)
    ensures Ticks(c, a + b) == Ticks(Ticks(c, a), b)
    decreases b
  {
    if b > 0 {
      TicksAdd(c, a, b - 1);
    }
  }

  /** Below the top, `k` ticks move `step` up by `k` and leave `duty`. */
  lemma {:induction false} Climb(c: Counters, k: nat)
    requires Valid(c) && c.step + k <= PwmSteps
    ensures Ticks(c, k) == Counters(c.step + k, c.duty)
    decreases k
  {
    if k > 0 {
      Climb(c, k - 1);
    }
  }

  /** Every 21 ticks (one sweep) `step` is back where it was and `duty` has counted up
      once. */
  lemma StepPeriod(c: Counters)
    requires Valid(c)
    ensures Ticks(c, Sweep) == Counters(c.step, Bump(c.duty))
  {
    var up := PwmSteps - c.step;
    var top := Counters(PwmSteps, c.duty);
    var bottom := Counters(-PwmSteps, Bump(c.duty));
    Climb(c, up);
    assert Ticks(top, 1) == bottom;
    TicksAdd(c, up, 1);
    assert Ticks(c, up + 1) == bottom;
    Climb(bottom, c.step + PwmSteps);
    TicksAdd(c, up + 1, c.step + PwmSteps);
    assert up + 1 + (c.step + PwmSteps) == Sweep;
  }

  /** `duty` after `m` wraps of `step`. */
  function Bumps(d: int, m: nat): int
    decreases m
  {
    if m == 0 then d else Bump(Bumps(d, m - 1))
  }

  lemma {:induction false} BumpsInRange(d: int, m: nat)
    requires InRange(d)
    ensures InRange(Bumps(d, m))
    decreases m
  {
    if m > 0 {
      BumpsInRange(d, m - 1);
    }
  }

  lemma {:induction false} BumpsAdd(d: int, a: nat, b: nat)
    ensures Bumps(d, a + b) == Bumps(Bumps(d, a), b)
    decreases b
  {
    if b > 0 {
      BumpsAdd(d, a, b - 1);
    }
  }

  lemma {:induction false} BumpsClimb(d: int, k: nat)
    requires InRange(d) && d + k <= PwmSteps
    ensures Bumps(d, k) == d + k
    decreases k
  {
    if k > 0 {
      BumpsClimb(d, k - 1);
    }
  }

  /** `duty` runs through all 21 values before repeating. */
  lemma BumpsCycle(d: int)
    requires InRange(d)
    ensures Bumps(d, Sweep) == d
  {
    var up := PwmSteps - d;
    BumpsClimb(d, up);
    assert Bumps(PwmSteps, 1) == -PwmSteps;
    BumpsAdd(d, up, 1);
    assert Bumps(d, up + 1) == -PwmSteps;
    BumpsClimb(-PwmSteps, d + PwmSteps);
    BumpsAdd(d, up + 1, d + PwmSteps);
    assert up + 1 + (d + PwmSteps) == Sweep;
  }

  /** `m` periods of `step` count `duty` up `m` times. */
  lemma {:induction false} Periods(c: Counters, m: nat)
    requires Valid(c)
    ensures Ticks(c, Sweep * m) == Counters(c.step, Bumps(c.duty, m))
    decreases m
  {
    if m > 0 {
      var k := Sweep * (m - 1);
      var before := Counters(c.step, Bumps(c.duty, m - 1));
      Periods(c, m - 1);
      BumpsInRange(c.duty, m - 1);
      StepPeriod(before);
      TicksAdd(c, k, Sweep);
      assert k + Sweep == Sweep * m;
    }
  }

  /** The whole pattern repeats every 21 * 21 = 441 ticks. */
  lemma FullPeriod(c: Counters)
    requires Valid(c)
    ensures Ticks(c, Sweep * Sweep) == c
  {
    Periods(c, Sweep);
    BumpsCycle(c.duty);
  }
}

=== FILE: results.dfy ===
/** Failure-compatible wrappers and a small sequence search shared by every
    module of the model. */
module Results {

  datatype Option<+T> = None | Some(value: T) {
    function GetOr(default: T): T {
      match this
      case Some(v) => v
      case None => default
    }
  }

  /** The outcome of an operation that the modelled code may abort with an
      exception or an error return. */
  datatype Result<+T, +E> = Ok(value: T) | Err(error: E) {
    predicate IsFailure() {
      Err?
    }

    function PropagateFailure<U>(): Result<U, E>
      requires Err?
    {
      Err(error)
    }

    function Extract(): T
      requires Ok?
    {
      value
    }
  }

  /** Index of the first element satisfying `p`, as Ruby's `find` and
      `find_index` report it. */
  function FirstIndex<T>(s: seq<T>, p: T -> bool): (r: Option<nat>)
    ensures r.Some? ==> r.value < |s| && p(s[r.value])
    ensures r.Some? ==> forall j :: 0 <= j < r.value ==> !p(s[j])
    ensures r.None? <==> forall j :: 0 <= j < |s| ==> !p(s[j])
  {
    if |s| == 0 then None
    else if p(s[0]) then Some(0)
    else
      match FirstIndex(s[1..], p)
      case None => None
      case Some(i) => Some(i + 1)
  }

  /** Concatenation is associative. */
  lemma Associate<T>(a: seq<T>, b: seq<T>, c: seq<T>)
    ensures a + (b + c) == a + b + c
  {}
}

=== FILE: rfb_conn.dfy ===
/** The receive buffer of an RFB connection (rfb/main.c, `rfb_conn`,
    `RFB_Realloc`, `RFB_Expecting` and `RFB_WaitFor`). The buffer holds
    `len` received, not yet consumed bytes starting at `offset`. `recv` is
    an abstract supplier of chunks. */
module RfbConn {
  import opened Results
  import opened Bytes

  /** `RFB_TCP_BUFFER_INIT`. */
  const InitialSize: nat := 1024

  /** `rfb_conn` without the socket: the buffer (its length is `size`), the
      number of buffered bytes and where they start. */
  datatype Conn = Conn(buffer: seq<Byte>, len: int, offset: int)

  predicate Valid(c: Conn) {
    0 <= c.offset && 0 <= c.len && c.offset + c.len <= |c.buffer|
  }

  /** The bytes received and not yet consumed, oldest first. */
  function Pending(c: Conn): (p: seq<Byte>)
    requires Valid(c)
    ensures |p| == c.len
  {
    c.buffer[c.offset..c.offset + c.len]
  }

  /** `RFB_OpenClient`: an empty buffer of the initial size (malloc failure
      is not modelled; the initial contents are never read). */
  function OpenClient(): (c: Conn)
    ensures Valid(c) && |c.buffer| == InitialSize && Pending(c) == []
  {
    Conn(Zeros(InitialSize), 0, 0)
  }

  // ---- The cursor arithmetic as written ----

  /** The sizes alone: `size`, `len` and `offset`. */
  datatype Cursor = Cursor(size: int, len: int, offset: int)

  predicate ValidCursor(k: Cursor) {
    0 <= k.offset && 0 <= k.len && k.offset + k.len <= k.size
  }

  /** `RFB_Realloc(pc, size)` as written: when the buffered bytes' end plus
      `size` passes the buffer, a buffer of `len + size` bytes replaces it,
      filled from `offset`, and `offset` becomes 0. */
  function ReallocAsWritten(k: Cursor, size: int): (r: Cursor)
    ensures k.offset + k.len + size > k.size ==> r == Cursor(k.len + size, k.len, 0)
    ensures k.offset + k.len + size <= k.size ==> r == k
  {
    if k.offset + k.len + size > k.size then Cursor(k.len + size, k.len, 0) else k
  }

  /** How far into the old buffer the `memcpy` of `RFB_Realloc` reads: it
      copies the new buffer's whole size, `len + size` bytes, from `offset`. */
  function ReallocCopyEnd(k: Cursor, size: int): int {
    k.offset + k.len + size
  }

  /** Whenever `RFB_Realloc` reallocates, its copy reads past the end of the
      old buffer: only `len` bytes from `offset` are data, the rest of the
      range lies beyond `size`. */
  lemma ReallocAsWrittenOverReads(k: Cursor, size: int)
    requires ValidCursor(k) && k.offset + k.len + size > k.size
    ensures ReallocAsWritten(k, size).size == k.len + size
    ensures ReallocCopyEnd(k, size) > k.size
  {}

  /** `RFB_Expecting(pc, size)` as written: reallocates by the amount the
      expected bytes overrun the buffer when read from `offset`. */
  function ExpectingAsWritten(k: Cursor, n: int): (r: Cursor)
    ensures k.offset + n <= k.size ==> r == k
    ensures k.offset + n > k.size ==> r == ReallocAsWritten(k, k.offset + n - k.size)
  {
    var overflow := (k.offset + n) - k.size;
    if overflow > 0 then ReallocAsWritten(k, overflow) else k
  }

  /** The promise of the comments, that after `RFB_Expecting(pc, n)` there
      is room for `n` bytes at `offset`, does not hold as written: with 1000
      of 1024 bytes consumed and none buffered, expecting 30 leaves the
      buffer alone (the overflow, 6, fits after the empty tail), and with 20
      bytes buffered the new buffer has 26 bytes. Either way `RFB_WaitFor`
      then receives past the end of the buffer. */
  lemma ExpectingAsWrittenLeavesNoRoom()
    ensures var k := ExpectingAsWritten(Cursor(1024, 0, 1000), 30); k.offset + 30 > k.size
    ensures var k := ExpectingAsWritten(Cursor(1024, 20, 1000), 30); k == Cursor(26, 20, 0) && k.offset + 30 > k.size
  {}

  // ---- The corrected cursor ----

  /** `RFB_Realloc` corrected: make room for `need` bytes at the start of
      the buffered data. The buffered bytes move to the front of a buffer of
      `max(len, need)` bytes; only they are copied. */
  function Realloc(c: Conn, need: nat): (r: Conn)
    requires Valid(c)
    ensures Valid(r) && Pending(r) == Pending(c)
    ensures r.offset + need <= |r.buffer|
    ensures c.offset + need <= |c.buffer| ==> r == c
  {
    if c.offset + need <= |c.buffer| then c
    else
      var size := if c.len > need then c.len else need;
      var r := Conn(Pending(c) + Zeros(size - c.len), c.len, 0);
      assert Pending(r) == Pending(c);
      r
  }

  /** `RFB_Expecting` corrected: afterwards `n` bytes fit at `offset`, and
      the buffered bytes are unchanged. */
  function Expecting(c: Conn, n: nat): (r: Conn)
    requires Valid(c)
    ensures Valid(r) && Pending(r) == Pending(c)
    ensures r.offset + n <= |r.buffer|
    ensures c.offset + n <= |c.buffer| ==> r == c
  {
    Realloc(c, n)
  }

  /** The corrected pair never leaves a cursor the as-written one reaches
      when the as-written one keeps its promise: both agree when no
      reallocation is needed. */
  lemma ExpectingAgreesWhenRoom(c: Conn, n: nat)
    requires Valid(c) && c.offset + n <= |c.buffer|
    ensures var k := ExpectingAsWritten(Cursor(|c.buffer|, c.len, c.offset), n);
      var r := Expecting(c, n);
      k == Cursor(|r.buffer|, r.len, r.offset)
  {}

  // ---- Receiving ----

  /** What one `recv` call returns: some bytes (none when the peer has
      closed), or a failure. */
  datatype Recv = Chunk(bytes: seq<Byte>) | Failed

  /** Every byte the supplier still holds. */
  function Supply(src: seq<Recv>): nat {
    if |src| == 0 then 0 else (if src[0].Chunk? then |src[0].bytes| else 0) + Supply(src[1..])
  }

  /** The bytes the receive loop keeps from the first `calls` chunks when
      it wants `want` more: each chunk is cut to what is still wanted, as the
      loop's clamp does. */
  function Take(src: seq<Recv>, want: int): (r: seq<Byte>)
    ensures |r| <= (if want > 0 then want else 0)
  {
    if |src| == 0 || want <= 0 || src[0].Failed? then []
    else
      var bs := src[0].bytes;
      var k := if |bs| < want then |bs| else want;
      bs[..k] + Take(src[1..], want - k)
  }

  datatype WaitError = NoData | RecvFailed

  /** The receive loop of `RFB_WaitFor`: while fewer than `n` bytes are
      buffered, appends what the next `recv` returns after them. A closed
      peer (no bytes, or no more chunks) or a failure ends it. On success,
      the connection and how many chunks were taken. */
  function Fill(c: Conn, n: nat, src: seq<Recv>): (r: Result<(Conn, nat), WaitError>)
    requires Valid(c) && c.offset + n <= |c.buffer|
    ensures r.Ok? ==> Valid(r.value.0) && r.value.0.offset == c.offset && |r.value.0.buffer| == |c.buffer|
    ensures r.Ok? ==> r.value.0.len == (if c.len >= n then c.len else n) && r.value.1 <= |src|
    ensures r.Ok? ==> Pending(r.value.0) == Pending(c) + Take(src[..r.value.1], n - c.len)
    ensures r.Ok? ==> r.value.0.len + Supply(src[r.value.1..]) <= c.len + Supply(src)
    decreases |src|
  {
    if c.len >= n then
      assert src[..0] == [] && src[0..] == src;
      Ok((c, 0))
    else if |src| == 0 then Err(NoData)
    else match src[0]
      case Failed => Err(RecvFailed)
      case Chunk(bs) =>
        if |bs| == 0 then Err(NoData)
        else
          var k := if |bs| < n - c.len then |bs| else n - c.len;
          var c1 := Append(c, bs[..k]);
          assert c1.len == c.len + k && Pending(c1) == Pending(c) + bs[..k];
          match Fill(c1, n, src[1..])
          case Err(e) => Err(e)
          case Ok((c2, used)) =>
            FillStep(c, c1, c2, n, src, used);
            Ok((c2, used + 1))
  }

  /** The bytes `bs` received after the buffered ones. */
  function Append(c: Conn, bs: seq<Byte>): (r: Conn)
    requires Valid(c) && c.offset + c.len + |bs| <= |c.buffer|
    ensures Valid(r) && r.offset == c.offset && r.len == c.len + |bs| && |r.buffer| == |c.buffer|
    ensures Pending(r) == Pending(c) + bs
  {
    var at := c.offset + c.len;
    var r := Conn(c.buffer[..at] + bs + c.buffer[at + |bs|..], c.len + |bs|, c.offset);
    assert Pending(r) == r.buffer[c.offset..at] + bs;
    r
  }

  /** One round of the receive loop keeps the loop's postcondition. */
  lemma FillStep(c: Conn, c1: Conn, c2: Conn, n: nat, src: seq<Recv>, used: nat)
    requires Valid(c) && Valid(c1) && Valid(c2) && c.len < n && |src| > 0 && src[0].Chunk?
    requires var bs := src[0].bytes; var k := if |bs| < n - c.len then |bs| else n - c.len;
      c1.len == c.len + k && Pending(c1) == Pending(c) + bs[..k]
    requires used + 1 <= |src| && c2.len == n
    requires Pending(c2) == Pending(c1) + Take(src[1..][..used], n - c1.len)
    requires c2.len + Supply(src[1..][used..]) <= c1.len + Supply(src[1..])
    ensures Pending(c2) == Pending(c) + Take(src[..used + 1], n - c.len)
    ensures c2.len + Supply(src[used + 1..]) <= c.len + Supply(src)
  {
    assert src[..used + 1][1..] == src[1..][..used];
    assert src[1..][used..] == src[used + 1..];
  }

  /** What `RFB_WaitFor` hands back: the `n` bytes, the connection after
      them and the chunks not yet received. */
  datatype Got = Got(data: seq<Byte>, conn: Conn, rest: seq<Recv>)

  /** `RFB_WaitFor(pc, n)` (with the corrected `RFB_Expecting`): the `n`
      bytes at the front of the buffered data, after receiving as many as
      are missing; `offset` advances by `n` and `len` drops by `n`. The
      bytes come out in the order they were received, and a read of more
      than the buffer and the supplier hold fails. */
  function WaitFor(c: Conn, n: nat, src: seq<Recv>): (r: Result<Got, WaitError>)
    requires Valid(c)
    ensures r.Ok? ==> Valid(r.value.conn) && |r.value.data| == n
    ensures r.Ok? ==> r.value.conn.offset == (if c.offset + n <= |c.buffer| then c.offset else 0) + n
    ensures r.Ok? ==> r.value.conn.len == (if c.len >= n then c.len else n) - n
    ensures r.Ok? ==> |r.value.rest| <= |src| && r.value.rest == src[|src| - |r.value.rest|..]
    ensures r.Ok? ==> (r.value.data + Pending(r.value.conn)
      == Pending(c) + Take(src[..|src| - |r.value.rest|], n - c.len))
    ensures r.Ok? ==> n + r.value.conn.len + Supply(r.value.rest) <= c.len + Supply(src)
    ensures c.len >= n ==> r.Ok? && r.value.rest == src && r.value.data == Pending(c)[..n]
    ensures c.len < n && Supply(src) == 0 ==> r.Err?
  {
    var c1 := Expecting(c, n);
    NoSupplyNoData(c1, n, src);
    match Fill(c1, n, src)
    case Err(e) => Err(e)
    case Ok((c2, used)) =>
      var (data, c3) := Consume(c2, n);
      var rest := src[used..];
      assert src[..|src| - |rest|] == src[..used];
      Ok(Got(data, c3, rest))
  }

  /** The `n` oldest buffered bytes taken off the front: the cursor moves
      past them and the rest stay buffered. */
  function Consume(c: Conn, n: nat): (r: (seq<Byte>, Conn))
    requires Valid(c) && n <= c.len
    ensures Valid(r.1) && |r.0| == n && r.0 == Pending(c)[..n]
    ensures r.1.buffer == c.buffer && r.1.offset == c.offset + n && r.1.len == c.len - n
    ensures r.0 + Pending(r.1) == Pending(c)
  {
    var c1 := Conn(c.buffer, c.len - n, c.offset + n);
    assert c.buffer[c.offset..c.offset + n] + Pending(c1) == Pending(c);
    (c.buffer[c.offset..c.offset + n], c1)
  }

  /** With nothing left to receive, a read of more than is buffered fails. */
  lemma {:induction false} NoSupplyNoData(c: Conn, n: nat, src: seq<Recv>)
    requires Valid(c) && c.offset + n <= |c.buffer|
    ensures c.len < n && Supply(src) == 0 ==> Fill(c, n, src).Err?
    decreases |src|
  {
    if c.len < n && Supply(src) == 0 && |src| > 0 && src[0].Chunk? {
      assert |src[0].bytes| == 0;
    }
  }

  /** `RFB_CloseClient`: no buffer, all counts zero. */
  function CloseClient(c: Conn): (r: Conn)
    ensures Valid(r) && |r.buffer| == 0 && Pending(r) == []
  {
    Conn([], 0, 0)
  }
}

=== FILE: rfb_session.dfy ===
/** One RFB client session of rfb/main.c: the handshake (`RFB_Handshake`),
    reading one client command (`RFB_WaitForClientCommand`) and the
    connection loop (`RFB_HandleClient`). The server only reads commands; it
    never answers them. What the server sends is collected as a transcript
    (sends are taken to succeed). */
module RfbSession {
  import opened Results
  import opened Bytes
  import opened RfbWire
  import opened RfbConn

  /** What the compiler decides: the host's byte order and whether plain
      `char` is signed. */
  datatype Platform = Platform(host: Host, signedChar: bool)

  const I32Range: int := 2147483648

  /** An `unsigned int` converted to `int`: values from 2^31 up wrap to
      negative (two's complement, as the supported compilers do). */
  function ToInt32(v: nat): (r: int)
    requires v < U32Range
    ensures -I32Range <= r < I32Range
    ensures r == v || r == v - U32Range
    ensures r < 0 <==> v >= I32Range
  {
    if v >= I32Range then v - U32Range else v
  }

  /** `(unsigned int)data[0]` for the byte `b` read through a `char`: with
      signed `char` the bytes 128..255 sign-extend. */
  function CharToUnsigned(p: Platform, b: Byte): (v: nat)
    ensures v < U32Range && v % 256 == b
    ensures v < 256 <==> !(p.signedChar && b >= 128)
  {
    if p.signedChar && b >= 128 then b - 256 + U32Range else b
  }

  /** The `int` the command loop sees for a command byte: the byte itself,
      or the byte minus 256 when `char` is signed and the byte is 128 or
      more. It is negative exactly in that case. */
  lemma CommandValueOfByte(p: Platform, b: Byte)
    ensures ToInt32(CharToUnsigned(p, b)) == (if p.signedChar && b >= 128 then b - 256 else b)
    ensures ToInt32(CharToUnsigned(p, b)) < 0 <==> p.signedChar && b >= 128
  {}

  /** A connection after a read, and the chunks still to come. */
  datatype Link = Link(conn: Conn, rest: seq<Recv>)

  /** `RFB_WaitForU8`: one byte, widened as the `char` it is read through. */
  function WaitForU8(p: Platform, c: Conn, src: seq<Recv>): (r: Result<(nat, Link), WaitError>)
    requires Valid(c)
    ensures r.Ok? ==> r.value.0 < U32Range && Valid(r.value.1.conn)
    ensures r.Ok? ==> r.value.0 < 256 || (p.signedChar && r.value.0 >= U32Range - 128)
    ensures r.Ok? ==> 1 + r.value.1.conn.len + Supply(r.value.1.rest) <= c.len + Supply(src)
    ensures c.len >= 1 ==> (r.Ok? && r.value.0 == CharToUnsigned(p, Pending(c)[0])
      && Pending(r.value.1.conn) == Pending(c)[1..] && r.value.1.rest == src)
    ensures c.len == 0 && Supply(src) == 0 ==> r.Err?
  {
    match WaitFor(c, 1, src)
    case Err(e) => Err(e)
    case Ok(got) =>
      assert c.len >= 1 ==> Pending(c) == got.data + Pending(got.conn);
      Ok((CharToUnsigned(p, got.data[0]), Link(got.conn, got.rest)))
  }

  // ---- The handshake ----

  /** The server's name, `"Anton's Test Server"`. */
  function ServerName(): (r: seq<Byte>)
    ensures |r| == 19 && CString(r)
  {
    Ascii("Anton's Test Server")
  }

  /** Width and height `RFB_Handshake` announces. */
  const ScreenSize: nat := 500

  /** What the server sends once the client's version string has arrived:
      the security type, and after the share flag the ServerInit message. */
  function SecurityReply(): (r: seq<Byte>)
    ensures |r| == 4 && DecodeU32(r) == SecurityNone
  {
    EncodeU32(SecurityNone)
  }

  function InitReply(padding: seq<Byte>): (r: seq<Byte>)
    requires |padding| == 3
    ensures |r| == 24 + 19
  {
    ServerInit(ScreenSize, ScreenSize, ServerName(), padding)
  }

  /** The bytes sent during the handshake, and how it ended. */
  datatype Handshook = Handshook(sent: seq<Byte>, outcome: Result<Link, WaitError>)

  /** `RFB_Handshake`: wait for the client's 12-byte version string, send
      the security type None, wait for the one-byte ClientInit (its share
      flag is ignored), send ServerInit. A client that has sent nothing and
      sends nothing gets nothing. */
  function Handshake(p: Platform, c: Conn, src: seq<Recv>, padding: seq<Byte>): (h: Handshook)
    requires Valid(c) && |padding| == 3
    ensures h.outcome.Ok? ==> h.sent == SecurityReply() + InitReply(padding)
    ensures h.outcome.Err? ==> h.sent == [] || h.sent == SecurityReply()
    ensures h.outcome.Ok? ==> Valid(h.outcome.value.conn)
    ensures h.outcome.Ok? ==> 13 + h.outcome.value.conn.len + Supply(h.outcome.value.rest) <= c.len + Supply(src)
    ensures c.len >= 13 ==> h.outcome.Ok? && Pending(h.outcome.value.conn) == Pending(c)[13..]
    ensures c.len == 0 && Supply(src) == 0 ==> h.outcome.Err? && h.sent == []
  {
    match WaitFor(c, 12, src)
    case Err(e) => Handshook([], Err(e))
    case Ok(got) =>
      match WaitForU8(p, got.conn, got.rest)
      case Err(e) => Handshook(SecurityReply(), Err(e))
      case Ok((_, link)) =>
        assert c.len >= 13 ==> Pending(link.conn) == Pending(c)[13..] by {
          if c.len >= 13 {
            assert got.data + Pending(got.conn) == Pending(c);
            assert Pending(got.conn) == Pending(c)[12..];
            assert Pending(link.conn) == Pending(c)[12..][1..];
          }
        }
        Handshook(SecurityReply() + InitReply(padding), Ok(link))
  }

  /** A client reading what a completed handshake sent finds security type
      None and then a ServerInit for a 500x500 screen in the server's pixel
      format, named "Anton's Test Server". */
  lemma HandshakeReplyParses(padding: seq<Byte>)
    requires |padding| == 3
    ensures var sent := SecurityReply() + InitReply(padding);
      DecodeU32(sent[..4]) == SecurityNone
      && ParseServerInit(sent[4..]) == Ok(ServerInitMsg(ScreenSize, ScreenSize, ServerFormat, ServerName()))
  {
    var sent := SecurityReply() + InitReply(padding);
    assert sent[..4] == SecurityReply() && sent[4..] == InitReply(padding);
    ServerInitRoundTrip(ScreenSize, ScreenSize, ServerName(), padding);
  }

  // ---- Client commands ----

  /** Client-to-server message types (section 7.5 of RFC 6143). */
  const SetPixelFormat: nat := 0
  const SetEncodings: nat := 2
  const FramebufferUpdateRequest: nat := 3
  const KeyEvent: nat := 4
  const PointerEvent: nat := 5
  const ClientCutText: nat := 6

  /** The size of the fixed part that follows a known message type (the
      packed `*_t` structures); none for an unknown type. */
  function StructSize(v: nat): (r: Option<nat>)
    ensures r.Some? <==> v in {SetPixelFormat, SetEncodings, FramebufferUpdateRequest, KeyEvent, PointerEvent, ClientCutText}
    ensures v == SetPixelFormat ==> r == Some(3 + 16)
    ensures v == KeyEvent ==> r == Some(1 + 2 + 4)
    ensures v == PointerEvent ==> r == Some(1 + 2 + 2)
  {
    if v == SetPixelFormat then Some(19)
    else if v == SetEncodings then Some(3)
    else if v == FramebufferUpdateRequest then Some(9)
    else if v == KeyEvent then Some(7)
    else if v == PointerEvent then Some(5)
    else if v == ClientCutText then Some(7)
    else None
  }

  /** `len = m->len` in the ClientCutText case as written: the 32-bit field
      loaded in host order and never passed through `RFB32`. */
  function CutTextLengthAsWritten(host: Host, field: seq<Byte>): (r: int)
    requires |field| == 4
    ensures host == BigEndian ==> r == ToInt32(DecodeU32(field))
  {
    ToInt32(LoadU32(host, field))
  }

  /** The length as the protocol means it: `RFB32(m->len)`, the field's
      big-endian value, on either host. */
  function CutTextLength(host: Host, field: seq<Byte>): (r: int)
    requires |field| == 4
    ensures r == ToInt32(DecodeU32(field))
  {
    SwapLoadedU32(host, field);
    ToInt32(Rfb32(host, LoadU32(host, field)))
  }

  /** On a little-endian host the unswapped length is wrong: a client
      announcing 5 bytes of cut text makes the server wait for 83886080. */
  lemma CutTextLengthAsWrittenMisreads()
    ensures CutTextLength(LittleEndian, [0, 0, 0, 5]) == 5
    ensures CutTextLengthAsWritten(LittleEndian, [0, 0, 0, 5]) == 83886080
  {
    assert DecodeU32([0, 0, 0, 5]) == 5 by {
      assert [0, 0, 0, 5][..2] == [0, 0] && [0, 0, 0, 5][2..] == [0, 5];
    }
    assert LoadU32(LittleEndian, [0, 0, 0, 5]) == 83886080 by {
      assert [5, 0, 0, 0][..2] == [5, 0] && [5, 0, 0, 0][2..] == [0, 0];
    }
  }

  /** The encoding count of SetEncodings, `RFB16(m->count)`: the field's
      big-endian value on either host. */
  function EncodingCount(host: Host, field: seq<Byte>): (r: nat)
    requires |field| == 2
    ensures r == DecodeU16(field)
  {
    SwapLoadedU16(host, field);
    Rfb16(host, LoadU16(host, field))
  }

  /** How many bytes follow the fixed part: four per encoding type for
      SetEncodings, the text for ClientCutText when its length is
      positive, none otherwise. */
  function ExtraSize(host: Host, v: nat, m: seq<Byte>): (r: nat)
    requires StructSize(v).Some? && |m| == StructSize(v).value
    ensures v == SetEncodings ==> r == 4 * DecodeU16(m[1..3])
    ensures v == ClientCutText ==> r == (if ToInt32(DecodeU32(m[3..7])) > 0 then ToInt32(DecodeU32(m[3..7])) else 0)
    ensures v !in {SetEncodings, ClientCutText} ==> r == 0
  {
    if v == SetEncodings then 4 * EncodingCount(host, m[1..3])
    else if v == ClientCutText then
      var len := CutTextLength(host, m[3..7]);
      if len > 0 then len else 0
    else 0
  }

  /** A command read off the connection: the value the loop sees, and the
      connection after the whole message. */
  datatype Command = Command(value: int, link: Link)

  /** The bytes a command of type `v` occupies at the least: its type byte
      and its fixed part. */
  function MinLength(v: nat): (r: nat)
    ensures r >= 1
  {
    1 + StructSize(v).GetOr(0)
  }

  /** Whether `v` is a message whose length is its fixed part alone. */
  predicate FixedLength(v: nat) {
    StructSize(v).Some? && v != SetEncodings && v != ClientCutText
  }

  /** The body of a known message: its fixed part (`RFB_WaitForStruct`),
      then the data its fixed part announces, if any. A fixed-length body
      that is already buffered is taken from the buffer alone. */
  function ReadBody(host: Host, v: nat, link: Link): (r: Result<Link, WaitError>)
    requires Valid(link.conn) && StructSize(v).Some?
    ensures r.Ok? ==> Valid(r.value.conn)
    ensures r.Ok? ==> StructSize(v).value + r.value.conn.len + Supply(r.value.rest) <= link.conn.len + Supply(link.rest)
    ensures FixedLength(v) && link.conn.len >= StructSize(v).value ==>
      (r.Ok? && r.value.rest == link.rest && Pending(r.value.conn) == Pending(link.conn)[StructSize(v).value..])
  {
    var size := StructSize(v).value;
    match WaitFor(link.conn, size, link.rest)
    case Err(e) => Err(e)
    case Ok(got) =>
      var extra := ExtraSize(host, v, got.data);
      if extra == 0 then
        assert link.conn.len >= size ==> got.data + Pending(got.conn) == Pending(link.conn);
        Ok(Link(got.conn, got.rest))
      else
        match WaitFor(got.conn, extra, got.rest)
        case Err(e) => Err(e)
        case Ok(more) => Ok(Link(more.conn, more.rest))
  }

  /** What `RFB_WaitForClientCommand` promises of the result `r` of reading
      a command from `c` and the chunks `src`. The value is the type byte as
      an `int`: below 256, and negative only where `char` is signed and the
      byte is 128 or more; such a byte is consumed alone where `char` is
      unsigned. A command consumes at least its type byte and fixed part. A
      fixed-length message already buffered is read whole from the buffer,
      and with nothing buffered and nothing to receive the read fails. */
  predicate ReadsCommand(p: Platform, c: Conn, src: seq<Recv>, r: Result<Command, WaitError>)
    requires Valid(c)
  {
    && (r.Ok? ==> Valid(r.value.link.conn))
    && (r.Ok? ==> r.value.value < 256 && (r.value.value < 0 ==> p.signedChar))
    && (r.Ok? && r.value.value >= 0 ==>
      MinLength(r.value.value) + r.value.link.conn.len + Supply(r.value.link.rest) <= c.len + Supply(src))
    && (r.Ok? ==> 1 + r.value.link.conn.len + Supply(r.value.link.rest) <= c.len + Supply(src))
    && (r.Ok? && c.len >= 1 ==> r.value.value == ToInt32(CharToUnsigned(p, Pending(c)[0])))
    && (c.len >= 1 && Pending(c)[0] >= 128 ==> (r.Ok? && (r.value.value < 0 <==> p.signedChar)))
    && (c.len >= 1 && Pending(c)[0] >= 128 && !p.signedChar ==>
      (r.Ok? && r.value.value == Pending(c)[0] && r.value.link.rest == src
       && Valid(r.value.link.conn) && Pending(r.value.link.conn) == Pending(c)[1..]))
    && (c.len >= 1 && FixedLength(Pending(c)[0]) && c.len >= MinLength(Pending(c)[0]) ==>
      (r.Ok? && r.value.value == Pending(c)[0] && r.value.link.rest == src
       && Valid(r.value.link.conn) && Pending(r.value.link.conn) == Pending(c)[MinLength(Pending(c)[0])..]))
    && (c.len == 0 && Supply(src) == 0 ==> r.Err?)
  }

  /** `RFB_WaitForClientCommand`: read the type byte, then the body of a
      known message. An unknown type reads nothing more. */
  function ClientCommand(p: Platform, c: Conn, src: seq<Recv>): (r: Result<Command, WaitError>)
    requires Valid(c)
    ensures ReadsCommand(p, c, src, r)
  {
    match WaitForU8(p, c, src)
    case Err(e) =>
      NoTypeByte(p, c, src, e);
      Err(e)
    case Ok((v, link)) =>
      match CommandBody(p.host, v, link)
      case Err(e) =>
        NoBody(p, c, src, v, link, e);
        Err(e)
      case Ok(body) =>
        WholeCommand(p, c, src, v, link, body);
        Ok(Command(ToInt32(v), body))
  }

  /** A failed read of the type byte fails the command. */
  lemma NoTypeByte(p: Platform, c: Conn, src: seq<Recv>, e: WaitError)
    requires Valid(c) && WaitForU8(p, c, src) == Err(e)
    ensures ReadsCommand(p, c, src, Err(e))
  {}

  /** A failed read of the body fails the command; it happens only for a
      known type whose body is not all buffered. */
  lemma NoBody(p: Platform, c: Conn, src: seq<Recv>, v: nat, link: Link, e: WaitError)
    requires Valid(c) && WaitForU8(p, c, src) == Ok((v, link))
    requires CommandBody(p.host, v, link) == Err(e)
    ensures ReadsCommand(p, c, src, Err(e))
  {
    if c.len >= 1 {
      var b := Pending(c)[0];
      assert v == CharToUnsigned(p, b) && Pending(link.conn) == Pending(c)[1..];
      assert b >= 128 ==> StructSize(v).None?;
    }
  }

  /** The type byte and the body read make the command. */
  lemma WholeCommand(p: Platform, c: Conn, src: seq<Recv>, v: nat, link: Link, body: Link)
    requires Valid(c) && WaitForU8(p, c, src) == Ok((v, link))
    requires CommandBody(p.host, v, link) == Ok(body)
    ensures ReadsCommand(p, c, src, Ok(Command(ToInt32(v), body)))
  {
    var b: Byte := if c.len >= 1 then Pending(c)[0] else 0;
    CommandValueOfByte(p, b);
    if c.len >= 1 {
      assert v == CharToUnsigned(p, b) && link.rest == src && Pending(link.conn) == Pending(c)[1..];
      assert b >= 128 ==> StructSize(v).None?;
      if FixedLength(b) && c.len >= MinLength(b) {
        assert Pending(c)[1..][StructSize(v).value..] == Pending(c)[MinLength(v)..];
      }
    }
  }

  /** What follows the type byte `v`: the body of a known message, nothing
      for an unknown type. */
  function CommandBody(host: Host, v: nat, link: Link): (r: Result<Link, WaitError>)
    requires Valid(link.conn)
    ensures r.Ok? ==> Valid(r.value.conn)
    ensures StructSize(v).None? ==> r == Ok(link)
    ensures r.Ok? ==> MinLength(v) + r.value.conn.len + Supply(r.value.rest) <= 1 + link.conn.len + Supply(link.rest)
    ensures FixedLength(v) && link.conn.len >= StructSize(v).value ==>
      r.Ok? && r.value.rest == link.rest && Pending(r.value.conn) == Pending(link.conn)[StructSize(v).value..]
  {
    if StructSize(v).None? then Ok(link) else ReadBody(host, v, link)
  }

  // ---- The connection loop ----

  /** Why the loop stopped: a read failed, or a command came back negative. */
  datatype End = ReadFailed(error: WaitError) | Negative(value: int)

  /** What a session did: every byte the server sent, whether the handshake
      completed, the value of every command handled, why it ended, and the
      closed connection. */
  datatype Session = Session(sent: seq<Byte>, ready: bool, commands: seq<int>, end: End, conn: Conn)

  /** The commands the ready state of `RFB_HandleClient` handles, in
      order, and why it stops: a command whose value is not negative is
      handled and the loop reads the next one; the first failed read or
      negative value ends it. Every round consumes at least one byte, so a
      client keeps the loop going only as long as it keeps sending. */
  function Served(p: Platform, c: Conn, src: seq<Recv>): (r: (seq<int>, End))
    requires Valid(c)
    ensures forall i :: 0 <= i < |r.0| ==> 0 <= r.0[i] < 256
    ensures |r.0| <= c.len + Supply(src)
    ensures r.1.Negative? ==> r.1.value < 0 && p.signedChar
    ensures !p.signedChar ==> r.1.ReadFailed?
    decreases c.len + Supply(src)
  {
    var r := ClientCommand(p, c, src);
    if r.Err? then ([], ReadFailed(r.error))
    else
      var cmd := r.value;
      assert Valid(cmd.link.conn) && cmd.value < 256 && (cmd.value < 0 ==> p.signedChar);
      assert 1 + cmd.link.conn.len + Supply(cmd.link.rest) <= c.len + Supply(src);
      if cmd.value < 0 then ([], Negative(cmd.value))
      else
        var more := Served(p, cmd.link.conn, cmd.link.rest);
        ConsBytes(cmd.value, more.0);
        ([cmd.value] + more.0, more.1)
  }

  /** A byte value in front of byte values gives byte values. */
  lemma ConsBytes(v: int, vs: seq<int>)
    requires 0 <= v < 256 && forall i :: 0 <= i < |vs| ==> 0 <= vs[i] < 256
    ensures forall i :: 0 <= i < |[v] + vs| ==> 0 <= ([v] + vs)[i] < 256
  {
    forall i | 0 <= i < |[v] + vs| ensures 0 <= ([v] + vs)[i] < 256 {
      if i > 0 { assert ([v] + vs)[i] == vs[i - 1]; }
    }
  }

  /** The three ways one round of the ready state goes: a failed read ends
      it, a negative value ends it without being handled, and any other
      value is handled before the commands read after it. */
  lemma ServedRound(p: Platform, c: Conn, src: seq<Recv>)
    requires Valid(c)
    ensures ClientCommand(p, c, src).Err? ==>
      Served(p, c, src) == ([], ReadFailed(ClientCommand(p, c, src).error))
    ensures ClientCommand(p, c, src).Ok? && ClientCommand(p, c, src).value.value < 0 ==>
      Served(p, c, src) == ([], Negative(ClientCommand(p, c, src).value.value))
    ensures ClientCommand(p, c, src).Ok? && ClientCommand(p, c, src).value.value >= 0 ==>
      var cmd := ClientCommand(p, c, src).value;
      Served(p, c, src).0 == [cmd.value] + Served(p, cmd.link.conn, cmd.link.rest).0
      && Served(p, c, src).1 == Served(p, cmd.link.conn, cmd.link.rest).1
  {}

  /** The loop of the ready state: read commands until one comes back
      negative or a read fails. */
  method Serve(p: Platform, c: Conn, src: seq<Recv>) returns (commands: seq<int>, end: End)
    requires Valid(c)
    ensures (commands, end) == Served(p, c, src)
    ensures forall i :: 0 <= i < |commands| ==> 0 <= commands[i] < 256
    ensures |commands| <= c.len + Supply(src)
    ensures end.Negative? ==> end.value < 0 && p.signedChar
    ensures !p.signedChar ==> end.ReadFailed?
  {
    var conn, rest := c, src;
    commands := [];
    var stop: Option<End> := None;
    while stop.None?
      invariant Valid(conn)
      invariant stop.None? ==>
        commands + Served(p, conn, rest).0 == Served(p, c, src).0 && Served(p, conn, rest).1 == Served(p, c, src).1
      invariant stop.Some? ==> commands == Served(p, c, src).0 && stop.value == Served(p, c, src).1
      decreases if stop.None? then conn.len + Supply(rest) + 1 else 0
    {
      var cmd := ClientCommand(p, conn, rest);
      if cmd.Err? {
        stop := Some(ReadFailed(cmd.error));
      } else if cmd.value.value < 0 {
        stop := Some(Negative(cmd.value.value));
      } else {
        var more := Served(p, cmd.value.link.conn, cmd.value.link.rest);
        Associate(commands, [cmd.value.value], more.0);
        commands := commands + [cmd.value.value];
        conn, rest := cmd.value.link.conn, cmd.value.link.rest;
      }
    }
    end := stop.value;
  }

  /** The opening of `RFB_HandleClient`: a fresh connection, the protocol
      version sent, then the handshake. */
  function Greet(p: Platform, src: seq<Recv>, padding: seq<Byte>): (g: Handshook)
    requires |padding| == 3
    ensures |g.sent| >= 12 && g.sent[..12] == ProtocolVersion()
    ensures g.outcome.Ok? ==> g.sent == ProtocolVersion() + SecurityReply() + InitReply(padding)
    ensures g.outcome.Err? ==> g.sent == ProtocolVersion() || g.sent == ProtocolVersion() + SecurityReply()
    ensures g.outcome.Ok? ==> Valid(g.outcome.value.conn) && 13 + g.outcome.value.conn.len + Supply(g.outcome.value.rest) <= Supply(src)
    ensures Supply(src) == 0 ==> g.outcome.Err? && g.sent == ProtocolVersion()
  {
    var h := Handshake(p, OpenClient(), src, padding);
    PrefixKept(ProtocolVersion(), h.sent);
    Associate(ProtocolVersion(), SecurityReply(), InitReply(padding));
    Handshook(ProtocolVersion() + h.sent, h.outcome)
  }

  /** Appending to a message leaves its first bytes alone. */
  lemma PrefixKept(a: seq<Byte>, b: seq<Byte>)
    ensures (a + b)[..|a|] == a
  {}

  /** `RFB_HandleClient`: open the connection (sending the protocol
      version), run the handshake, serve commands, close. */
  method HandleClient(p: Platform, src: seq<Recv>, padding: seq<Byte>) returns (s: Session)
    requires |padding| == 3
    ensures s.sent == Greet(p, src, padding).sent && (s.ready <==> Greet(p, src, padding).outcome.Ok?)
    ensures s.ready ==> var link := Greet(p, src, padding).outcome.value;
      s.commands == Served(p, link.conn, link.rest).0 && s.end == Served(p, link.conn, link.rest).1
    ensures |s.sent| >= 12 && s.sent[..12] == ProtocolVersion()
    ensures s.ready ==> s.sent == ProtocolVersion() + SecurityReply() + InitReply(padding)
    ensures !s.ready ==> (s.commands == [] && s.end.ReadFailed?
      && (s.sent == ProtocolVersion() || s.sent == ProtocolVersion() + SecurityReply()))
    ensures forall i :: 0 <= i < |s.commands| ==> 0 <= s.commands[i] < 256
    ensures s.end.Negative? ==> s.end.value < 0 && p.signedChar
    ensures !p.signedChar ==> s.end.ReadFailed?
    ensures s.ready ==> |s.commands| + 13 <= Supply(src)
    ensures Supply(src) == 0 ==> !s.ready && s.sent == ProtocolVersion()
    ensures Valid(s.conn) && |s.conn.buffer| == 0 && Pending(s.conn) == []
  {
    var g := Greet(p, src, padding);
    if g.outcome.Err? {
      return Session(g.sent, false, [], ReadFailed(g.outcome.error), CloseClient(OpenClient()));
    }
    var link := g.outcome.value;
    var commands, end := Serve(p, link.conn, link.rest);
    return Session(g.sent, true, commands, end, CloseClient(link.conn));
  }
}

=== FILE: rfb_wire.dfy ===
/** The RFB (remote framebuffer) wire encoding of rfb/main.c: big-endian
    fields, the `RFB16`/`RFB32` host-order swaps, the protocol version and
    the ServerInit message (sections 7.1.1, 7.3.2 and 7.4 of RFC 6143). C's
    `>>` on a non-negative or (as compiled here) negative `int` is floor
    division by a power of two, which is Dafny's `/` for a positive divisor,
    and `& 0xFF` is `% 256`. */
module RfbWire {
  import opened Results
  import opened Bytes

  const U16Range: nat := 65536
  const U32Range: nat := 4294967296

  /** `B0`..`B3`: byte `k` of a value, counting from the least significant. */
  function ByteAt(v: int, k: nat): (b: Byte)
    requires k < 4
  {
    (if k == 0 then v else if k == 1 then v / 256 else if k == 2 then v / 65536 else v / 16777216) % 256
  }

  /** A big-endian 16-bit field. */
  function DecodeU16(bs: seq<Byte>): (v: nat)
    requires |bs| == 2
    ensures v < U16Range
  {
    bs[0] as int * 256 + bs[1] as int
  }

  /** A big-endian 32-bit field. */
  function DecodeU32(bs: seq<Byte>): (v: nat)
    requires |bs| == 4
    ensures v < U32Range
  {
    DecodeU16(bs[..2]) * U16Range + DecodeU16(bs[2..])
  }

  /** `SOCK_SendU8`: the low byte. */
  function EncodeU8(v: int): (r: seq<Byte>)
    ensures |r| == 1 && r[0] == v % 256
  {
    [v % 256]
  }

  /** `SOCK_SendU16`: the two low bytes, most significant first. */
  function EncodeU16(v: int): (r: seq<Byte>)
    ensures |r| == 2 && DecodeU16(r) == v % U16Range
  {
    Digits(v);
    [ByteAt(v, 1), ByteAt(v, 0)]
  }

  /** `SOCK_SendU32`: the four low bytes, most significant first. */
  function EncodeU32(v: int): (r: seq<Byte>)
    ensures |r| == 4 && DecodeU32(r) == v % U32Range
    ensures r == [ByteAt(v, 3), ByteAt(v, 2), ByteAt(v, 1), ByteAt(v, 0)]
  {
    Digits(v);
    var r := EncodeU16(v / U16Range) + EncodeU16(v);
    assert r[..2] == EncodeU16(v / U16Range) && r[2..] == EncodeU16(v);
    r
  }

  // Quotient and remainder by the powers of 256 from a known split, each
  // with a literal divisor.

  lemma Split8(v: int, q: int, r: int)
    requires 0 <= r < 256 && v == q * 256 + r
    ensures v / 256 == q && v % 256 == r
  {}

  lemma Split16(v: int, q: int, r: int)
    requires 0 <= r < 65536 && v == q * 65536 + r
    ensures v / 65536 == q && v % 65536 == r
  {}

  lemma Split24(v: int, q: int, r: int)
    requires 0 <= r < 16777216 && v == q * 16777216 + r
    ensures v / 16777216 == q && v % 16777216 == r
  {}

  lemma Split32(v: int, q: int, r: int)
    requires 0 <= r < 4294967296 && v == q * 4294967296 + r
    ensures v / 4294967296 == q && v % 4294967296 == r
  {}

  /** A value's low 16 and 32 bits are its bytes in place, and its upper
      half's bytes are its bytes 2 and 3. */
  lemma Digits(v: int)
    ensures v % U16Range == ByteAt(v, 1) * 256 + ByteAt(v, 0)
    ensures v % U32Range == ByteAt(v, 3) * 16777216 + ByteAt(v, 2) * 65536 + ByteAt(v, 1) * 256 + ByteAt(v, 0)
    ensures ByteAt(v / U16Range, 0) == ByteAt(v, 2) && ByteAt(v / U16Range, 1) == ByteAt(v, 3)
  {
    var q1, r0 := v / 256, v % 256;
    var q2, r1 := q1 / 256, q1 % 256;
    var q3, r2 := q2 / 256, q2 % 256;
    var q4, r3 := q3 / 256, q3 % 256;
    Split16(v, q2, r1 * 256 + r0);
    Split24(v, q3, r2 * 65536 + r1 * 256 + r0);
    Split32(v, q4, r3 * 16777216 + r2 * 65536 + r1 * 256 + r0);
    Split8(q2, q3, r2);
  }

  /** The bytes of a value put together from four bytes are those bytes. */
  lemma Compose(a: Byte, b: Byte, c: Byte, d: Byte)
    ensures var x := a * 16777216 + b * 65536 + c * 256 + d;
      ByteAt(x, 0) == d && ByteAt(x, 1) == c && ByteAt(x, 2) == b && ByteAt(x, 3) == a
  {
    var x := a * 16777216 + b * 65536 + c * 256 + d;
    Split8(x, a * 65536 + b * 256 + c, d);
    Split8(a * 65536 + b * 256 + c, a * 256 + b, c);
    Split16(x, a * 256 + b, c * 256 + d);
    Split8(a * 256 + b, a, b);
    Split24(x, a, b * 65536 + c * 256 + d);
    Split8(a, 0, a);
  }

  /** Every two bytes are the encoding of their own value. */
  lemma DecodeEncodeU16(bs: seq<Byte>)
    requires |bs| == 2
    ensures EncodeU16(DecodeU16(bs)) == bs
  {
    Compose(0, 0, bs[0], bs[1]);
  }

  /** Every four bytes are the encoding of their own value. */
  lemma DecodeEncodeU32(bs: seq<Byte>)
    requires |bs| == 4
    ensures EncodeU32(DecodeU32(bs)) == bs
  {
    assert DecodeU32(bs) == bs[0] as int * 16777216 + bs[1] as int * 65536 + bs[2] as int * 256 + bs[3] as int;
    Compose(bs[0], bs[1], bs[2], bs[3]);
  }

  /** How the host stores an integer in memory. */
  datatype Host = LittleEndian | BigEndian

  /** A 16-bit field loaded from memory by the host (`*(U16 *)p`). */
  function LoadU16(host: Host, bs: seq<Byte>): (v: nat)
    requires |bs| == 2
    ensures v < U16Range
    ensures host == BigEndian ==> v == DecodeU16(bs)
    ensures host == LittleEndian ==> v == DecodeU16([bs[1], bs[0]])
  {
    if host == BigEndian then DecodeU16(bs) else DecodeU16([bs[1], bs[0]])
  }

  /** A 32-bit field loaded from memory by the host. */
  function LoadU32(host: Host, bs: seq<Byte>): (v: nat)
    requires |bs| == 4
    ensures v < U32Range
    ensures host == BigEndian ==> v == DecodeU32(bs)
    ensures host == LittleEndian ==> v == DecodeU32([bs[3], bs[2], bs[1], bs[0]])
  {
    if host == BigEndian then DecodeU32(bs) else DecodeU32([bs[3], bs[2], bs[1], bs[0]])
  }

  /** `RFB16`: on a little-endian host the two low bytes swap places; on a
      big-endian host the value is only masked to 16 bits. */
  function Rfb16(host: Host, v: int): (r: nat)
    ensures r < U16Range
    ensures host == BigEndian ==> r == v % U16Range
    ensures host == LittleEndian ==> r == DecodeU16([ByteAt(v, 0), ByteAt(v, 1)])
  {
    if host == LittleEndian then ByteAt(v, 0) * 256 + ByteAt(v, 1) else v % U16Range
  }

  /** `RFB32`: on a little-endian host the four low bytes are reversed; on a
      big-endian host the value is only masked to 32 bits. */
  function Rfb32(host: Host, v: int): (r: nat)
    ensures r < U32Range
    ensures host == BigEndian ==> r == v % U32Range
    ensures host == LittleEndian ==> r == DecodeU32([ByteAt(v, 0), ByteAt(v, 1), ByteAt(v, 2), ByteAt(v, 3)])
  {
    if host == LittleEndian then
      ByteAt(v, 0) * 16777216 + ByteAt(v, 1) * 65536 + ByteAt(v, 2) * 256 + ByteAt(v, 3)
    else v % U32Range
  }

  /** Swapping twice gives back the masked value, on either host. */
  lemma Rfb16Twice(host: Host, v: int)
    ensures Rfb16(host, Rfb16(host, v)) == v % U16Range
  {
    Digits(v);
    if host == LittleEndian {
      Compose(0, 0, ByteAt(v, 0), ByteAt(v, 1));
    } else {
      Split16(v % U16Range, 0, v % U16Range);
    }
  }

  lemma Rfb32Twice(host: Host, v: int)
    ensures Rfb32(host, Rfb32(host, v)) == v % U32Range
  {
    Digits(v);
    if host == LittleEndian {
      Compose(ByteAt(v, 0), ByteAt(v, 1), ByteAt(v, 2), ByteAt(v, 3));
    } else {
      Split32(v % U32Range, 0, v % U32Range);
    }
  }

  /** A field loaded by the host and passed through the swap macro is the
      field's big-endian value on either host: the macros do what the
      protocol's network byte order needs. */
  lemma SwapLoadedU16(host: Host, bs: seq<Byte>)
    requires |bs| == 2
    ensures Rfb16(host, LoadU16(host, bs)) == DecodeU16(bs)
  {
    if host == LittleEndian {
      assert LoadU16(host, bs) == bs[1] as int * 256 + bs[0] as int;
      Compose(0, 0, bs[1], bs[0]);
    } else {
      Split16(DecodeU16(bs), 0, DecodeU16(bs));
    }
  }

  lemma SwapLoadedU32(host: Host, bs: seq<Byte>)
    requires |bs| == 4
    ensures Rfb32(host, LoadU32(host, bs)) == DecodeU32(bs)
  {
    if host == LittleEndian {
      var le := [bs[3], bs[2], bs[1], bs[0]];
      assert le[..2] == [bs[3], bs[2]] && le[2..] == [bs[1], bs[0]];
      assert LoadU32(host, bs) == bs[3] as int * 16777216 + bs[2] as int * 65536 + bs[1] as int * 256 + bs[0] as int;
      Compose(bs[3], bs[2], bs[1], bs[0]);
    } else {
      Split32(DecodeU32(bs), 0, DecodeU32(bs));
    }
  }

  /** A string's character codes as bytes. */
  function Ascii(s: string): (r: seq<Byte>)
    requires forall i :: 0 <= i < |s| ==> s[i] as int < 256
    ensures |r| == |s| && forall i :: 0 <= i < |s| ==> r[i] == s[i] as int
  {
    seq(|s|, i requires 0 <= i < |s| => s[i] as int)
  }

  /** The ProtocolVersion message the server sends first: exactly the 12
      bytes `RFB_Handshake` waits for in the client's reply. */
  function ProtocolVersion(): (r: seq<Byte>)
    ensures |r| == 12 && r[..4] == Ascii("RFB ") && r[11] == 10
  {
    Ascii("RFB 003.003\n")
  }

  /** `RFB_SEC_NONE`, sent as a 32-bit security type (protocol 3.3). */
  const SecurityNone: nat := 1

  /** The PIXEL_FORMAT structure of section 7.4 of RFC 6143. */
  datatype PixelFormat = PixelFormat(
    bpp: Byte, depth: Byte, bigEndian: Byte, trueColour: Byte,
    redMax: nat, greenMax: nat, blueMax: nat,
    redShift: Byte, greenShift: Byte, blueShift: Byte)

  predicate ValidFormat(f: PixelFormat) {
    f.redMax < U16Range && f.greenMax < U16Range && f.blueMax < U16Range
  }

  /** The format `RFB_ServerInit` announces: 32 bits per pixel, depth 24,
      big-endian true colour with 8-bit channels at bits 16, 8 and 0. */
  const ServerFormat: PixelFormat := PixelFormat(32, 24, 1, 1, 255, 255, 255, 16, 8, 0)

  /** The 16 bytes of a pixel format; `padding` is whatever the three
      unused bytes hold (the server never sets them). */
  function EncodeFormat(f: PixelFormat, padding: seq<Byte>): (r: seq<Byte>)
    requires ValidFormat(f) && |padding| == 3
    ensures |r| == 16 && r[13..] == padding
    ensures r[..4] == [f.bpp, f.depth, f.bigEndian, f.trueColour]
    ensures DecodeU16(r[4..6]) == f.redMax && DecodeU16(r[6..8]) == f.greenMax && DecodeU16(r[8..10]) == f.blueMax
    ensures r[10..13] == [f.redShift, f.greenShift, f.blueShift]
  {
    [f.bpp, f.depth, f.bigEndian, f.trueColour]
      + EncodeU16(f.redMax) + EncodeU16(f.greenMax) + EncodeU16(f.blueMax)
      + [f.redShift, f.greenShift, f.blueShift] + padding
  }

  function DecodeFormat(bs: seq<Byte>): (f: PixelFormat)
    requires |bs| == 16
    ensures ValidFormat(f)
  {
    PixelFormat(bs[0], bs[1], bs[2], bs[3],
      DecodeU16(bs[4..6]), DecodeU16(bs[6..8]), DecodeU16(bs[8..10]),
      bs[10], bs[11], bs[12])
  }

  /** A pixel format survives encoding. */
  lemma FormatRoundTrip(f: PixelFormat, padding: seq<Byte>)
    requires ValidFormat(f) && |padding| == 3
    ensures DecodeFormat(EncodeFormat(f, padding)) == f
  {
    var e := EncodeFormat(f, padding);
    assert e[4..6] == EncodeU16(f.redMax) && e[6..8] == EncodeU16(f.greenMax) && e[8..10] == EncodeU16(f.blueMax);
  }

  /** Every 16 bytes are the encoding of the format they describe, with
      their own last three bytes as padding. */
  lemma FormatBytesRoundTrip(bs: seq<Byte>)
    requires |bs| == 16
    ensures EncodeFormat(DecodeFormat(bs), bs[13..]) == bs
  {
    var d := DecodeFormat(bs);
    DecodeEncodeU16(bs[4..6]);
    DecodeEncodeU16(bs[6..8]);
    DecodeEncodeU16(bs[8..10]);
    assert EncodeFormat(d, bs[13..]) == bs[..4] + bs[4..6] + bs[6..8] + bs[8..10] + bs[10..13] + bs[13..];
    assert bs == bs[..4] + bs[4..6] + bs[6..8] + bs[8..10] + bs[10..13] + bs[13..];
  }

  /** A C string: its bytes up to, not including, the terminating NUL. */
  predicate CString(s: seq<Byte>) {
    forall i :: 0 <= i < |s| ==> s[i] != 0
  }

  /** `RFB_ServerInit(width, height, name)`: width and height as 16-bit
      fields, the pixel format, the name's length as a 32-bit field, then
      the name; 24 bytes plus the name. */
  function ServerInit(width: int, height: int, name: seq<Byte>, padding: seq<Byte>): (r: seq<Byte>)
    requires CString(name) && |padding| == 3
    ensures |r| == 24 + |name|
    ensures r[24..] == name
  {
    EncodeU16(width) + EncodeU16(height) + EncodeFormat(ServerFormat, padding) + EncodeU32(|name|) + name
  }

  /** ServerInit as a client reads it. */
  datatype ServerInitMsg = ServerInitMsg(width: nat, height: nat, format: PixelFormat, name: seq<Byte>)

  datatype ParseError = Truncated(have: nat, need: nat)

  function ParseServerInit(bs: seq<Byte>): (r: Result<ServerInitMsg, ParseError>)
    ensures r.Err? <==> |bs| < 24 || |bs| < 24 + DecodeU32(bs[20..24])
    ensures r.Ok? ==> |r.value.name| == DecodeU32(bs[20..24])
  {
    if |bs| < 24 then Err(Truncated(|bs|, 24))
    else
      var n := DecodeU32(bs[20..24]);
      if |bs| < 24 + n then Err(Truncated(|bs|, 24 + n))
      else Ok(ServerInitMsg(DecodeU16(bs[..2]), DecodeU16(bs[2..4]), DecodeFormat(bs[4..20]), bs[24..24 + n]))
  }

  /** A client reads back the announced size (modulo 2^16), the server's
      pixel format and the name. */
  lemma ServerInitRoundTrip(width: int, height: int, name: seq<Byte>, padding: seq<Byte>)
    requires CString(name) && |padding| == 3 && |name| < U32Range
    ensures ParseServerInit(ServerInit(width, height, name, padding))
      == Ok(ServerInitMsg(width % U16Range, height % U16Range, ServerFormat, name))
  {
    var r := ServerInit(width, height, name, padding);
    assert r[..2] == EncodeU16(width) && r[2..4] == EncodeU16(height);
    assert r[4..20] == EncodeFormat(ServerFormat, padding);
    assert r[20..24] == EncodeU32(|name|);
    assert DecodeU32(r[20..24]) == |name|;
    assert r[24..24 + |name|] == name;
    FormatRoundTrip(ServerFormat, padding);
  }

  /** The fixed bytes of the server's pixel format (RFC 6143, section 7.4). */
  lemma ServerFormatBytes(padding: seq<Byte>)
    requires |padding| == 3
    ensures EncodeFormat(ServerFormat, padding)[..13] == [32, 24, 1, 1, 0, 255, 0, 255, 0, 255, 16, 8, 0]
  {}
}

=== FILE: tango_brackets.dfy ===
/** The drawing data of finalised measurements (tango/lib/tango.rb, the
    measurement loop at the end of `render_to_points`). */
module TangoBrackets {
  import opened Results
  import opened TangoValues
  import opened TangoCoords
  import opened TangoMeasures
  import opened TangoUnits

  /** A measurement bracket: its row, the height of its end bars, where it
      begins and ends, the duration in the measurement's own units, and what
      the label shows instead of that duration, if anything. */
  datatype Bracket = Bracket(
    y: real, height: real, inX: real, outX: real, size: real,
    override: Option<string>, align: string)

  /** One measurement's bracket. The duration is converted from the scope's
      units to the measurement's before the override is looked at, so an
      unknown unit is an error even when an override is given. */
  function MeasureBracket(g: Geometry, scopeUnits: string, m: Measurement): (r: Result<Bracket, UnitError>)
    ensures r.Err? <==> Convert(m.end - m.begin, scopeUnits, m.units).Err?
    ensures r.Ok? ==> r.value.inX == ScaledTime(g, m.begin) && r.value.outX == ScaledTime(g, m.end)
    ensures r.Ok? ==> r.value.y == Baseline(g, m.y) - 0.5 * g.channelHeight
    ensures r.Ok? ==> r.value.height == g.channelHeight
    ensures r.Ok? ==> Convert(m.end - m.begin, scopeUnits, m.units) == Ok(r.value.size)
    ensures r.Ok? ==> r.value.override == m.override && r.value.align == m.align
  {
    var start := XY(g, m.begin, Num(0.5), m.y);
    var stop := XY(g, m.end, Num(0.5), m.y);
    assert LevelHeight(Num(0.5)) == 0.5;
    assert start.y == Baseline(g, m.y) - 0.5 * g.channelHeight;
    var size :- Convert(m.end - m.begin, scopeUnits, m.units);
    Ok(Bracket(start.y, g.channelHeight, start.x, stop.x, size, m.override, m.align))
  }

  /** The measurements whose units are unknown. */
  datatype BracketError = BadUnits(names: set<string>)

  /** The brackets of every finalised measurement, keyed by name. */
  function Brackets(g: Geometry, scopeUnits: string, done: map<string, Measurement>)
    : (r: Result<map<string, Bracket>, BracketError>)
    ensures r.Err? <==> exists n :: n in done && MeasureBracket(g, scopeUnits, done[n]).Err?
    ensures r.Err? ==> forall n :: n in done ==> (n in r.error.names <==> MeasureBracket(g, scopeUnits, done[n]).Err?)
    ensures r.Ok? ==> r.value.Keys == done.Keys
    ensures r.Ok? ==> forall n :: n in done ==> Ok(r.value[n]) == MeasureBracket(g, scopeUnits, done[n])
  {
    var bad := set n | n in done && MeasureBracket(g, scopeUnits, done[n]).Err?;
    if bad != {} then
      Err(BadUnits(bad))
    else
      assert forall n :: n in done && MeasureBracket(g, scopeUnits, done[n]).Err? ==> n in bad;
      var bs := map n | n in done :: MeasureBracket(g, scopeUnits, done[n]).value;
      assert bs.Keys == done.Keys;
      Ok(bs)
  }
}

=== FILE: tango_channels.dfy ===
/** The channel list of a scope (tango/lib/tango.rb, `Channels#[]` and
    `Scope#channel`). */
module TangoChannels {
  import opened Results
  import opened TangoValues

  /** What `Channels#[]` is given: a String or Symbol name, the
      ControlChannel sentinel, or an Array index. */
  datatype ChanRef = ByName(name: string) | ByControl | ByIndex(index: int)

  /** How a channel key is looked up (samples store names as symbols). */
  function RefOf(k: ChanKey): ChanRef {
    match k
    case Control => ByControl
    case Named(n) => ByName(n)
  }

  /** Whether channel `c` is found by a name or sentinel lookup. */
  predicate Matches(c: Channel, r: ChanRef) {
    match r
    case ByName(n) => Strip(KeyText(c.key)) == Strip(n)
    case ByControl => c.key == Control
    case ByIndex(_) => false
  }

  /** `Channels#[]`: the first channel whose stripped name equals the
      stripped name asked for, THE control channel, or Ruby Array indexing
      (negative indices count from the end). */
  function Lookup(cs: seq<Channel>, r: ChanRef): (o: Option<Channel>)
    ensures !r.ByIndex? ==>
      (o.Some? <==> exists i :: 0 <= i < |cs| && Matches(cs[i], r))
    ensures !r.ByIndex? && o.Some? ==>
      exists i :: 0 <= i < |cs| && cs[i] == o.value && Matches(cs[i], r)
        && forall j :: 0 <= j < i ==> !Matches(cs[j], r)
    ensures r.ByIndex? && 0 <= r.index < |cs| ==> o == Some(cs[r.index])
    ensures r.ByIndex? && -|cs| <= r.index < 0 ==> o == Some(cs[|cs| + r.index])
    ensures r.ByIndex? && (r.index >= |cs| || r.index < -|cs|) ==> o.None?
  {
    match r
    case ByIndex(i) =>
      if 0 <= i < |cs| then Some(cs[i])
      else if -|cs| <= i < 0 then Some(cs[|cs| + i])
      else None
    case _ => FirstMatch(cs, r)
  }

  /** The first channel a name or sentinel lookup finds. */
  function FirstMatch(cs: seq<Channel>, r: ChanRef): (o: Option<Channel>)
    requires !r.ByIndex?
    ensures o.Some? <==> exists i :: 0 <= i < |cs| && Matches(cs[i], r)
    ensures o.Some? ==>
      exists i :: 0 <= i < |cs| && cs[i] == o.value && Matches(cs[i], r)
        && forall j :: 0 <= j < i ==> !Matches(cs[j], r)
  {
    match FirstIndex(cs, c => Matches(c, r))
    case None => None
    case Some(i) => Some(cs[i])
  }

  /** The options a channel is declared with. */
  datatype ChannelOpts = ChannelOpts(
    initial: Value,
    negative: bool,
    risefall: Option<real>,
    subtext: Option<string>,
    nudge: Option<(real, real)>)

  datatype ChannelError = DuplicateChannel(key: ChanKey)

  /** `Scope#channel`: refuse a key that an existing channel already answers
      to; otherwise append the channel, its rise/fall time defaulting to the
      scope's (which is nil until the author sets one). */
  function AddChannel(cs: seq<Channel>, k: ChanKey, o: ChannelOpts, scopeRiseFall: Option<real>)
    : (r: Result<seq<Channel>, ChannelError>)
    ensures r.Err? <==> exists i :: 0 <= i < |cs| && Matches(cs[i], RefOf(k))
    ensures r.Ok? ==> |r.value| == |cs| + 1 && r.value[..|cs|] == cs
    ensures r.Ok? ==>
      r.value[|cs|].key == k && r.value[|cs|].initial == o.initial && r.value[|cs|].negative == o.negative
    ensures r.Ok? ==> r.value[|cs|].risefall == (if o.risefall.Some? then o.risefall else scopeRiseFall)
  {
    if Lookup(cs, RefOf(k)).Some? then Err(DuplicateChannel(k))
    else
      var rf := if o.risefall.Some? then o.risefall else scopeRiseFall;
      Ok(cs + [Channel(k, o.initial, o.negative, rf, o.subtext, o.nudge)])
  }

  /** The channel every scope starts with (`channel ControlChannel, initial: nil`). */
  const ControlDef: Channel := Channel(Control, Nil, false, None, None, None)

  /** The invariant a scope keeps: the control channel first, and no two
      channels that answer to the same lookup. */
  predicate WellFormed(cs: seq<Channel>) {
    && |cs| > 0
    && cs[0].key == Control
    && (forall i, j :: 0 <= i < j < |cs| ==> Strip(KeyText(cs[i].key)) != Strip(KeyText(cs[j].key)))
  }

  lemma ControlDefWellFormed()
    ensures WellFormed([ControlDef])
  {}

  /** Adding channels keeps the list well formed, so every key is unique and
      the control channel is the only one with key Control. */
  lemma AddChannelKeepsWellFormed(cs: seq<Channel>, k: ChanKey, o: ChannelOpts, rf: Option<real>)
    requires WellFormed(cs)
    requires AddChannel(cs, k, o, rf).Ok?
    ensures WellFormed(AddChannel(cs, k, o, rf).value)
    ensures forall i, j :: 0 <= i < j < |AddChannel(cs, k, o, rf).value| ==>
      AddChannel(cs, k, o, rf).value[i].key != AddChannel(cs, k, o, rf).value[j].key
  {
    var r := AddChannel(cs, k, o, rf).value;
    assert !Matches(cs[0], RefOf(k));
    assert k.Named? && r[|cs|].key == k;
    forall i, j | 0 <= i < j < |r|
      ensures Strip(KeyText(r[i].key)) != Strip(KeyText(r[j].key))
    {
      assert r[i] == r[..|cs|][i] == cs[i];
      if j < |cs| {
        assert r[j] == r[..|cs|][j] == cs[j];
      } else {
        assert !Matches(cs[i], RefOf(k));
      }
    }
  }
}

=== FILE: tango_coords.dfy ===
/** Mapping times and values to diagram coordinates (tango/lib/tango.rb,
    `baseline_for_channel`, `guide`, `tick`, `scaled_time`, `xy` and
    `scale_vertex`). */
module TangoCoords {
  import opened TangoValues

  /** The scope settings that place things on the diagram. */
  datatype Geometry = Geometry(
    timeScale: real,
    timeOffset: real,
    channelPitch: real,
    channelOffset: real,
    channelHeight: real)

  /** The defaults of `time_scale`, `time_offset`, `channel_pitch`,
      `channel_offset` and `channel_height`. */
  const DefaultGeometry: Geometry := Geometry(4.0, 60.0, 3.0, 5.0, 1.0)

  datatype Point = Point(x: real, y: real)

  /** A vertex of a point stream; `Break` (Ruby's nil) splits a polyline. */
  datatype Vertex = Break | At(p: Point)

  /** `baseline_for_channel`: the y of a channel's zero level. The index
      may be fractional (measurement rows). */
  function Baseline(g: Geometry, ci: real): (y: real)
    ensures y - g.channelOffset == g.channelPitch * ci
  {
    g.channelPitch * ci + g.channelOffset
  }

  /** Consecutive channels sit one pitch apart. */
  lemma BaselinePitch(g: Geometry, ci: real)
    ensures Baseline(g, ci + 1.0) - Baseline(g, ci) == g.channelPitch
  {}

  /** `scaled_time`: the x of an instant. */
  function ScaledTime(g: Geometry, t: real): (x: real)
    ensures x - g.timeOffset == t * g.timeScale
  {
    t * g.timeScale + g.timeOffset
  }

  /** With a positive scale, later instants lie further right, and the
      instant can be read back from its x. */
  lemma ScaledTimeOrder(g: Geometry, t1: real, t2: real)
    requires g.timeScale > 0.0
    ensures t1 < t2 <==> ScaledTime(g, t1) < ScaledTime(g, t2)
    ensures (ScaledTime(g, t1) - g.timeOffset) / g.timeScale == t1
  {
    if t1 < t2 {
      assert t1 * g.timeScale < t2 * g.timeScale;
    } else {
      assert t2 * g.timeScale <= t1 * g.timeScale;
    }
  }

  /** The height a value is drawn at, in channel-height units above the
      baseline: true and Peak at 1, false and Trough at 0, a number at
      itself, Tristate half-way, anything else (arbitrary values, nil) at 0. */
  function LevelHeight(v: Value): (h: real)
    ensures v == Bool(true) || v == Peak ==> h == 1.0
    ensures v == Bool(false) || v == Trough ==> h == 0.0
    ensures v.Num? ==> h == v.n
    ensures v == Tristate ==> h == 0.5
    ensures v.Arb? || v.Nil? || v.FoldMark? ==> h == 0.0
  {
    match v
    case Bool(b) => if b then 1.0 else 0.0
    case Peak => 1.0
    case Trough => 0.0
    case Num(n) => n
    case Tristate => 0.5
    case _ => 0.0
  }

  /** `xy`: the point of a value at an instant on a channel (y grows
      downwards, so higher levels have smaller y). */
  function XY(g: Geometry, t: real, v: Value, ci: real): (p: Point)
    ensures p.x == ScaledTime(g, t)
    ensures Baseline(g, ci) - p.y == LevelHeight(v) * g.channelHeight
  {
    Point(ScaledTime(g, t), Baseline(g, ci) + -LevelHeight(v) * g.channelHeight)
  }

  /** High is drawn above low and Tristate half-way between them. */
  lemma LevelsOrdered(g: Geometry, t: real, ci: real)
    requires g.channelHeight > 0.0
    ensures XY(g, t, Bool(true), ci).y < XY(g, t, Bool(false), ci).y
    ensures XY(g, t, Peak, ci) == XY(g, t, Bool(true), ci)
    ensures XY(g, t, Trough, ci) == XY(g, t, Bool(false), ci)
    ensures 2.0 * XY(g, t, Tristate, ci).y == XY(g, t, Peak, ci).y + XY(g, t, Trough, ci).y
  {}

  /** `guide(time)`: a vertical line from the ruler down to the row below
      the last channel, ended by a break. */
  function Guide(g: Geometry, t: real, channelCount: nat): (r: seq<Vertex>)
    ensures |r| == 3 && r[2] == Break && r[0].At? && r[1].At?
    ensures r[0].p.x == r[1].p.x == ScaledTime(g, t)
    ensures r[0].p.y == 2.0 && r[1].p.y == Baseline(g, channelCount as real)
  {
    var x := ScaledTime(g, t);
    [At(Point(x, 2.0)), At(Point(x, Baseline(g, channelCount as real))), Break]
  }

  /** `tick(time, major)`: a ruler tick, longer when major. */
  function Tick(g: Geometry, t: real, major: bool): (r: seq<Vertex>)
    ensures |r| == 3 && r[2] == Break && r[0].At? && r[1].At?
    ensures r[0].p == Point(ScaledTime(g, t), 0.0)
    ensures r[1].p == Point(ScaledTime(g, t), if major then 1.5 else 0.5)
  {
    var x := ScaledTime(g, t);
    [At(Point(x, 0.0)), At(Point(x, if major then 1.5 else 0.5)), Break]
  }

  /** `scale_vertex`: diagram units to canvas pixels. */
  function ScaleVertex(p: Point, offset: Point): (q: Point)
    ensures 9.0 * q.x == (p.x + offset.x) * 14.0
    ensures q.y - 5.0 == (p.y + offset.y) * 20.0
  {
    Point((p.x + offset.x) * 14.0 / 9.0, (p.y + offset.y) * 20.0 + 5.0)
  }

  /** The canvas mapping loses nothing: a vertex can be read back from its
      canvas point. */
  lemma ScaleVertexInverse(p: Point, offset: Point)
    ensures var q := ScaleVertex(p, offset);
      Point(q.x * 9.0 / 14.0 - offset.x, (q.y - 5.0) / 20.0 - offset.y) == p
  {
    var q := ScaleVertex(p, offset);
    assert q.x * 9.0 / 14.0 == p.x + offset.x;
    assert (q.y - 5.0) / 20.0 == p.y + offset.y;
  }
}

=== FILE: tango_labels.dfy ===
/** The label and mark list of a scope (tango/lib/tango.rb, `Scope#label`,
    `Scope#mark` and `Scope#mark_seek`). */
module TangoLabels {
  import opened Results

  /** `[time, name, tag, options]`; of the options only `:hide` matters. */
  datatype Label = Label(time: real, text: Option<string>, tag: Option<string>, hidden: bool)

  /** `label`: a named label at the current time is always appended. */
  function AddLabel(ls: seq<Label>, now: real, name: string): (r: seq<Label>)
    ensures |r| == |ls| + 1 && r[..|ls|] == ls
    ensures r[|ls|].time == now && r[|ls|].text == Some(name)
    ensures r[|ls|].tag.None? && !r[|ls|].hidden
  {
    ls + [Label(now, Some(name), None, false)]
  }

  /** The label carries the (non-nil) tag asked for. */
  predicate HasTag(l: Label, tag: Option<string>) {
    tag.Some? && l.tag == tag
  }

  /** A visible label that makes a visible mark a repeat: same instant, or
      same tag. */
  predicate Blocks(l: Label, now: real, tag: Option<string>) {
    !l.hidden && (l.time == now || HasTag(l, tag))
  }

  /** A label moved to `now` by a hidden mark: its options become `hide: true`. */
  function Hidden(l: Label, now: real): Label {
    l.(time := now, hidden := true)
  }

  /** What `mark` did: appended a label, moved the hidden mark at an index,
      or rejected a repeat (returning nil). */
  datatype MarkOutcome = Added | Moved(index: nat) | Rejected

  datatype Marked = Marked(labels: seq<Label>, outcome: MarkOutcome)

  /** `mark(tag, hide:)`. A hidden mark moves the first label carrying its
      tag to the current time (making it hidden), else is appended; a visible
      mark is rejected when a visible label already holds its instant or its
      tag, else appended. */
  function Mark(ls: seq<Label>, now: real, tag: Option<string>, hiding: bool): (r: Marked)
    ensures hiding ==> !r.outcome.Rejected?
    ensures hiding && r.outcome.Moved? ==> r.outcome.index < |ls| && HasTag(ls[r.outcome.index], tag)
    ensures hiding && r.outcome.Moved? ==> forall j :: 0 <= j < r.outcome.index ==> !HasTag(ls[j], tag)
    ensures hiding && r.outcome.Moved? ==> r.outcome.index < |ls| && r.labels == ls[r.outcome.index := Hidden(ls[r.outcome.index], now)]
    ensures hiding ==> (r.outcome.Added? <==> forall j :: 0 <= j < |ls| ==> !HasTag(ls[j], tag))
    ensures !hiding ==> (r.outcome.Rejected? <==> exists j :: 0 <= j < |ls| && Blocks(ls[j], now, tag))
    ensures !hiding ==> !r.outcome.Moved?
    ensures r.outcome.Rejected? ==> r.labels == ls
    ensures r.outcome.Added? ==> r.labels == ls + [Label(now, None, tag, hiding)]
  {
    if hiding then
      match FirstIndex(ls, l => HasTag(l, tag))
      case Some(i) => Marked(ls[i := Hidden(ls[i], now)], Moved(i))
      case None => Marked(ls + [Label(now, None, tag, true)], Added)
    else
      match FirstIndex(ls, l => Blocks(l, now, tag))
      case Some(_) => Marked(ls, Rejected)
      case None => Marked(ls + [Label(now, None, tag, false)], Added)
  }

  datatype LabelError = NoSuchMark(tag: Option<string>)

  /** `mark_seek(tag, d)`: the clock value it seeks to, the time of the
      first label carrying the tag plus `d`; an error when none does. */
  function MarkSeek(ls: seq<Label>, tag: Option<string>, d: real): (r: Result<real, LabelError>)
    ensures r.Err? <==> forall j :: 0 <= j < |ls| ==> !HasTag(ls[j], tag)
    ensures r.Ok? ==> exists i :: (0 <= i < |ls| && HasTag(ls[i], tag) && r.value == ls[i].time + d
      && forall j :: 0 <= j < i ==> !HasTag(ls[j], tag))
  {
    match FirstIndex(ls, l => HasTag(l, tag))
    case Some(i) => Ok(ls[i].time + d)
    case None => Err(NoSuchMark(tag))
  }

  /** Marking twice in a row: the second visible mark is a rejected repeat
      and leaves the list as the first left it. */
  lemma VisibleMarkIdempotent(ls: seq<Label>, now: real, tag: Option<string>)
    ensures var once := Mark(ls, now, tag, false).labels;
      Mark(once, now, tag, false) == Marked(once, Rejected)
  {
    var once := Mark(ls, now, tag, false).labels;
    if Mark(ls, now, tag, false).outcome.Added? {
      assert Blocks(once[|ls|], now, tag);
    } else {
      var j :| 0 <= j < |ls| && Blocks(ls[j], now, tag);
      assert Blocks(once[j], now, tag);
    }
  }

  /** A hidden mark is always found again: seeking to its tag right after
      lands at the marked instant plus the offset. */
  lemma HiddenMarkThenSeek(ls: seq<Label>, now: real, tag: string, d: real)
    ensures MarkSeek(Mark(ls, now, Some(tag), true).labels, Some(tag), d) == Ok(now + d)
  {
    var m := Mark(ls, now, Some(tag), true);
    var r := MarkSeek(m.labels, Some(tag), d);
    if m.outcome.Moved? {
      var i := m.outcome.index;
      assert HasTag(m.labels[i], Some(tag));
      assert forall j :: 0 <= j < i ==> m.labels[j] == ls[j];
      assert r.Ok?;
    } else {
      assert HasTag(m.labels[|ls|], Some(tag));
      assert forall j :: 0 <= j < |ls| ==> m.labels[j] == ls[j];
    }
  }

  /** A hidden mark moves its label rather than adding one, so marking the
      same tag again and again (as a repeated block does) keeps one entry. */
  lemma HiddenMarkKeepsOneEntry(ls: seq<Label>, now1: real, now2: real, tag: string)
    ensures var once := Mark(ls, now1, Some(tag), true).labels;
      |Mark(once, now2, Some(tag), true).labels| == |once|
  {
    var once := Mark(ls, now1, Some(tag), true);
    if once.outcome.Moved? {
      assert HasTag(once.labels[once.outcome.index], Some(tag));
    } else {
      assert HasTag(once.labels[|ls|], Some(tag));
    }
  }
}

=== FILE: tango_measures.dfy ===
/** The measurement tracker of a scope (tango/lib/tango.rb, `Scope#measure`,
    `Scope#start_measure` and `Scope#end_measure`). Measurement names are
    Ruby strings or symbols; a nil name is not modelled. */
module TangoMeasures {
  import opened Results

  /** The options a measurement is given. `select` is `Some(false)` when the
      `:select` key is present with a false or nil value. */
  datatype MeasureOpts = MeasureOpts(
    y: Option<real>,
    align: Option<string>,
    units: Option<string>,
    override: Option<string>,
    select: Option<bool>)

  /** `options.has_key?(:select) && !options[:select]`. */
  predicate Unselected(o: MeasureOpts) {
    o.select == Some(false)
  }

  /** A started, not yet ended measurement. */
  datatype Partial = Partial(begin: real, y: real, align: string, units: string, override: Option<string>)

  /** A finalised measurement. */
  datatype Measurement = Measurement(
    begin: real, end: real, y: real, align: string, units: string, override: Option<string>)

  /** `@measurements` (finalised) and `@partial_measurements` (open). */
  datatype Tracker = Tracker(done: map<string, Measurement>, open: map<string, Partial>)

  const NoMeasures: Tracker := Tracker(map[], map[])

  /** The option defaults, read when the record is made: the row below the
      last channel (the channel count includes the control channel), left
      alignment, and the scope's units. */
  function Defaults(o: MeasureOpts, begin: real, channelCount: nat, scopeUnits: string): (p: Partial)
    ensures p.begin == begin && p.override == o.override
    ensures p.y == (if o.y.Some? then o.y.value else channelCount as real - 0.5)
    ensures p.align == (if o.align.Some? then o.align.value else "left")
    ensures p.units == (if o.units.Some? then o.units.value else scopeUnits)
  {
    Partial(begin, o.y.GetOr(channelCount as real - 0.5), o.align.GetOr("left"), o.units.GetOr(scopeUnits), o.override)
  }

  /** A partial closed at `end`. */
  function Close(p: Partial, end: real): (m: Measurement)
    ensures m.begin == p.begin && m.end == end && m.y == p.y
    ensures m.align == p.align && m.units == p.units && m.override == p.override
  {
    Measurement(p.begin, end, p.y, p.align, p.units, p.override)
  }

  /** Whether `measure` records its block: only for a name not yet
      finalised, and only when selected. */
  predicate Records(tr: Tracker, name: string, o: MeasureOpts) {
    name !in tr.done && !Unselected(o)
  }

  /** The tracker after a recording `measure`'s block has run: the block's
      own tracker `after`, with the measurement from `begin` to `now`
      finalised under `name` (the defaults read after the block). */
  function FinishMeasure(after: Tracker, name: string, o: MeasureOpts, begin: real, now: real,
                         channelCount: nat, scopeUnits: string): (r: Tracker)
    ensures r.open == after.open
    ensures r.done.Keys == after.done.Keys + {name}
    ensures forall n :: n in after.done && n != name ==> r.done[n] == after.done[n]
    ensures r.done[name].begin == begin && r.done[name].end == now
    ensures r.done[name] == Close(Defaults(o, begin, channelCount, scopeUnits), now)
  {
    after.(done := after.done[name := Close(Defaults(o, begin, channelCount, scopeUnits), now)])
  }

  /** `start_measure`: opens a partial measurement at `now`, unless the name
      is finalised, unselected or already open (then nothing changes). */
  function StartMeasure(tr: Tracker, name: string, o: MeasureOpts, now: real,
                        channelCount: nat, scopeUnits: string): (r: Tracker)
    ensures r.done == tr.done
    ensures name in tr.done || Unselected(o) || name in tr.open ==> r == tr
    ensures !(name in tr.done || Unselected(o) || name in tr.open) ==>
      r.open.Keys == tr.open.Keys + {name} && r.open[name] == Defaults(o, now, channelCount, scopeUnits)
    ensures forall n :: n in tr.open ==> n in r.open && r.open[n] == tr.open[n]
  {
    if name in tr.done || Unselected(o) || name in tr.open then tr
    else tr.(open := tr.open[name := Defaults(o, now, channelCount, scopeUnits)])
  }

  /** `end_measure`: without an open partial of that name, or when
      unselected, nothing changes; otherwise the partial moves to the
      finalised measurements with `end = now`. */
  function EndMeasure(tr: Tracker, name: string, o: MeasureOpts, now: real): (r: Tracker)
    ensures name !in tr.open || Unselected(o) ==> r == tr
    ensures name in tr.open && !Unselected(o) ==>
      && r.open == tr.open - {name}
      && r.done.Keys == tr.done.Keys + {name}
      && r.done[name] == Close(tr.open[name], now)
      && (forall n :: n in tr.done && n != name ==> r.done[n] == tr.done[n])
  {
    if name !in tr.open || Unselected(o) then tr
    else tr.(open := tr.open - {name}, done := tr.done[name := Close(tr.open[name], now)])
  }

  /** No name is both finalised and open. */
  predicate Disjoint(tr: Tracker) {
    tr.done.Keys !! tr.open.Keys
  }

  /** `start_measure` and `end_measure` keep a name from being both
      finalised and open. */
  lemma StartEndKeepDisjoint(tr: Tracker, name: string, o: MeasureOpts, now: real, cc: nat, u: string)
    requires Disjoint(tr)
    ensures Disjoint(StartMeasure(tr, name, o, now, cc, u))
    ensures Disjoint(EndMeasure(tr, name, o, now))
  {
    var s := StartMeasure(tr, name, o, now, cc, u);
    if !(name in tr.done || Unselected(o) || name in tr.open) {
      assert s.open.Keys == tr.open.Keys + {name};
    }
    var e := EndMeasure(tr, name, o, now);
    if name in tr.open && !Unselected(o) {
      assert e.done.Keys == tr.done.Keys + {name};
      assert e.open.Keys == tr.open.Keys - {name};
    }
  }

  /** Once a name is finalised, `start_measure` cannot reopen it and
      `measure` no longer records it. */
  lemma FinalisedIsKept(tr: Tracker, name: string, o: MeasureOpts, now: real, cc: nat, u: string)
    requires name in tr.done
    ensures StartMeasure(tr, name, o, now, cc, u) == tr
    ensures !Records(tr, name, o)
  {}

  /** `end_measure` does not look at the finalised measurements: a name that
      is open while `measure` finalises it is finalised again by the later
      `end_measure`, with the partial's begin. */
  lemma EndOverwritesMeasured(name: string, o: MeasureOpts, cc: nat, u: string)
    requires !Unselected(o)
    ensures var t0 := StartMeasure(NoMeasures, name, o, 1.0, cc, u);
      var t1 := FinishMeasure(t0, name, o, 2.0, 3.0, cc, u);
      var t2 := EndMeasure(t1, name, o, 4.0);
      Records(t0, name, o) && t1.done[name].begin == 2.0 && t2.done[name].begin == 1.0
      && t2.done[name].end == 4.0
  {}
}

=== FILE: tango_paths.dfy ===
/** Splitting point streams into polylines and compacting them
    (tango/lib/tango.rb, the path loop of `write_svg`). */
module TangoPaths {
  import opened Results
  import opened TangoCoords

  /** The points of a stream, in order, breaks dropped. */
  function PointsOf(vs: seq<Vertex>): (r: seq<Point>)
    ensures |r| <= |vs|
  {
    if |vs| == 0 then []
    else (if vs[0].At? then [vs[0].p] else []) + PointsOf(vs[1..])
  }

  /** The points before the first break. */
  function LeadingRun(vs: seq<Vertex>): (r: seq<Point>)
    ensures |r| <= |vs|
    ensures forall i :: 0 <= i < |r| ==> vs[i].At? && r[i] == vs[i].p
    ensures |r| < |vs| ==> vs[|r|] == Break
  {
    if |vs| == 0 || vs[0] == Break then [] else [vs[0].p] + LeadingRun(vs[1..])
  }

  /** A run taken from the front of a stream holds exactly its points. */
  lemma {:induction false} LeadingRunPoints(vs: seq<Vertex>)
    ensures PointsOf(vs[..|LeadingRun(vs)|]) == LeadingRun(vs)
  {
    if |vs| > 0 && vs[0].At? {
      LeadingRunPoints(vs[1..]);
      assert vs[..|LeadingRun(vs)|][1..] == vs[1..][..|LeadingRun(vs[1..])|];
    } else {
      assert vs[..|LeadingRun(vs)|] == [];
    }
  }

  lemma {:induction false} PointsOfAppend(a: seq<Vertex>, b: seq<Vertex>)
    ensures PointsOf(a + b) == PointsOf(a) + PointsOf(b)
  {
    if |a| > 0 {
      PointsOfAppend(a[1..], b);
      assert (a + b)[1..] == a[1..] + b;
    } else {
      assert a + b == b;
    }
  }

  /** `chunk { |p| p ? true : nil }`: the maximal runs of points between
      breaks; breaks are dropped and never start an empty run. */
  function Runs(vs: seq<Vertex>): (r: seq<seq<Point>>)
    ensures forall i :: 0 <= i < |r| ==> |r[i]| > 0
    decreases |vs|
  {
    if |vs| == 0 then []
    else if vs[0] == Break then Runs(vs[1..])
    else
      var run := LeadingRun(vs);
      [run] + Runs(vs[|run|..])
  }

  /** Concatenation of runs. */
  function Flatten(rs: seq<seq<Point>>): seq<Point> {
    if |rs| == 0 then [] else rs[0] + Flatten(rs[1..])
  }

  /** Splitting loses no point and invents none: the runs, put back
      together, are the stream's points in order. */
  lemma {:induction false} RunsKeepPoints(vs: seq<Vertex>)
    ensures Flatten(Runs(vs)) == PointsOf(vs)
    decreases |vs|
  {
    if |vs| == 0 {
    } else if vs[0] == Break {
      RunsKeepPoints(vs[1..]);
    } else {
      var run := LeadingRun(vs);
      var rest := vs[|run|..];
      RunsKeepPoints(rest);
      LeadingRunPoints(vs);
      assert vs == vs[..|run|] + rest;
      PointsOfAppend(vs[..|run|], rest);
      assert Runs(vs) == [run] + Runs(rest);
      assert ([run] + Runs(rest))[1..] == Runs(rest);
    }
  }

  datatype PathError = ShortPath(count: nat)

  /** A polyline needs two vertices: the first run with fewer is an error. */
  function Paths(vs: seq<Vertex>): (r: Result<seq<seq<Point>>, PathError>)
    ensures r.Ok? <==> forall i :: 0 <= i < |Runs(vs)| ==> |Runs(vs)[i]| >= 2
    ensures r.Ok? ==> r.value == Runs(vs)
    ensures r.Err? ==> exists i :: 0 <= i < |Runs(vs)| && |Runs(vs)[i]| == r.error.count < 2
  {
    var rs := Runs(vs);
    match FirstIndex(rs, (p: seq<Point>) => |p| < 2)
    case Some(i) => Err(ShortPath(|rs[i]|))
    case None => Ok(rs)
  }

  /** Whether compaction keeps the point at `i`: the two ends always, an
      interior point unless it and both of its neighbours share one y. */
  predicate Keep(path: seq<Point>, i: nat)
    requires i < |path|
  {
    i == 0 || i == |path| - 1 || !(path[i - 1].y == path[i].y == path[i + 1].y)
  }

  /** The reference compaction of the first `n` points: those kept, in order. */
  function Compacted(path: seq<Point>, n: nat): (r: seq<Point>)
    requires n <= |path|
    ensures |r| <= n
  {
    if n == 0 then []
    else Compacted(path, n - 1) + (if Keep(path, n - 1) then [path[n - 1]] else [])
  }

  /** The compaction loop: each interior point is compared with the last
      point already kept and with the next original point. */
  method CompactPath(path: seq<Point>) returns (flat: seq<Point>)
    ensures flat == Compacted(path, |path|)
  {
    flat := [];
    var index := 0;
    while index < |path|
      invariant 0 <= index <= |path|
      invariant flat == Compacted(path, index)
      invariant index > 0 ==> |flat| > 0 && flat[|flat| - 1].y == path[index - 1].y
    {
      var pt := path[index];
      if index == 0 || index == |path| - 1 {
        flat := flat + [pt];
      } else if !(flat[|flat| - 1].y == pt.y && pt.y == path[index + 1].y) {
        flat := flat + [pt];
      }
      index := index + 1;
    }
  }

  /** Compaction keeps both ends of a path, so every compacted polyline
      still has at least two vertices. */
  lemma CompactedKeepsEnds(path: seq<Point>)
    requires |path| >= 2
    ensures var c := Compacted(path, |path|);
      |c| >= 2 && c[0] == path[0] && c[|c| - 1] == path[|path| - 1]
  {
    var n := |path|;
    CompactedStartsAtFirst(path, n - 1);
    assert Keep(path, n - 1);
  }

  lemma {:induction false} CompactedStartsAtFirst(path: seq<Point>, n: nat)
    requires 0 < n <= |path|
    ensures |Compacted(path, n)| >= 1 && Compacted(path, n)[0] == path[0]
  {
    if n > 1 {
      CompactedStartsAtFirst(path, n - 1);
    }
  }

  /** The points compaction drops are exactly the interior ones lying level
      with both neighbours: nothing else is dropped. */
  lemma {:induction false} CompactedCount(path: seq<Point>, n: nat)
    requires n <= |path|
    ensures |Compacted(path, n)| == n - |set i | 0 <= i < n && !Keep(path, i)|
  {
    if n > 0 {
      CompactedCount(path, n - 1);
      var dropped := set i | 0 <= i < n && !Keep(path, i);
      var before := set i | 0 <= i < n - 1 && !Keep(path, i);
      if Keep(path, n - 1) {
        assert dropped == before;
      } else {
        assert dropped == before + {n - 1};
      }
    }
  }
}

=== FILE: tango_replay.dfy ===
/** State replay: the timeline played back as a sequence of full channel
    states (tango/lib/tango.rb, `Samples#each_sample`). */
module TangoReplay {
  import opened Results
  import opened TangoValues
  import opened TangoChannels
  import opened TangoTimeline

  /** The value every channel holds at one point of the replay. */
  type State = map<ChanKey, Value>

  /** One yielded state after the initial one. */
  datatype Frame = Frame(time: real, state: State)

  /** Looking a recorded key up to read its `:negative` flag fails when no
      channel answers to the key (Ruby raises NoMethodError on nil). */
  datatype ReplayError = UnknownChannels(keys: set<ChanKey>)

  datatype Replayed = Replayed(initial: State, frames: seq<Frame>)

  /** The set of keys of the channels other than the control channel. */
  function UserKeys(cs: seq<Channel>): set<ChanKey> {
    set i | 0 <= i < |cs| && cs[i].key != Control :: cs[i].key
  }

  /** Channel `i` is the last one declared with its key. */
  predicate LastWithKey(cs: seq<Channel>, i: nat) {
    forall j :: i < j < |cs| ==> cs[j].key != cs[i].key
  }

  /** The state yielded as `:initial`: every channel but the control
      channel at its initial value, negative-logic booleans inverted; a later
      channel with the same key overwrites an earlier one. */
  function InitialState(cs: seq<Channel>): (st: State)
    ensures st.Keys == UserKeys(cs)
    ensures forall i: nat :: i < |cs| && cs[i].key != Control && LastWithKey(cs, i) ==>
      st[cs[i].key] == Shown(cs[i].negative, cs[i].initial)
  {
    if |cs| == 0 then map[]
    else
      var front := cs[..|cs| - 1];
      var c := cs[|cs| - 1];
      var st := InitialState(front);
      UserKeysSnoc(cs);
      LastWithKeySnoc(cs);
      if c.key == Control then st else st[c.key := Shown(c.negative, c.initial)]
  }

  lemma UserKeysSnoc(cs: seq<Channel>)
    requires |cs| > 0
    ensures var c := cs[|cs| - 1];
      UserKeys(cs) == UserKeys(cs[..|cs| - 1]) + (if c.key == Control then {} else {c.key})
  {
    var front := cs[..|cs| - 1];
    assert forall i :: 0 <= i < |front| ==> front[i] == cs[i];
  }

  lemma LastWithKeySnoc(cs: seq<Channel>)
    requires |cs| > 0
    ensures forall i: nat :: i < |cs| - 1 && LastWithKey(cs, i) ==>
      LastWithKey(cs[..|cs| - 1], i) && cs[i].key != cs[|cs| - 1].key
  {}

  /** The `:negative` flag read for a recorded key, if some channel answers. */
  function NegativeOf(cs: seq<Channel>, k: ChanKey): Option<bool> {
    match Lookup(cs, RefOf(k))
    case None => None
    case Some(c) => Some(c.negative)
  }

  /** Every key of a record resolves to a channel. */
  predicate Known(cs: seq<Channel>, rec: Record) {
    forall k :: k in rec ==> NegativeOf(cs, k).Some?
  }

  /** One replay step: the previous control value is dropped (the control
      channel is not sticky), then the record's assignments overwrite the
      state, negative-logic booleans inverted. */
  function Step(cs: seq<Channel>, st: State, rec: Record): (r: Result<State, ReplayError>)
    ensures r.Ok? <==> Known(cs, rec)
    ensures r.Ok? ==> r.value.Keys == (st.Keys - {Control}) + rec.Keys
    ensures r.Ok? ==> forall k :: k in rec ==> r.value[k] == Shown(NegativeOf(cs, k).value, rec[k])
    ensures r.Ok? ==> forall k :: k in st && k !in rec && k != Control ==> r.value[k] == st[k]
  {
    var unknown := set k | k in rec && NegativeOf(cs, k).None?;
    if unknown != {} then
      Err(UnknownChannels(unknown))
    else
      assert Known(cs, rec) by {
        forall k | k in rec ensures NegativeOf(cs, k).Some? {
          assert k in rec && NegativeOf(cs, k).None? ==> k in unknown;
        }
      }
      Ok(Assign(cs, st, rec))
  }

  /** The state after a record whose keys all resolve. */
  function Assign(cs: seq<Channel>, st: State, rec: Record): (r: State)
    requires Known(cs, rec)
    ensures r.Keys == (st.Keys - {Control}) + rec.Keys
    ensures forall k :: k in rec ==> r[k] == Shown(NegativeOf(cs, k).value, rec[k])
    ensures forall k :: k in st && k !in rec && k != Control ==> r[k] == st[k]
  {
    var shown := ShownRecord(cs, rec);
    Overlay(st - {Control}, shown);
    (st - {Control}) + shown
  }

  /** A record's values as the state shows them, negative-logic booleans
      inverted. */
  function ShownRecord(cs: seq<Channel>, rec: Record): (m: State)
    requires Known(cs, rec)
    ensures m.Keys == rec.Keys
    ensures forall k :: k in rec ==> m[k] == Shown(NegativeOf(cs, k).value, rec[k])
  {
    map k | k in rec :: Shown(NegativeOf(cs, k).value, rec[k])
  }

  /** Overwriting a map with another keeps what the second does not touch. */
  lemma Overlay(base: State, top: State)
    ensures (base + top).Keys == base.Keys + top.Keys
    ensures forall k :: k in top ==> (base + top)[k] == top[k]
    ensures forall k :: k in base && k !in top ==> (base + top)[k] == base[k]
  {}

  /** Every record met at the given instants resolves. */
  predicate AllKnown(cs: seq<Channel>, s: Samples, ts: seq<real>)
    requires forall i :: 0 <= i < |ts| ==> ts[i] in s
  {
    forall i :: 0 <= i < |ts| ==> Known(cs, s[ts[i]])
  }

  /** The instants of a run of frames. */
  function Times(fs: seq<Frame>): (ts: seq<real>)
    ensures |ts| == |fs| && forall i :: 0 <= i < |fs| ==> ts[i] == fs[i].time
  {
    seq(|fs|, i requires 0 <= i < |fs| => fs[i].time)
  }

  /** Every frame is recorded in `s`. */
  predicate InSamples(s: Samples, fs: seq<Frame>) {
    forall i :: 0 <= i < |fs| ==> fs[i].time in s
  }

  /** Each frame is the step from the one before it (from `st` for the
      first) by the record at its instant. */
  predicate StepsFrom(cs: seq<Channel>, s: Samples, st: State, fs: seq<Frame>)
    requires InSamples(s, fs)
  {
    && (|fs| > 0 ==> Step(cs, st, s[fs[0].time]) == Ok(fs[0].state))
    && forall i :: 0 < i < |fs| ==> Step(cs, fs[i - 1].state, s[fs[i].time]) == Ok(fs[i].state)
  }

  /** The frames yielded for the instants `ts`, starting from state `st`. */
  function Frames(cs: seq<Channel>, s: Samples, ts: seq<real>, st: State): (r: Result<seq<Frame>, ReplayError>)
    requires forall i :: 0 <= i < |ts| ==> ts[i] in s
    ensures r.Ok? <==> AllKnown(cs, s, ts)
    ensures r.Ok? ==> Times(r.value) == ts && InSamples(s, r.value)
    ensures r.Ok? ==> StepsFrom(cs, s, st, r.value)
    decreases |ts|
  {
    if |ts| == 0 then Ok([])
    else
      match Step(cs, st, s[ts[0]])
      case Err(e) => Err(e)
      case Ok(st1) =>
        match Frames(cs, s, ts[1..], st1)
        case Err(e) =>
          assert !AllKnown(cs, s, ts[1..]);
          Err(e)
        case Ok(rest) =>
          assert AllKnown(cs, s, ts) by {
            forall i | 0 < i < |ts| ensures Known(cs, s[ts[i]]) {
              assert ts[i] == ts[1..][i - 1];
            }
          }
          ConsFrames(cs, s, st, ts, st1, rest);
          var r := [Frame(ts[0], st1)] + rest;
          Ok(r)
  }

  lemma ConsFrames(cs: seq<Channel>, s: Samples, st: State, ts: seq<real>, st1: State, rest: seq<Frame>)
    requires |ts| > 0 && ts[0] in s
    requires InSamples(s, rest) && Times(rest) == ts[1..]
    requires Step(cs, st, s[ts[0]]) == Ok(st1)
    requires StepsFrom(cs, s, st1, rest)
    ensures InSamples(s, [Frame(ts[0], st1)] + rest)
    ensures Times([Frame(ts[0], st1)] + rest) == ts
    ensures StepsFrom(cs, s, st, [Frame(ts[0], st1)] + rest)
  {
    var r := [Frame(ts[0], st1)] + rest;
    assert forall i :: 0 < i < |r| ==> r[i] == rest[i - 1];
    assert Times(r) == ts;
  }

  /** `Samples#each_sample`: the initial state, then one frame per recorded
      instant in strictly ascending order, each the previous state updated
      by that instant's record; the control channel holds a value only at
      the instants where one was recorded for it. */
  function EachSample(cs: seq<Channel>, s: Samples): (r: Result<Replayed, ReplayError>)
    ensures r.Ok? <==> forall t :: t in s ==> Known(cs, s[t])
    ensures r.Ok? ==> r.value.initial == InitialState(cs)
    ensures r.Ok? ==> InSamples(s, r.value.frames) && |r.value.frames| == |s|
    ensures r.Ok? ==> forall t :: t in s ==> t in Times(r.value.frames)
    ensures r.Ok? ==> Increasing(Times(r.value.frames))
    ensures r.Ok? ==> StepsFrom(cs, s, r.value.initial, r.value.frames)
    ensures r.Ok? ==> forall i :: 0 <= i < |r.value.frames| ==>
      (Control in r.value.frames[i].state <==> Control in s[r.value.frames[i].time])
  {
    var ts := Sorted(s.Keys);
    var init := InitialState(cs);
    var fs := Frames(cs, s, ts, init);
    assert fs.Ok? <==> forall t :: t in s ==> Known(cs, s[t]) by {
      if fs.Ok? {
        forall t | t in s ensures Known(cs, s[t]) {
          var i :| 0 <= i < |ts| && ts[i] == t;
        }
      }
    }
    match fs
    case Err(e) => Err(e)
    case Ok(frames) =>
      assert Control !in init;
      ControlNotSticky(cs, s, init, frames);
      Ok(Replayed(init, frames))
  }

  lemma ControlNotSticky(cs: seq<Channel>, s: Samples, init: State, fs: seq<Frame>)
    requires InSamples(s, fs) && StepsFrom(cs, s, init, fs)
    requires Control !in init
    ensures forall i :: 0 <= i < |fs| ==> (Control in fs[i].state <==> Control in s[fs[i].time])
  {
    forall i | 0 <= i < |fs| ensures Control in fs[i].state <==> Control in s[fs[i].time] {
      var prev := if i == 0 then init else fs[i - 1].state;
      assert Step(cs, prev, s[fs[i].time]) == Ok(fs[i].state);
    }
  }

  /** The latest index `j <= i` whose record assigns `k`, if any. */
  function LastWrite(s: Samples, ts: seq<real>, k: ChanKey, i: int): (r: Option<nat>)
    requires forall j :: 0 <= j < |ts| ==> ts[j] in s
    requires i < |ts|
    ensures r.Some? ==> r.value <= i && k in s[ts[r.value]]
    ensures r.Some? ==> forall j :: r.value < j <= i ==> k !in s[ts[j]]
    ensures r.None? ==> forall j :: 0 <= j <= i ==> k !in s[ts[j]]
    decreases i + 1
  {
    if i < 0 then None
    else if k in s[ts[i]] then Some(i)
    else LastWrite(s, ts, k, i - 1)
  }

  /** What a channel holds after frame `i`: the latest assignment up to
      then (through negative logic), else its initial value. */
  function Expected(cs: seq<Channel>, s: Samples, init: State, fs: seq<Frame>, k: ChanKey, i: nat): Value
    requires InSamples(s, fs) && i < |fs| && k in init
    requires forall t :: t in s ==> Known(cs, s[t])
  {
    match LastWrite(s, Times(fs), k, i)
    case Some(j) =>
      assert Known(cs, s[fs[j].time]);
      Shown(NegativeOf(cs, k).value, s[fs[j].time][k])
    case None => init[k]
  }

  /** No assignment is lost along a run of steps. */
  lemma {:induction false} StepsKeepLatestWrite(
    cs: seq<Channel>, s: Samples, init: State, fs: seq<Frame>, k: ChanKey, i: nat)
    requires InSamples(s, fs) && StepsFrom(cs, s, init, fs)
    requires forall t :: t in s ==> Known(cs, s[t])
    requires k != Control && k in init && i < |fs|
    ensures k in fs[i].state && fs[i].state[k] == Expected(cs, s, init, fs, k, i)
  {
    var ts := Times(fs);
    var prev := if i == 0 then init else fs[i - 1].state;
    assert Step(cs, prev, s[ts[i]]) == Ok(fs[i].state);
    if i > 0 {
      StepsKeepLatestWrite(cs, s, init, fs, k, i - 1);
    }
    if k !in s[ts[i]] {
      assert LastWrite(s, ts, k, i) == LastWrite(s, ts, k, i - 1);
    }
  }

  /** No assignment is lost in the replay: in every frame, each channel
      other than the control channel holds the value of the latest record up
      to that frame that assigned it (through negative logic), or its
      initial value when no record did. */
  lemma ReplayKeepsLatestWrite(cs: seq<Channel>, s: Samples, k: ChanKey, i: nat)
    requires EachSample(cs, s).Ok?
    requires k != Control && k in InitialState(cs)
    requires i < |EachSample(cs, s).value.frames|
    ensures var fs := EachSample(cs, s).value.frames;
      k in fs[i].state && fs[i].state[k] == Expected(cs, s, InitialState(cs), fs, k, i)
  {
    var fs := EachSample(cs, s).value.frames;
    StepsKeepLatestWrite(cs, s, InitialState(cs), fs, k, i);
  }
}

=== FILE: tango_scope.dfy ===
/** The authoring side of a scope: its clock, and the operations a diagram
    script calls (tango/lib/tango.rb, class Scope). A block passed to an
    operation is a function from the scope before it to the scope after it
    (or the error it raised). */
module TangoScope {
  import opened Results
  import opened TangoValues
  import opened TangoChannels
  import opened TangoTimeline
  import opened TangoLabels
  import opened TangoMeasures

  datatype Scope = Scope(
    now: real,
    leadIn: real,
    risefall: Option<real>,
    units: string,
    channels: seq<Channel>,
    labels: seq<Label>,
    samples: Samples,
    tracker: Tracker)

  /** Every way a scope operation can raise. */
  datatype ScopeError =
    | Duplicate(channel: ChannelError)
    | Conflict(record: RecordError)
    | NegativeStep(time: real)
    | ClockNotZero(now: real)
    | MissingMark(lookup: LabelError)
    | OverlappingRepeat
    | NotANumber
    | Diverges

  /** A block of script. */
  type Block = Scope -> Result<Scope, ScopeError>

  /** `Scope.new`: the clock at 0, the control channel, nothing recorded. */
  function NewScope(): (sc: Scope)
    ensures sc.now == 0.0 && sc.channels == [ControlDef] && WellFormed(sc.channels)
    ensures sc.labels == [] && sc.samples == map[] && sc.tracker == NoMeasures
  {
    ControlDefWellFormed();
    Scope(0.0, 0.0, None, "us", [ControlDef], [], map[], NoMeasures)
  }

  /** `channel(name, options)`. */
  function AddChannelTo(sc: Scope, k: ChanKey, o: ChannelOpts): (r: Result<Scope, ScopeError>)
    ensures r.Err? <==> AddChannel(sc.channels, k, o, sc.risefall).Err?
    ensures r.Ok? ==> r.value == sc.(channels := AddChannel(sc.channels, k, o, sc.risefall).value)
  {
    match AddChannel(sc.channels, k, o, sc.risefall)
    case Err(e) => Err(Duplicate(e))
    case Ok(cs) => Ok(sc.(channels := cs))
  }

  /** The time argument of `sample`: none, a duration, or a Range `a..b`. */
  datatype TimeFrame = Here | After(dt: real) | Span(first: real, last: real)

  /** `sample(timeframe, data)` as written. Without a time argument the
      timeframe is the clock itself, so the clock is doubled before the
      record is made. With a duration the clock advances by it first; with a
      range `a..b` it advances by `a`, records, then advances by `b`. */
  function Sample(sc: Scope, tf: TimeFrame, data: Record): (r: Result<Scope, ScopeError>)
    ensures var at := match tf
      case Here => sc.now + sc.now
      case After(dt) => sc.now + dt
      case Span(a, _) => sc.now + a;
      && (r.Err? <==> New(sc.samples, at, data).Err?)
      && (r.Ok? ==> r.value.samples == New(sc.samples, at, data).value)
      && (r.Ok? ==> r.value.now == (if tf.Span? then at + tf.last else at))
      && (r.Ok? ==> r.value == sc.(now := r.value.now, samples := r.value.samples))
  {
    var start := match tf
      case Here => sc.now
      case After(dt) => dt
      case Span(a, _) => a;
    var at := sc.now + start;
    match New(sc.samples, at, data)
    case Err(e) => Err(Conflict(e))
    case Ok(s) => Ok(sc.(now := if tf.Span? then at + tf.last else at, samples := s))
  }

  /** `sample(data)` as documented: a record at the current time, the
      clock left where it is. */
  function SampleAtNow(sc: Scope, data: Record): (r: Result<Scope, ScopeError>)
    ensures r.Err? <==> New(sc.samples, sc.now, data).Err?
    ensures r.Ok? ==> r.value.now == sc.now && r.value.samples == New(sc.samples, sc.now, data).value
    ensures r.Ok? ==> sc.now in r.value.samples
    ensures r.Ok? ==> forall c :: c in data ==> r.value.samples[sc.now][c] == data[c]
  {
    match New(sc.samples, sc.now, data)
    case Err(e) => Err(Conflict(e))
    case Ok(s) => Ok(sc.(samples := s))
  }

  /** As written, `sample(data)` records at the current time only while the
      clock is at 0; at 5 it records at 10 and leaves the clock there. */
  lemma SampleHereDoublesClock(sc: Scope, data: Record)
    ensures Sample(sc, Here, data).Ok? ==> Sample(sc, Here, data).value.now == 2.0 * sc.now
    ensures Sample(sc, Here, data) == SampleAtNow(sc, data) <==> sc.now == 0.0
    ensures sc.now == 5.0 && sc.samples == map[] ==>
      Sample(sc, Here, data).value.now == 10.0 && 10.0 in Sample(sc, Here, data).value.samples
      && 5.0 !in Sample(sc, Here, data).value.samples
  {
    if sc.now != 0.0 {
      var a := Sample(sc, Here, data);
      var b := SampleAtNow(sc, data);
      if a.Ok? && b.Ok? {
        assert a.value.now != b.value.now;
      } else if a.Err? && b.Err? {
        assert New(sc.samples, sc.now + sc.now, data).Err?;
        assert New(sc.samples, sc.now, data).Err?;
        assert a.error.record.time == sc.now + sc.now;
        assert b.error.record.time == sc.now;
      }
    } else {
      assert sc.now + sc.now == sc.now;
    }
  }

  /** A record at the current time is the same as `sample(0, data)`. */
  lemma SampleAtNowIsAfterZero(sc: Scope, data: Record)
    ensures SampleAtNow(sc, data) == Sample(sc, After(0.0), data)
  {}

  /** `fold(tag)`: a fold marker on the control channel at the current time. */
  function Fold(sc: Scope, tag: string): (r: Result<Scope, ScopeError>)
    ensures r.Ok? ==> r.value.now == sc.now && sc.now in r.value.samples
    ensures r.Ok? ==> Control in r.value.samples[sc.now] && r.value.samples[sc.now][Control] == FoldMark(tag)
    ensures r.Err? <==> sc.now in sc.samples && Control in sc.samples[sc.now]
    ensures r.Ok? ==>
      && New(sc.samples, sc.now, map[Control := FoldMark(tag)]).Ok?
      && r.value == sc.(samples := New(sc.samples, sc.now, map[Control := FoldMark(tag)]).value)
  {
    var r := SampleAtNow(sc, map[Control := FoldMark(tag)]);
    assert r.Err? <==> sc.now in sc.samples && sc.samples[sc.now].Keys * {Control} != {};
    assert Control in map[Control := FoldMark(tag)];
    assert sc.now in sc.samples ==> (Control in sc.samples[sc.now] <==> sc.samples[sc.now].Keys * {Control} != {}) by {
      if sc.now in sc.samples && Control in sc.samples[sc.now] {
        assert Control in sc.samples[sc.now].Keys * {Control};
      }
    }
    r
  }

  /** `step(time)`: moves the clock forward; a negative step raises. */
  function Step(sc: Scope, dt: real): (r: Result<Scope, ScopeError>)
    ensures r.Err? <==> dt < 0.0
    ensures r.Ok? ==> r.value == sc.(now := sc.now + dt) && r.value.now >= sc.now
  {
    if dt >= 0.0 then Ok(sc.(now := sc.now + dt)) else Err(NegativeStep(dt))
  }

  /** `lead_in(time)`: only at clock 0; sets the clock and the lead-in. */
  function LeadIn(sc: Scope, t: real): (r: Result<Scope, ScopeError>)
    ensures r.Err? <==> sc.now != 0.0
    ensures r.Ok? ==> r.value.now == t && r.value.leadIn == t
    ensures r.Ok? ==> r.value == sc.(now := t, leadIn := t)
  {
    if sc.now == 0.0 then Ok(sc.(now := t, leadIn := t)) else Err(ClockNotZero(sc.now))
  }

  /** `seek(time)`. */
  function Seek(sc: Scope, t: real): (r: Scope)
    ensures r.now == t && r.(now := sc.now) == sc
  {
    sc.(now := t)
  }

  /** `untimed { block }`: runs the block, then puts the clock back. */
  function Untimed(sc: Scope, body: Block): (r: Result<Scope, ScopeError>)
    ensures r.Err? <==> body(sc).Err?
    ensures r.Ok? ==> r.value.now == sc.now
    ensures r.Ok? ==> r.value == body(sc).value.(now := sc.now)
  {
    var after :- body(sc);
    Ok(after.(now := sc.now))
  }

  /** Steps in any order, when none raises, end at the sum of the steps. */
  lemma StepsAdd(sc: Scope, a: real, b: real)
    requires a >= 0.0 && b >= 0.0
    ensures Step(Step(sc, a).value, b) == Step(sc, a + b)
  {}

  /** `label(name)`. */
  function LabelNow(sc: Scope, name: string): (r: Scope)
    ensures r.(labels := sc.labels) == sc
    ensures r.labels == sc.labels + [Label(sc.now, Some(name), None, false)]
  {
    sc.(labels := AddLabel(sc.labels, sc.now, name))
  }

  /** `mark(tag, hide:)` at the current time. */
  function MarkNow(sc: Scope, tag: Option<string>, hiding: bool): (r: Scope)
    ensures r.(labels := sc.labels) == sc
    ensures r.labels == Mark(sc.labels, sc.now, tag, hiding).labels
  {
    sc.(labels := Mark(sc.labels, sc.now, tag, hiding).labels)
  }

  /** `mark_seek(tag, d)`: the clock to the tagged label's time plus `d`. */
  function MarkSeekTo(sc: Scope, tag: Option<string>, d: real): (r: Result<Scope, ScopeError>)
    ensures r.Err? <==> MarkSeek(sc.labels, tag, d).Err?
    ensures r.Ok? ==> r.value == Seek(sc, MarkSeek(sc.labels, tag, d).value)
  {
    match MarkSeek(sc.labels, tag, d)
    case Err(e) => Err(MissingMark(e))
    case Ok(t) => Ok(Seek(sc, t))
  }

  /** A hidden mark taken in one place of the script and sought from
      another brings the clock back to it (plus the offset). */
  lemma HiddenMarkRoundTrip(sc: Scope, tag: string, elsewhere: real, d: real)
    ensures var marked := MarkNow(sc, Some(tag), true);
      MarkSeekTo(Seek(marked, elsewhere), Some(tag), d) == Ok(marked.(now := sc.now + d))
  {
    HiddenMarkThenSeek(sc.labels, sc.now, tag, d);
  }

  /** `measure(name, options) { block }`: always runs the block; records the
      measurement from the clock before it to the clock after it only when
      the name is new and selected. */
  function Measure(sc: Scope, name: string, o: MeasureOpts, body: Block): (r: Result<Scope, ScopeError>)
    ensures r.Err? <==> body(sc).Err?
    ensures !Records(sc.tracker, name, o) ==> r == body(sc)
    ensures Records(sc.tracker, name, o) && r.Ok? ==>
      && r.value == body(sc).value.(tracker := r.value.tracker)
      && name in r.value.tracker.done
      && r.value.tracker.done[name].begin == sc.now
      && r.value.tracker.done[name].end == body(sc).value.now
    ensures Records(sc.tracker, name, o) && r.Ok? ==>
      r.value.tracker == FinishMeasure(body(sc).value.tracker, name, o, sc.now, body(sc).value.now,
        |body(sc).value.channels|, body(sc).value.units)
  {
    if !Records(sc.tracker, name, o) then body(sc)
    else
      var after :- body(sc);
      Ok(after.(tracker := FinishMeasure(after.tracker, name, o, sc.now, after.now, |after.channels|, after.units)))
  }

  /** A block repeated under one measure name is measured once: the second
      time round only the block runs. */
  lemma MeasureRepeatedOnce(sc: Scope, name: string, o: MeasureOpts, body: Block)
    requires Records(sc.tracker, name, o) && Measure(sc, name, o, body).Ok?
    ensures var once := Measure(sc, name, o, body).value;
      !Records(once.tracker, name, o) && Measure(once, name, o, body) == body(once)
  {
    var once := Measure(sc, name, o, body).value;
    assert name in once.tracker.done;
  }

  /** `start_measure(name, options)`. */
  function StartMeasureAt(sc: Scope, name: string, o: MeasureOpts): (r: Scope)
    ensures r.(tracker := sc.tracker) == sc
    ensures r.tracker == StartMeasure(sc.tracker, name, o, sc.now, |sc.channels|, sc.units)
  {
    sc.(tracker := StartMeasure(sc.tracker, name, o, sc.now, |sc.channels|, sc.units))
  }

  /** `end_measure(name, options)`. */
  function EndMeasureAt(sc: Scope, name: string, o: MeasureOpts): (r: Scope)
    ensures r.(tracker := sc.tracker) == sc
    ensures r.tracker == EndMeasure(sc.tracker, name, o, sc.now)
  {
    sc.(tracker := EndMeasure(sc.tracker, name, o, sc.now))
  }

  /** A counted block: it is given the iteration number. */
  type CountedBlock = (Scope, nat) -> Result<Scope, ScopeError>

  /** The scope iteration `n` of a periodic repeat starts from. */
  function IterationStart(sc: Scope, base: real, n: nat, p: real): (r: Scope)
    ensures r.now == base + n as real * p
  {
    sc.(now := base + n as real * p)
  }

  /** Iterations `n .. count-1` of `repeat(count, period:)` from `base`. */
  function RepeatFrom(sc: Scope, base: real, count: int, period: Option<real>, body: CountedBlock, n: nat)
    : (r: Result<Scope, ScopeError>)
    decreases count - n
  {
    if n >= count then Ok(sc)
    else
      var at := if period.Some? then IterationStart(sc, base, n, period.value) else sc;
      var next :- body(at, n);
      RepeatFrom(next, base, count, period, body, n + 1)
  }

  /** `repeat(count, period:)` (with `:n` meaning once): the block runs
      `count` times (not at all for a negative count); with a period, each
      iteration starts at `base + n * period` and the clock ends at
      `base + count * period`, even for a negative count. */
  function RepeatCount(sc: Scope, count: int, period: Option<real>, body: CountedBlock)
    : (r: Result<Scope, ScopeError>)
    ensures period.Some? && r.Ok? ==> r.value.now == sc.now + count as real * period.value
    ensures period.None? && count <= 0 ==> r == Ok(sc)
    ensures period.Some? && count <= 0 ==> r == Ok(sc.(now := sc.now + count as real * period.value))
  {
    var last :- RepeatFrom(sc, sc.now, count, period, body, 0);
    Ok(if period.Some? then last.(now := sc.now + count as real * period.value) else last)
  }

  /** A block that labels the clock it is started at. */
  function LabelBlock(name: string): CountedBlock {
    (s: Scope, n: nat) => Ok(LabelNow(s, name))
  }

  /** Labels at `base + n * p` for iterations `n` from `from` to `count - 1`. */
  function StartLabels(base: real, p: real, name: string, from: nat, count: nat): (ls: seq<Label>)
    requires from <= count
    ensures |ls| == count - from
    ensures forall k :: 0 <= k < |ls| ==> ls[k] == Label(base + (from + k) as real * p, Some(name), None, false)
  {
    seq(count - from, k requires 0 <= k < count - from => Label(base + (from + k) as real * p, Some(name), None, false))
  }

  /** Iterations `n .. count-1` start the block at `base + n * p`, one after
      another. */
  lemma {:induction false} RepeatFromStarts(sc: Scope, base: real, count: nat, p: real, name: string, n: nat)
    requires n <= count
    ensures RepeatFrom(sc, base, count, Some(p), LabelBlock(name), n).Ok?
    ensures RepeatFrom(sc, base, count, Some(p), LabelBlock(name), n).value.labels
      == sc.labels + StartLabels(base, p, name, n, count)
    decreases count - n
  {
    if n < count {
      var next := LabelNow(IterationStart(sc, base, n, p), name);
      RepeatFromFirst(sc, base, count, p, name, n);
      RepeatFromStarts(next, base, count, p, name, n + 1);
      StartLabelsFirst(base, p, name, n, count);
      var first := Label(base + n as real * p, Some(name), None, false);
      assert next.labels == sc.labels + [first];
      Associate(sc.labels, [first], StartLabels(base, p, name, n + 1, count));
    } else {
      assert StartLabels(base, p, name, n, count) == [];
      assert sc.labels + [] == sc.labels;
    }
  }

  /** One iteration of the labelling repeat. */
  lemma RepeatFromFirst(sc: Scope, base: real, count: nat, p: real, name: string, n: nat)
    requires n < count
    ensures RepeatFrom(sc, base, count, Some(p), LabelBlock(name), n)
      == RepeatFrom(LabelNow(IterationStart(sc, base, n, p), name), base, count, Some(p), LabelBlock(name), n + 1)
  {
    assert LabelBlock(name)(IterationStart(sc, base, n, p), n) == Ok(LabelNow(IterationStart(sc, base, n, p), name));
  }

  lemma StartLabelsFirst(base: real, p: real, name: string, n: nat, count: nat)
    requires n < count
    ensures StartLabels(base, p, name, n, count)
      == [Label(base + n as real * p, Some(name), None, false)] + StartLabels(base, p, name, n + 1, count)
  {
    var a := StartLabels(base, p, name, n, count);
    var b := [Label(base + n as real * p, Some(name), None, false)] + StartLabels(base, p, name, n + 1, count);
    assert |a| == |b|;
    assert a[0] == b[0] by {
      assert (n + 0) as real == n as real;
    }
    forall k | 1 <= k < |a|
      ensures a[k] == b[k]
    {
      assert b[k] == StartLabels(base, p, name, n + 1, count)[k - 1];
      assert (n + k) as real == ((n + 1) + (k - 1)) as real;
    }
    assert a == b;
  }

  /** `repeat(count, period: p)` starts iteration `n` at `now + n * p`, for
      every `n < count`, and ends at `now + count * p`: a block that labels
      its start clock leaves exactly those labels, in order. */
  lemma RepeatCountStarts(sc: Scope, count: nat, p: real, name: string)
    ensures RepeatCount(sc, count, Some(p), LabelBlock(name)).Ok?
    ensures var r := RepeatCount(sc, count, Some(p), LabelBlock(name)).value;
      && r.labels == sc.labels + StartLabels(sc.now, p, name, 0, count)
      && r.now == sc.now + count as real * p
  {
    RepeatFromStarts(sc, sc.now, count, p, name, 0);
  }

  /** `count` copies of the label a labelling block leaves at `t`. */
  function SameLabels(t: real, name: string, count: nat): (ls: seq<Label>)
    ensures |ls| == count
    ensures forall k :: 0 <= k < count ==> ls[k] == Label(t, Some(name), None, false)
  {
    seq(count, k => Label(t, Some(name), None, false))
  }

  /** Iterations `n .. count-1` of a repeat without a period run the block
      one after another and leave the clock alone. */
  lemma {:induction false} RepeatFromPlain(sc: Scope, base: real, count: nat, name: string, n: nat)
    requires n <= count
    ensures RepeatFrom(sc, base, count, None, LabelBlock(name), n).Ok?
    ensures var r := RepeatFrom(sc, base, count, None, LabelBlock(name), n).value;
      && r.labels == sc.labels + SameLabels(sc.now, name, count - n)
      && r.now == sc.now
    decreases count - n
  {
    if n < count {
      var next := LabelNow(sc, name);
      assert LabelBlock(name)(sc, n) == Ok(next);
      assert RepeatFrom(sc, base, count, None, LabelBlock(name), n)
        == RepeatFrom(next, base, count, None, LabelBlock(name), n + 1);
      RepeatFromPlain(next, base, count, name, n + 1);
      assert [Label(sc.now, Some(name), None, false)] + SameLabels(sc.now, name, count - (n + 1))
        == SameLabels(sc.now, name, count - n);
      Associate(sc.labels, [Label(sc.now, Some(name), None, false)], SameLabels(sc.now, name, count - (n + 1)));
    } else {
      assert sc.labels + SameLabels(sc.now, name, 0) == sc.labels;
    }
  }

  /** `repeat(count)` without a period runs the block `count` times, each
      from where the one before left the clock, and does not move the clock
      itself: a block that labels the clock leaves `count` labels at `now`. */
  lemma RepeatCountPlain(sc: Scope, count: nat, name: string)
    ensures RepeatCount(sc, count, None, LabelBlock(name)).Ok?
    ensures var r := RepeatCount(sc, count, None, LabelBlock(name)).value;
      && r.labels == sc.labels + SameLabels(sc.now, name, count)
      && r.now == sc.now
  {
    RepeatFromPlain(sc, sc.now, count, name, 0);
  }

  /** The range form of `repeat` without `samples:`: from `now + a`, runs
      the block until the clock reaches `start + b`. The Ruby loop runs for
      ever when the block never moves the clock; the model gives up after
      `fuel` iterations. */
  function RepeatUntil(sc: Scope, limit: real, body: CountedBlock, n: nat, fuel: nat)
    : (r: Result<Scope, ScopeError>)
    ensures r.Ok? ==> r.value.now >= limit
    ensures sc.now >= limit ==> r == Ok(sc)
    decreases fuel
  {
    if sc.now >= limit then Ok(sc)
    else if fuel == 0 then Err(Diverges)
    else
      var next :- body(sc, n);
      RepeatUntil(next, limit, body, n + 1, fuel - 1)
  }

  function RepeatRange(sc: Scope, a: real, b: real, body: CountedBlock, fuel: nat)
    : (r: Result<Scope, ScopeError>)
    ensures r.Ok? ==> r.value.now >= sc.now + a + b
  {
    RepeatUntil(sc.(now := sc.now + a), sc.now + a + b, body, 0, fuel)
  }

  /** A sampled block: it is given the index, the fraction of the range
      and the offset into it. */
  type SampledBlock = (Scope, nat, real, real) -> Result<Scope, ScopeError>

  /** The fraction of the range at sample `index` of `count`. */
  function Fraction(index: nat, count: int, inclusive: bool): real
    requires count - (if inclusive then 1 else 0) > 0
  {
    index as real / (count - (if inclusive then 1 else 0)) as real
  }

  /** The offsets run from the start of the range; an inclusive repeat puts
      its last sample at the end of the range, any other stops short of it. */
  lemma FractionsSpanRange(count: int, inclusive: bool)
    requires count - (if inclusive then 1 else 0) > 0
    ensures Fraction(0, count, inclusive) == 0.0
    ensures inclusive ==> Fraction(count - 1, count, inclusive) == 1.0
    ensures !inclusive ==> forall i: nat :: i < count ==> Fraction(i, count, inclusive) < 1.0
    ensures forall i: nat, j: nat :: i < j ==> Fraction(i, count, inclusive) < Fraction(j, count, inclusive)
  {
    var d := (count - (if inclusive then 1 else 0)) as real;
    forall i: nat, j: nat | i < j
      ensures Fraction(i, count, inclusive) < Fraction(j, count, inclusive)
    {
      DivLess(i as real, j as real, d);
    }
    assert d / d == 1.0;
    if inclusive {
      assert (count - 1) as real == d;
    } else {
      forall i: nat | i < count
        ensures Fraction(i, count, inclusive) < 1.0
      {
        assert i as real < d;
        DivLess(i as real, d, d);
      }
    }
  }

  lemma DivLess(a: real, b: real, d: real)
    requires a < b && d > 0.0
    ensures a / d < b / d
  {
    assert b / d - a / d == (b - a) / d;
  }

  /** Samples `index .. count-1` of a sample-based repeat. */
  function SampleFrom(sc: Scope, start: real, size: real, count: int, inclusive: bool, body: SampledBlock, index: nat)
    : (r: Result<Scope, ScopeError>)
    requires count - (if inclusive then 1 else 0) > 0 || count <= 0
    decreases count - index
  {
    if index >= count then Ok(sc)
    else
      var pct := Fraction(index, count, inclusive);
      var time := pct * size;
      if sc.now > start + time then Err(OverlappingRepeat)
      else
        var next :- body(Seek(sc, start + time), index, pct, time);
        SampleFrom(next, start, size, count, inclusive, body, index + 1)
  }

  /** `repeat(a..b, samples: count, inclusive:)`: the block runs at `count`
      evenly spaced offsets of the range starting at `now + a` (the last at
      the end of the range when inclusive); a block that runs the clock past
      the next offset raises. Unless inclusive, the clock ends at the end of
      the range. One inclusive sample divides zero by zero (NaN in Ruby). */
  function RepeatSamples(sc: Scope, a: real, b: real, count: int, inclusive: bool, body: SampledBlock)
    : (r: Result<Scope, ScopeError>)
    ensures inclusive && count == 1 ==> r == Err(NotANumber)
    ensures !inclusive && r.Ok? ==> r.value.now == sc.now + a + (b - a)
  {
    if inclusive && count == 1 then Err(NotANumber)
    else
      var start := sc.now + a;
      var last :- SampleFrom(sc.(now := start), start, b - a, count, inclusive, body, 0);
      Ok(if inclusive then last else last.(now := start + (b - a)))
  }

  /** A sampled block that labels the clock it is started at. */
  function SampleLabelBlock(name: string): SampledBlock {
    (s: Scope, i: nat, pct: real, t: real) => Ok(LabelNow(s, name))
  }

  /** A sampled block that moves the clock on by `d`. */
  function StepBlock(d: real): SampledBlock {
    (s: Scope, i: nat, pct: real, t: real) => Ok(Seek(s, s.now + d))
  }

  /** The label the labelling block leaves for sample `i`. */
  function SampleLabel(start: real, size: real, count: nat, inclusive: bool, name: string, i: nat): (l: Label)
    requires count - (if inclusive then 1 else 0) > 0
    ensures l == Label(start + Fraction(i, count, inclusive) * size, Some(name), None, false)
  {
    Label(start + Fraction(i, count, inclusive) * size, Some(name), None, false)
  }

  /** The labels of samples `from` to `count - 1`, in order. */
  function SampleLabels(start: real, size: real, count: nat, inclusive: bool, name: string, from: nat)
    : (ls: seq<Label>)
    requires count - (if inclusive then 1 else 0) > 0 && from <= count
    ensures |ls| == count - from
    ensures forall k :: 0 <= k < |ls| ==> ls[k] == SampleLabel(start, size, count, inclusive, name, from + k)
  {
    seq(count - from, k requires 0 <= k < count - from => SampleLabel(start, size, count, inclusive, name, from + k))
  }

  lemma SampleLabelsFirst(start: real, size: real, count: nat, inclusive: bool, name: string, n: nat)
    requires count - (if inclusive then 1 else 0) > 0 && n < count
    ensures SampleLabels(start, size, count, inclusive, name, n)
      == [SampleLabel(start, size, count, inclusive, name, n)] + SampleLabels(start, size, count, inclusive, name, n + 1)
  {
    var a := SampleLabels(start, size, count, inclusive, name, n);
    var b := [SampleLabel(start, size, count, inclusive, name, n)] + SampleLabels(start, size, count, inclusive, name, n + 1);
    assert |a| == |b|;
    forall k | 0 <= k < |a|
      ensures a[k] == b[k]
    {
      if k > 0 {
        assert b[k] == SampleLabels(start, size, count, inclusive, name, n + 1)[k - 1];
        assert (n + 1) + (k - 1) == n + k;
      }
    }
  }

  /** One sample of the labelling repeat. */
  lemma SampleFromFirst(sc: Scope, start: real, size: real, count: nat, inclusive: bool, name: string, n: nat)
    requires count - (if inclusive then 1 else 0) > 0 && n < count
    requires sc.now <= start + Fraction(n, count, inclusive) * size
    ensures SampleFrom(sc, start, size, count, inclusive, SampleLabelBlock(name), n)
      == SampleFrom(LabelNow(Seek(sc, start + Fraction(n, count, inclusive) * size), name),
           start, size, count, inclusive, SampleLabelBlock(name), n + 1)
  {
    var at := Seek(sc, start + Fraction(n, count, inclusive) * size);
    assert SampleLabelBlock(name)(at, n, Fraction(n, count, inclusive), Fraction(n, count, inclusive) * size)
      == Ok(LabelNow(at, name));
    SampleFromUnfold(sc, start, size, count, inclusive, SampleLabelBlock(name), n, LabelNow(at, name));
  }

  /** A sample that is on time runs the block at its offset and goes on
      with the next sample from the block's result. */
  lemma SampleFromUnfold(sc: Scope, start: real, size: real, count: nat, inclusive: bool, body: SampledBlock,
    n: nat, next: Scope)
    requires count - (if inclusive then 1 else 0) > 0 && n < count
    requires sc.now <= start + Fraction(n, count, inclusive) * size
    requires body(Seek(sc, start + Fraction(n, count, inclusive) * size), n, Fraction(n, count, inclusive),
      Fraction(n, count, inclusive) * size) == Ok(next)
    ensures SampleFrom(sc, start, size, count, inclusive, body, n)
      == SampleFrom(next, start, size, count, inclusive, body, n + 1)
  {
  }

  /** Each sample's fraction lies after the one before. */
  lemma FractionStep(n: nat, count: int, inclusive: bool)
    requires count - (if inclusive then 1 else 0) > 0
    ensures Fraction(n, count, inclusive) < Fraction(n + 1, count, inclusive)
  {
    DivLess(n as real, (n + 1) as real, (count - (if inclusive then 1 else 0)) as real);
  }

  /** Scaling by a non-negative size keeps the order of the fractions. */
  lemma ScaleMonotone(x: real, y: real, size: real)
    requires x <= y && size >= 0.0
    ensures x * size <= y * size
  {
    assert y * size - x * size == (y - x) * size;
  }

  /** Samples `n .. count-1` of a forward range start the block at
      `start + Fraction(i) * size`, one after another, and the last one
      leaves the clock at its offset. */
  lemma {:induction false} SampleFromStarts(sc: Scope, start: real, size: real, count: nat, inclusive: bool,
    name: string, n: nat)
    requires count - (if inclusive then 1 else 0) > 0 && n < count && size >= 0.0
    requires sc.now <= start + Fraction(n, count, inclusive) * size
    ensures SampleFrom(sc, start, size, count, inclusive, SampleLabelBlock(name), n).Ok?
    ensures var r := SampleFrom(sc, start, size, count, inclusive, SampleLabelBlock(name), n).value;
      && r.labels == sc.labels + SampleLabels(start, size, count, inclusive, name, n)
      && r.now == start + Fraction(count - 1, count, inclusive) * size
    decreases count - n
  {
    if n + 1 < count {
      var next := SampleStep(sc, start, size, count, inclusive, name, n);
      SampleFromStarts(next, start, size, count, inclusive, name, n + 1);
      assert sc.labels + SampleLabels(start, size, count, inclusive, name, n)
        == next.labels + SampleLabels(start, size, count, inclusive, name, n + 1) by {
        SampleLabelsFirst(start, size, count, inclusive, name, n);
        Associate(sc.labels, [SampleLabel(start, size, count, inclusive, name, n)],
          SampleLabels(start, size, count, inclusive, name, n + 1));
      }
    } else {
      SampleLast(sc, start, size, count, inclusive, name, n);
    }
  }

  /** A sample that is not the last labels its offset and leaves the clock
      no later than the next one's. */
  lemma SampleStep(sc: Scope, start: real, size: real, count: nat, inclusive: bool, name: string, n: nat)
    returns (next: Scope)
    requires count - (if inclusive then 1 else 0) > 0 && n + 1 < count && size >= 0.0
    requires sc.now <= start + Fraction(n, count, inclusive) * size
    ensures SampleFrom(sc, start, size, count, inclusive, SampleLabelBlock(name), n)
      == SampleFrom(next, start, size, count, inclusive, SampleLabelBlock(name), n + 1)
    ensures next.labels == sc.labels + [SampleLabel(start, size, count, inclusive, name, n)]
    ensures next.now <= start + Fraction(n + 1, count, inclusive) * size
  {
    next := LabelNow(Seek(sc, start + Fraction(n, count, inclusive) * size), name);
    SampleFromFirst(sc, start, size, count, inclusive, name, n);
    assert next.labels == sc.labels + [SampleLabel(start, size, count, inclusive, name, n)] by {
      LabelAt(sc, start + Fraction(n, count, inclusive) * size, name);
      assert SampleLabel(start, size, count, inclusive, name, n)
        == Label(start + Fraction(n, count, inclusive) * size, Some(name), None, false);
    }
    assert next.now <= start + Fraction(n + 1, count, inclusive) * size by {
      FractionStep(n, count, inclusive);
      ScaleMonotone(Fraction(n, count, inclusive), Fraction(n + 1, count, inclusive), size);
    }
  }

  /** Labelling after seeking to `t` adds one label at `t`. */
  lemma LabelAt(sc: Scope, t: real, name: string)
    ensures LabelNow(Seek(sc, t), name).labels == sc.labels + [Label(t, Some(name), None, false)]
    ensures LabelNow(Seek(sc, t), name).now == t
  {
  }

  /** The last sample labels its offset and leaves the clock there. */
  lemma SampleLast(sc: Scope, start: real, size: real, count: nat, inclusive: bool, name: string, n: nat)
    requires count - (if inclusive then 1 else 0) > 0 && n + 1 == count
    requires sc.now <= start + Fraction(n, count, inclusive) * size
    ensures SampleFrom(sc, start, size, count, inclusive, SampleLabelBlock(name), n).Ok?
    ensures var r := SampleFrom(sc, start, size, count, inclusive, SampleLabelBlock(name), n).value;
      && r.labels == sc.labels + SampleLabels(start, size, count, inclusive, name, n)
      && r.now == start + Fraction(count - 1, count, inclusive) * size
  {
    var next := LabelNow(Seek(sc, start + Fraction(n, count, inclusive) * size), name);
    SampleFromFirst(sc, start, size, count, inclusive, name, n);
    SampleLabelsFirst(start, size, count, inclusive, name, n);
    assert SampleLabels(start, size, count, inclusive, name, n + 1) == [];
    assert SampleFrom(next, start, size, count, inclusive, SampleLabelBlock(name), n + 1) == Ok(next);
  }

  /** `repeat(a..b, samples: count, inclusive:)` over a forward range starts
      sample `i` at `now + a + Fraction(i) * (b - a)`, for every `i < count`,
      in order, and ends with the clock at `now + b`: a block that labels its
      start clock leaves exactly those labels. */
  lemma RepeatSamplesStarts(sc: Scope, a: real, b: real, count: nat, inclusive: bool, name: string)
    requires count - (if inclusive then 1 else 0) > 0 && a <= b
    ensures RepeatSamples(sc, a, b, count, inclusive, SampleLabelBlock(name)).Ok?
    ensures var r := RepeatSamples(sc, a, b, count, inclusive, SampleLabelBlock(name)).value;
      && r.labels == sc.labels + SampleLabels(sc.now + a, b - a, count, inclusive, name, 0)
      && r.now == sc.now + b
  {
    var start := sc.now + a;
    FractionsSpanRange(count, inclusive);
    SampleFromStarts(sc.(now := start), start, b - a, count, inclusive, name, 0);
  }

  /** A block that runs the clock past the next sample's offset raises
      "Overlapping time in sample-based repeat!". */
  lemma RepeatSamplesOverlap(sc: Scope, a: real, b: real, count: nat, inclusive: bool, d: real)
    requires count >= 2 && d > Fraction(1, count, inclusive) * (b - a)
    ensures RepeatSamples(sc, a, b, count, inclusive, StepBlock(d)) == Err(OverlappingRepeat)
  {
    var start := sc.now + a;
    var s0 := sc.(now := start);
    var s1 := Seek(Seek(s0, start), start + d);
    ShiftMore(start, d, Fraction(1, count, inclusive) * (b - a));
    SecondSampleOverlaps(s0, start, b - a, count, inclusive, StepBlock(d), s1);
  }

  /** A range that runs backwards raises as soon as a second sample is due:
      its offset lies before the first sample's. */
  lemma RepeatSamplesBackwards(sc: Scope, a: real, b: real, count: nat, inclusive: bool, name: string)
    requires count >= 2 && b < a
    ensures RepeatSamples(sc, a, b, count, inclusive, SampleLabelBlock(name)) == Err(OverlappingRepeat)
  {
    var start := sc.now + a;
    var s0 := sc.(now := start);
    var s1 := LabelNow(Seek(s0, start), name);
    FractionZero(count, inclusive);
    FractionStep(0, count, inclusive);
    NegativeScale(Fraction(1, count, inclusive), b - a);
    SecondSampleOverlaps(s0, start, b - a, count, inclusive, SampleLabelBlock(name), s1);
  }

  /** A first sample that leaves the clock past the second one's offset
      makes the repeat raise. */
  lemma SecondSampleOverlaps(sc: Scope, start: real, size: real, count: nat, inclusive: bool, body: SampledBlock,
    next: Scope)
    requires count >= 2 && sc.now == start
    requires body(Seek(sc, start), 0, 0.0, 0.0) == Ok(next)
    requires next.now > start + Fraction(1, count, inclusive) * size
    ensures SampleFrom(sc, start, size, count, inclusive, body, 0) == Err(OverlappingRepeat)
  {
    assert SampleFrom(next, start, size, count, inclusive, body, 1) == Err(OverlappingRepeat) by {
      OverlapAt(next, start, size, count, inclusive, body, 1);
    }
    FirstSampleAtStart(sc, start, size, count, inclusive, body, next);
  }

  /** The first sample runs the block at the start of the range. */
  lemma FirstSampleAtStart(sc: Scope, start: real, size: real, count: nat, inclusive: bool, body: SampledBlock,
    next: Scope)
    requires count >= 2 && sc.now == start
    requires body(Seek(sc, start), 0, 0.0, 0.0) == Ok(next)
    ensures SampleFrom(sc, start, size, count, inclusive, body, 0)
      == SampleFrom(next, start, size, count, inclusive, body, 1)
  {
    FractionZero(count, inclusive);
    assert 0.0 * size == 0.0;
  }

  /** A sample whose clock already lies past its offset raises. */
  lemma OverlapAt(sc: Scope, start: real, size: real, count: nat, inclusive: bool, body: SampledBlock, n: nat)
    requires count - (if inclusive then 1 else 0) > 0 && n < count
    requires sc.now > start + Fraction(n, count, inclusive) * size
    ensures SampleFrom(sc, start, size, count, inclusive, body, n) == Err(OverlappingRepeat)
  {
  }

  lemma ShiftMore(start: real, d: real, x: real)
    requires d > x
    ensures start + d > start + x
  {
  }

  lemma FractionZero(count: int, inclusive: bool)
    requires count - (if inclusive then 1 else 0) > 0
    ensures Fraction(0, count, inclusive) == 0.0
  {
  }

  lemma NegativeScale(x: real, size: real)
    requires x > 0.0 && size < 0.0
    ensures x * size < 0.0
  {
  }
}

=== FILE: tango_timeline.dfy ===
/** The timeline store: a map from an instant to the channel assignments
    recorded at it (tango/lib/tango.rb, class Samples). */
module TangoTimeline {
  import opened Results
  import opened TangoValues

  /** One sample record: the channels assigned at one instant. */
  type Record = map<ChanKey, Value>

  /** All sample records, keyed by time. */
  type Samples = map<real, Record>

  datatype RecordError = ConflictingSample(time: real, channels: set<ChanKey>)

  /** `Samples#new`: a channel written twice at the same instant is an error;
      otherwise the assignments create the record for that instant or merge
      into it, and every other instant is left alone. */
  function New(s: Samples, t: real, data: Record): (r: Result<Samples, RecordError>)
    ensures r.Err? <==> t in s && s[t].Keys * data.Keys != {}
    ensures r.Err? ==> t in s && r.error == ConflictingSample(t, s[t].Keys * data.Keys)
    ensures r.Ok? ==> r.value.Keys == s.Keys + {t}
    ensures r.Ok? ==> forall u :: u in s && u != t ==> r.value[u] == s[u]
    ensures r.Ok? ==> r.value[t].Keys == (if t in s then s[t].Keys else {}) + data.Keys
    ensures r.Ok? ==> forall c :: c in data ==> r.value[t][c] == data[c]
    ensures r.Ok? && t in s ==> forall c :: c in s[t] ==> r.value[t][c] == s[t][c]
  {
    if t in s then
      var conflicting := s[t].Keys * data.Keys;
      if conflicting != {} then Err(ConflictingSample(t, conflicting))
      else
        assert forall c :: c in s[t] && c in data ==> c in conflicting;
        Ok(s[t := s[t] + data])
    else
      Ok(s[t := data])
  }

  /** Two recordings in a row. */
  function NewTwice(s: Samples, t1: real, a: Record, t2: real, b: Record): Result<Samples, RecordError> {
    var s1 :- New(s, t1, a);
    New(s1, t2, b)
  }

  /** The order in which recordings are made does not matter: either both
      orders conflict or neither does, and then they build the same store. */
  lemma NewCommutes(s: Samples, t1: real, a: Record, t2: real, b: Record)
    ensures NewTwice(s, t1, a, t2, b).Ok? <==> NewTwice(s, t2, b, t1, a).Ok?
    ensures NewTwice(s, t1, a, t2, b).Ok? ==>
      NewTwice(s, t1, a, t2, b).value == NewTwice(s, t2, b, t1, a).value
  {
    if t1 != t2 {
      NewCommutesApart(s, t1, a, t2, b);
      NewCommutesApart(s, t2, b, t1, a);
    } else {
      NewCommutesTogether(s, t1, a, b);
      NewCommutesTogether(s, t1, b, a);
    }
  }

  /** The record at `t` after merging `d` into it. */
  function Merged(s: Samples, t: real, d: Record): Record {
    if t in s then s[t] + d else d
  }

  lemma NewCommutesApart(s: Samples, t1: real, a: Record, t2: real, b: Record)
    requires t1 != t2
    ensures NewTwice(s, t1, a, t2, b).Ok? ==> (NewTwice(s, t2, b, t1, a).Ok?
      && NewTwice(s, t1, a, t2, b).value == NewTwice(s, t2, b, t1, a).value)
  {
    NewTwiceApart(s, t1, a, t2, b);
    NewTwiceApart(s, t2, b, t1, a);
    UpdatesCommute(s, t1, Merged(s, t1, a), t2, Merged(s, t2, b));
  }

  lemma UpdatesCommute(s: Samples, t1: real, x: Record, t2: real, y: Record)
    requires t1 != t2
    ensures s[t1 := x][t2 := y] == s[t2 := y][t1 := x]
  {}

  /** Recordings at two different instants do not see each other. */
  lemma NewTwiceApart(s: Samples, t1: real, a: Record, t2: real, b: Record)
    requires t1 != t2
    ensures NewTwice(s, t1, a, t2, b).Ok? <==> Fits(s, t1, a) && Fits(s, t2, b)
    ensures NewTwice(s, t1, a, t2, b).Ok? ==>
      NewTwice(s, t1, a, t2, b).value == s[t1 := Merged(s, t1, a)][t2 := Merged(s, t2, b)]
  {
    NewIsMerge(s, t1, a);
    if Fits(s, t1, a) {
      var s1 := s[t1 := Merged(s, t1, a)];
      NewIsMerge(s1, t2, b);
      assert Fits(s1, t2, b) <==> Fits(s, t2, b);
      assert Merged(s1, t2, b) == Merged(s, t2, b);
    }
  }

  lemma NewCommutesTogether(s: Samples, t: real, a: Record, b: Record)
    ensures NewTwice(s, t, a, t, b).Ok? ==> (NewTwice(s, t, b, t, a).Ok?
      && NewTwice(s, t, a, t, b).value == NewTwice(s, t, b, t, a).value)
  {
    NewTwiceTogether(s, t, a, b);
    NewTwiceTogether(s, t, b, a);
    if NewTwice(s, t, a, t, b).Ok? {
      FitsSwap(s, t, a, b);
      MergeSwap(s, t, a, b);
    }
  }

  /** Two recordings at one instant merge both into its record. */
  lemma NewTwiceTogether(s: Samples, t: real, a: Record, b: Record)
    ensures NewTwice(s, t, a, t, b).Ok? <==> Fits(s, t, a) && Fits(s[t := Merged(s, t, a)], t, b)
    ensures NewTwice(s, t, a, t, b).Ok? ==> NewTwice(s, t, a, t, b).value == s[t := Merged(s, t, a) + b]
  {
    NewIsMerge(s, t, a);
    if Fits(s, t, a) {
      var s1 := s[t := Merged(s, t, a)];
      NewIsMerge(s1, t, b);
      assert Merged(s1, t, b) == Merged(s, t, a) + b;
      assert s1[t := Merged(s, t, a) + b] == s[t := Merged(s, t, a) + b];
    }
  }

  /** Recording `d` at `t` does not conflict with what `s` holds there. */
  predicate Fits(s: Samples, t: real, d: Record) {
    t !in s || s[t].Keys !! d.Keys
  }

  lemma NewIsMerge(s: Samples, t: real, d: Record)
    ensures New(s, t, d).Ok? <==> Fits(s, t, d)
    ensures Fits(s, t, d) ==> New(s, t, d).value == s[t := Merged(s, t, d)]
  {
    if t in s {
      assert s[t].Keys !! d.Keys <==> s[t].Keys * d.Keys == {} by {
        if s[t].Keys * d.Keys != {} {
          var c :| c in s[t].Keys * d.Keys;
          assert c in s[t].Keys && c in d.Keys;
        }
        assert forall c :: c in s[t].Keys && c in d.Keys ==> c in s[t].Keys * d.Keys;
      }
    }
  }

  lemma FitsSwap(s: Samples, t: real, a: Record, b: Record)
    requires Fits(s, t, a)
    requires Fits(s[t := Merged(s, t, a)], t, b)
    ensures a.Keys !! b.Keys
    ensures Fits(s, t, b)
    ensures Fits(s[t := Merged(s, t, b)], t, a)
  {
    assert Merged(s, t, a).Keys !! b.Keys;
  }

  lemma MergeSwap(s: Samples, t: real, a: Record, b: Record)
    requires a.Keys !! b.Keys
    ensures Merged(s, t, a) + b == Merged(s, t, b) + a
  {
    var x := Merged(s, t, a) + b;
    var y := Merged(s, t, b) + a;
    assert x.Keys == y.Keys;
    forall c | c in x ensures x[c] == y[c] {
      if c in a {
        assert c !in b;
      } else if c in b {
        assert c !in a;
      }
    }
  }

  /** A non-empty set has an element. */
  lemma NonEmpty(ts: set<real>)
    requires ts != {}
    ensures exists x :: x in ts
  {
    if forall y :: y !in ts { assert false; }
  }

  /** `m` is the earliest instant of `ts`. */
  predicate IsMin(m: real, ts: set<real>) {
    m in ts && forall x :: x in ts ==> m <= x
  }

  /** Every finite non-empty set of instants has an earliest one. */
  lemma MinExists(ts: set<real>)
    requires ts != {}
    ensures exists m :: IsMin(m, ts)
    decreases |ts|
  {
    NonEmpty(ts);
    var x :| x in ts;
    var rest := ts - {x};
    if rest == {} {
      assert ts == {x};
      assert IsMin(x, ts);
    } else {
      MinExists(rest);
      var m :| IsMin(m, rest);
      if x < m {
        assert IsMin(x, ts) by {
          forall y | y in ts ensures x <= y { if y != x { assert y in rest; } }
        }
      } else {
        assert IsMin(m, ts) by {
          forall y | y in ts ensures m <= y { if y != x { assert y in rest; } }
        }
      }
    }
  }

  /** Strictly ascending. */
  predicate Increasing(r: seq<real>) {
    forall i, j :: 0 <= i < j < |r| ==> r[i] < r[j]
  }

  lemma ConsIncreasing(m: real, rest: seq<real>)
    requires Increasing(rest)
    requires forall i :: 0 <= i < |rest| ==> m < rest[i]
    ensures Increasing([m] + rest)
  {
    var r := [m] + rest;
    forall i, j | 0 <= i < j < |r| ensures r[i] < r[j] {
      assert r[j] == rest[j - 1];
      if i > 0 { assert r[i] == rest[i - 1]; }
    }
  }

  /** The instants of a set in ascending order (`keys.sort`). */
  function Sorted(ts: set<real>): (r: seq<real>)
    ensures |r| == |ts|
    ensures forall i :: 0 <= i < |r| ==> r[i] in ts
    ensures forall t :: t in ts ==> t in r
    ensures Increasing(r)
    decreases |ts|
  {
    if ts == {} then []
    else
      MinExists(ts);
      var m :| IsMin(m, ts);
      var rest := Sorted(ts - {m});
      SortedCons(ts, m, rest);
      [m] + rest
  }

  /** The earliest instant followed by the others in ascending order lists
      the whole set in ascending order. */
  lemma SortedCons(ts: set<real>, m: real, rest: seq<real>)
    requires IsMin(m, ts)
    requires |rest| == |ts - {m}| && Increasing(rest)
    requires forall i :: 0 <= i < |rest| ==> rest[i] in ts - {m}
    requires forall t :: t in ts - {m} ==> t in rest
    ensures var r := [m] + rest;
      && |r| == |ts| && (forall i :: 0 <= i < |r| ==> r[i] in ts)
      && (forall t :: t in ts ==> t in r) && Increasing(r)
  {
    assert forall i :: 0 <= i < |rest| ==> m < rest[i] by {
      forall i | 0 <= i < |rest| ensures m < rest[i] {
        assert rest[i] in ts - {m};
      }
    }
    ConsIncreasing(m, rest);
    var r := [m] + rest;
    assert forall t :: t in ts ==> t in r by {
      forall t | t in ts ensures t in r {
        if t != m { assert t in ts - {m}; assert t in rest; }
      }
    }
  }

  /** `Samples#time_range`: the earliest and the latest recorded instant,
      or nothing for an empty timeline. */
  function TimeRange(s: Samples): (r: Option<(real, real)>)
    ensures r.Some? <==> |s| > 0
    ensures r.Some? ==> r.value.0 in s && r.value.1 in s && r.value.0 <= r.value.1
    ensures r.Some? ==> forall t :: t in s ==> r.value.0 <= t <= r.value.1
  {
    var kk := Sorted(s.Keys);
    if |kk| == 0 then None
    else
      assert forall t :: t in s ==> kk[0] <= t <= kk[|kk| - 1] by {
        forall t | t in s
          ensures kk[0] <= t <= kk[|kk| - 1]
        {
          var i :| 0 <= i < |kk| && kk[i] == t;
        }
      }
      Some((kk[0], kk[|kk| - 1]))
  }
}

=== FILE: tango_units.dfy ===
/** Time-unit conversion (tango/lib/tango.rb, `UNIT_MAP` and
    `Scope#scale_units`). */
module TangoUnits {
  import opened Results

  /** The ordered unit table: each unit with how many of the previous unit
      make one of it. */
  const UnitMap: seq<(string, real)> := [
    ("fs", 1000.0), ("ps", 1000.0), ("ns", 1000.0), ("us", 1000.0), ("ms", 1000.0),
    ("s", 1000.0), ("m", 60.0), ("h", 60.0), ("d", 24.0)]

  datatype UnitError = UnknownUnit(name: string)

  /** The position of a unit in the table (`find_index`). */
  function UnitIndex(u: string): (r: Option<nat>)
    ensures r.Some? ==> r.value < |UnitMap| && UnitMap[r.value].0 == u
    ensures r.Some? ==> forall i :: 0 <= i < r.value ==> UnitMap[i].0 != u
    ensures r.None? <==> forall i :: 0 <= i < |UnitMap| ==> UnitMap[i].0 != u
  {
    IndexFrom(u, 0)
  }

  function IndexFrom(u: string, k: nat): (r: Option<nat>)
    requires k <= |UnitMap|
    ensures r.Some? ==> k <= r.value < |UnitMap| && UnitMap[r.value].0 == u
    ensures r.Some? ==> forall i :: k <= i < r.value ==> UnitMap[i].0 != u
    ensures r.None? <==> forall i :: k <= i < |UnitMap| ==> UnitMap[i].0 != u
    decreases |UnitMap| - k
  {
    if k == |UnitMap| then None
    else if UnitMap[k].0 == u then Some(k)
    else IndexFrom(u, k + 1)
  }

  /** The multipliers of the table, in table order. */
  const Multipliers: seq<real> := [1000.0, 1000.0, 1000.0, 1000.0, 1000.0, 1000.0, 60.0, 60.0, 24.0]

  lemma MultipliersAreTable()
    ensures |Multipliers| == |UnitMap| && Positive(Multipliers)
    ensures forall k :: 0 <= k < |UnitMap| ==> Multipliers[k] == UnitMap[k].1
  {}

  /** Every multiplier is positive. */
  predicate Positive(ms: seq<real>) {
    forall k :: 0 <= k < |ms| ==> ms[k] > 0.0
  }

  /** The product of `ms[lo+1 .. hi]`. */
  function Prod(ms: seq<real>, lo: nat, hi: nat): real
    requires lo <= hi < |ms|
    decreases hi - lo
  {
    if lo == hi then 1.0 else ms[lo + 1] * Prod(ms, lo + 1, hi)
  }

  lemma {:induction false} ProdPositive(ms: seq<real>, lo: nat, hi: nat)
    requires lo <= hi < |ms|
    requires Positive(ms)
    ensures Prod(ms, lo, hi) > 0.0
    decreases hi - lo
  {
    if lo < hi {
      ProdPositive(ms, lo + 1, hi);
    }
  }

  /** Products compose: `lo..mid` then `mid..hi` is `lo..hi`. */
  lemma {:induction false} ProdSplit(ms: seq<real>, a: nat, b: nat, c: nat)
    requires a <= b <= c < |ms|
    ensures Prod(ms, a, c) == Prod(ms, a, b) * Prod(ms, b, c)
    decreases b - a
  {
    if a < b {
      ProdSplit(ms, a + 1, b, c);
      var m := ms[a + 1];
      var x, y := Prod(ms, a + 1, b), Prod(ms, b, c);
      assert m * (x * y) == (m * x) * y;
    }
  }

  /** The product of one step is that step's multiplier. */
  lemma ProdStep(ms: seq<real>, k: nat)
    requires 0 < k < |ms|
    ensures Prod(ms, k - 1, k) == ms[k]
  {
    assert Prod(ms, k, k) == 1.0;
  }

  /** The value of `v` units `from`, expressed in units `to`: divided by the
      span when going to a larger unit, multiplied by it when going to a
      smaller one. */
  function Convert(v: real, from: string, to: string): (r: Result<real, UnitError>)
    ensures r.Err? <==> UnitIndex(from).None? || UnitIndex(to).None?
  {
    match (UnitIndex(from), UnitIndex(to))
    case (None, _) => Err(UnknownUnit(from))
    case (_, None) => Err(UnknownUnit(to))
    case (Some(i), Some(j)) =>
      MultipliersAreTable();
      Ok(Scale(Multipliers, v, i, j))
  }

  /** Conversion between positions of a multiplier table. */
  function Scale(ms: seq<real>, v: real, i: nat, j: nat): real
    requires i < |ms| && j < |ms| && Positive(ms)
  {
    if i < j then
      ProdPositive(ms, i, j);
      v / Prod(ms, i, j)
    else
      v * Prod(ms, j, i)
  }

  lemma DivDiv(v: real, p: real, q: real)
    requires p > 0.0 && q > 0.0
    ensures v / p / q == v / (p * q)
  {}

  lemma DivCancel(v: real, p: real, m: real)
    requires m > 0.0
    ensures (v / m) * (p * m) == v * p
  {}

  lemma MulDiv(v: real, p: real, w: real)
    requires p > 0.0 && v * p == w
    ensures v == w / p
  {}

  lemma MulMul(v: real, p: real, q: real)
    ensures v * p * q == v * (q * p)
  {}

  /** The upward walk of `scale_units`: from position `i` up to `j`,
      dividing by each multiplier met. */
  method WalkUp(ms: seq<real>, value: real, i: nat, j: nat) returns (v: real)
    requires i < j < |ms| && Positive(ms)
    ensures v * Prod(ms, i, j) == value
  {
    v := value;
    var k := i + 1;
    while k <= j
      invariant i + 1 <= k <= j + 1
      invariant v * Prod(ms, i, k - 1) == value
    {
      ProdSplit(ms, i, k - 1, k);
      ProdStep(ms, k);
      DivCancel(v, Prod(ms, i, k - 1), ms[k]);
      v := v / ms[k];
      k := k + 1;
    }
  }

  /** The downward walk of `scale_units`: from position `i` down to `j`,
      multiplying by each multiplier met. */
  method WalkDown(ms: seq<real>, value: real, i: nat, j: nat) returns (v: real)
    requires j <= i < |ms|
    ensures v == value * Prod(ms, j, i)
  {
    v := value;
    var k := i;
    while k > j
      invariant j <= k <= i
      invariant v == value * Prod(ms, k, i)
    {
      ProdSplit(ms, k - 1, k, i);
      ProdStep(ms, k);
      MulMul(value, Prod(ms, k, i), ms[k]);
      v := v * ms[k];
      k := k - 1;
    }
  }

  /** The walk of `scale_units` between two positions of a table. */
  method Walk(ms: seq<real>, value: real, i: nat, j: nat) returns (v: real)
    requires i < |ms| && j < |ms| && Positive(ms)
    ensures v == Scale(ms, value, i, j)
  {
    if i < j {
      v := WalkUp(ms, value, i, j);
      ProdPositive(ms, i, j);
      MulDiv(v, Prod(ms, i, j), value);
    } else {
      v := WalkDown(ms, value, i, j);
    }
  }

  /** `scale_units(value, from_units, to_units)`: the walk over `UNIT_MAP`
      between the two units' positions; an unknown unit is an error. */
  method ScaleUnits(value: real, from: string, to: string) returns (r: Result<real, UnitError>)
    ensures r == Convert(value, from, to)
  {
    var fi := UnitIndex(from);
    var ti := UnitIndex(to);
    if fi.None? {
      return Err(UnknownUnit(from));
    }
    if ti.None? {
      return Err(UnknownUnit(to));
    }
    MultipliersAreTable();
    var v := Walk(Multipliers, value, fi.value, ti.value);
    return Ok(v);
  }

  /** Converting a value to its own unit leaves it alone. */
  lemma ConvertSame(v: real, u: string)
    requires UnitIndex(u).Some?
    ensures Convert(v, u, u) == Ok(v)
  {
    var i := UnitIndex(u).value;
    assert Prod(Multipliers, i, i) == 1.0;
  }

  lemma ScaleRoundTrip(ms: seq<real>, v: real, i: nat, j: nat)
    requires i < |ms| && j < |ms| && Positive(ms)
    ensures Scale(ms, Scale(ms, v, i, j), j, i) == v
  {
    if i < j {
      var p := Prod(ms, i, j);
      ProdPositive(ms, i, j);
      assert v / p * p == v;
    } else if j < i {
      var p := Prod(ms, j, i);
      ProdPositive(ms, j, i);
      assert v * p / p == v;
    } else {
      assert Prod(ms, i, i) == 1.0;
    }
  }

  /** Converting there and back returns the value. */
  lemma ConvertRoundTrip(v: real, a: string, b: string)
    requires Convert(v, a, b).Ok?
    ensures Convert(Convert(v, a, b).value, b, a) == Ok(v)
  {
    MultipliersAreTable();
    ScaleRoundTrip(Multipliers, v, UnitIndex(a).value, UnitIndex(b).value);
  }

  /** Hours to seconds multiplies by 3600. */
  lemma ConvertHoursToSeconds()
    ensures Convert(1.0, "h", "s") == Ok(3600.0)
  {
    MultipliersAreTable();
    assert UnitIndex("h") == Some(7) by {
      assert UnitMap[7].0 == "h";
      assert forall i :: 0 <= i < 7 ==> UnitMap[i].0 != "h";
    }
    assert UnitIndex("s") == Some(5) by {
      assert UnitMap[5].0 == "s";
      assert forall i :: 0 <= i < 5 ==> UnitMap[i].0 != "s";
    }
    assert Prod(Multipliers, 7, 7) == 1.0;
    assert Prod(Multipliers, 6, 7) == 60.0;
    assert Prod(Multipliers, 5, 7) == 3600.0;
  }

  /** Microseconds to milliseconds divides by 1000. */
  lemma ConvertMicrosToMillis()
    ensures Convert(2500.0, "us", "ms") == Ok(2.5)
  {
    MultipliersAreTable();
    assert UnitIndex("us") == Some(3) by {
      assert UnitMap[3].0 == "us";
      assert forall i :: 0 <= i < 3 ==> UnitMap[i].0 != "us";
    }
    assert UnitIndex("ms") == Some(4) by {
      assert UnitMap[4].0 == "ms";
      assert forall i :: 0 <= i < 4 ==> UnitMap[i].0 != "ms";
    }
    assert Prod(Multipliers, 4, 4) == 1.0;
    assert Prod(Multipliers, 3, 4) == 1000.0;
  }
}

=== FILE: tango_values.dfy ===
/** Values carried by timing-diagram channels, channel keys and channel
    descriptions (tango/lib/tango.rb, classes Fold, ControlChannel, Channel). */
module TangoValues {
  import opened Results

  /** A sample value: a logic level, an analog level, an arbitrary ("bus")
      value shown as an envelope, a fold marker, the level markers Peak,
      Trough and Tristate, or Ruby's nil. */
  datatype Value =
    | Bool(b: bool)
    | Num(n: real)
    | Arb(text: string)
    | FoldMark(tag: string)
    | Peak
    | Trough
    | Tristate
    | Nil

  /** Arbitrary values are Ruby Strings and Symbols. */
  predicate IsArb(v: Value) {
    v.Arb?
  }

  /** The key of a channel: the reserved control channel, or a named one. */
  datatype ChanKey = Control | Named(name: string)

  /** `to_s` of a channel key; the control channel prints as a fixed text. */
  function KeyText(k: ChanKey): string {
    match k
    case Control => "(Internal ControlChannel)"
    case Named(n) => n
  }

  datatype Channel = Channel(
    key: ChanKey,
    initial: Value,
    negative: bool,
    risefall: Option<real>,
    subtext: Option<string>,
    nudge: Option<(real, real)>)

  /** The rise/fall time a channel is drawn with: its own, else 0.25. */
  function RiseFall(c: Channel): real {
    c.risefall.GetOr(0.25)
  }

  /** The text offset for arbitrary-value labels: its own, else [1, 0]. */
  function Nudge(c: Channel): (real, real) {
    c.nudge.GetOr((1.0, 0.0))
  }

  /** Negative logic: a boolean read from a negative channel is shown
      inverted; every other value is shown as stored. */
  function Shown(negative: bool, v: Value): (r: Value)
    ensures r.Bool? <==> v.Bool?
    ensures v.Bool? ==> (r.b <==> (v.b != negative))
    ensures !v.Bool? ==> r == v
  {
    if negative && v.Bool? then Bool(!v.b) else v
  }

  /** Inverting twice shows the stored value again. */
  lemma ShownInvolution(negative: bool, v: Value)
    ensures Shown(negative, Shown(negative, v)) == v
  {}

  predicate IsSpace(c: char) {
    c == ' ' || c == '\t' || c == '\n' || c == '\r' || c == 11 as char || c == 12 as char || c == '\0'
  }

  /** Ruby's `String#strip`: leading and trailing whitespace removed. */
  function Strip(s: string): (r: string)
    ensures |r| <= |s|
    ensures |r| > 0 ==> !IsSpace(r[0]) && !IsSpace(r[|r| - 1])
    ensures forall i :: 0 <= i < |s| && !IsSpace(s[i]) ==> |r| > 0
    ensures IsStripOf(s, r)
    decreases |s|
  {
    if |s| == 0 then
      StripWhole(s);
      s
    else if IsSpace(s[0]) then
      var r := Strip(s[1..]);
      StripFront(s, r);
      r
    else if IsSpace(s[|s| - 1]) then
      var r := Strip(s[..|s| - 1]);
      StripBack(s, r);
      r
    else
      StripWhole(s);
      s
  }

  /** `r` is `s` with some whitespace removed from each end. */
  predicate IsStripOf(s: string, r: string) {
    exists i, j :: 0 <= i <= j <= |s| && r == s[i..j] && SpacesIn(s, 0, i) && SpacesIn(s, j, |s|)
  }

  /** Every character of `s` from `lo` up to `hi` is whitespace. */
  predicate SpacesIn(s: string, lo: nat, hi: nat)
    requires lo <= hi <= |s|
  {
    forall k :: lo <= k < hi ==> IsSpace(s[k])
  }

  lemma StripWhole(s: string)
    ensures IsStripOf(s, s)
  {
    StripAt(s, s, 0, |s|);
  }

  lemma StripFront(s: string, r: string)
    requires |s| > 0 && IsSpace(s[0]) && IsStripOf(s[1..], r)
    ensures IsStripOf(s, r)
  {
    var t := s[1..];
    var i, j :| 0 <= i <= j <= |t| && r == t[i..j] && SpacesIn(t, 0, i) && SpacesIn(t, j, |t|);
    assert t[i..j] == s[i + 1..j + 1];
    assert forall k :: 1 <= k < |s| ==> s[k] == t[k - 1];
    StripAt(s, r, i + 1, j + 1);
  }

  lemma StripBack(s: string, r: string)
    requires |s| > 0 && IsSpace(s[|s| - 1]) && IsStripOf(s[..|s| - 1], r)
    ensures IsStripOf(s, r)
  {
    var n := |s| - 1;
    var t := s[..n];
    var i, j :| 0 <= i <= j <= |t| && r == t[i..j] && SpacesIn(t, 0, i) && SpacesIn(t, j, |t|);
    assert t[i..j] == s[i..j];
    assert forall k :: 0 <= k < n ==> s[k] == t[k];
    StripAt(s, r, i, j);
  }

  lemma StripAt(s: string, r: string, i: nat, j: nat)
    requires i <= j <= |s| && r == s[i..j] && SpacesIn(s, 0, i) && SpacesIn(s, j, |s|)
    ensures IsStripOf(s, r)
  {}
}

=== FILE: tango_waveform.dfy ===
/** The per-channel waveform compiler: how `render_to_points` turns the
    values one channel takes over the replay into point streams
    (tango/lib/tango.rb, `render_to_points`). Each channel owns a `main`
    rail, a `sub` rail (the lower edge of arbitrary-value envelopes) and
    text items. */
module TangoWaveform {
  import opened Results
  import opened TangoValues
  import opened TangoCoords
  import opened TangoReplay
  import opened TangoChannels
  import opened TangoTimeline

  /** A text item; its styling is left out. */
  datatype TextItem = TextItem(at: Point, text: string)

  datatype Stream = Stream(main: seq<Vertex>, sub: seq<Vertex>, text: seq<TextItem>)

  /** `to_s` of an arbitrary value. */
  function ArbText(v: Value): string {
    if v.Arb? then v.text else ""
  }

  /** The last vertex of a rail, nil (a break) when the rail is empty. */
  function LastOr(vs: seq<Vertex>): (r: Vertex)
    ensures |vs| > 0 ==> r == vs[|vs| - 1]
    ensures |vs| == 0 ==> r == Break
  {
    if |vs| == 0 then Break else vs[|vs| - 1]
  }

  /** The main rail always ends at a point, so a step can read its y. */
  predicate Ready(st: Stream) {
    |st.main| > 0 && st.main[|st.main| - 1].At?
  }

  /** The y of the point the main rail ends at. */
  function LastY(st: Stream): real
    requires Ready(st)
  {
    st.main[|st.main| - 1].p.y
  }

  /** The initial state of a channel: its name (and subtext) at the left
      margin a quarter height above the baseline, and the main rail started
      at the initial value at time 0. */
  function Seed(g: Geometry, ch: Channel, ci: nat, v: Value): (st: Stream)
    ensures Ready(st) && st.sub == [] && st.main == [At(XY(g, 0.0, v, ci as real))]
    ensures |st.text| == (if ch.subtext.Some? then 2 else 1)
    ensures st.text[0].text == KeyText(ch.key) && st.text[0].at.x == 0.0
    ensures ch.subtext.Some? ==> st.text[1].text == "\n" + ch.subtext.value
  {
    var q := XY(g, 0.0, Num(0.25), ci as real);
    var tp := Point(q.x - g.timeOffset, q.y);
    var names := [TextItem(tp, KeyText(ch.key))]
      + (if ch.subtext.Some? then [TextItem(tp, "\n" + ch.subtext.value)] else []);
    Stream([At(XY(g, 0.0, v, ci as real))], [], names)
  }

  /** Half the channel's rise/fall time, in x units. */
  function HalfRise(g: Geometry, ch: Channel): real {
    RiseFall(ch) * g.timeScale / 2.0
  }

  /** `p` moved right by `dx`. */
  function Shift(p: Point, dx: real): Point {
    Point(p.x + dx, p.y)
  }

  /** The text item of a new arbitrary value, placed by the channel's nudge. */
  function ValueLabel(g: Geometry, ch: Channel, ci: nat, t: real, v: Value): TextItem {
    var n := Nudge(ch);
    TextItem(Shift(XY(g, t, Num(n.1), ci as real), n.0), ArbText(v))
  }

  /** One sample of one channel: value `v` at time `t`, after value `last`. */
  function Advance(g: Geometry, ch: Channel, ci: nat, st: Stream, t: real, v: Value, last: Value): (r: Stream)
    requires Ready(st)
    ensures Ready(r)
    ensures |r.text| == |st.text| + (if IsArb(v) && v != last then 1 else 0)
    ensures |r.main| > |st.main| && |r.sub| >= |st.sub|
    ensures r.main[..|st.main|] == st.main && r.sub[..|st.sub|] == st.sub
    ensures r.text[..|st.text|] == st.text
    ensures !IsArb(v) ==> r.main == st.main + [
      At(Point(ScaledTime(g, t) - HalfRise(g, ch), LastY(st))),
      At(Shift(XY(g, t, v, ci as real), HalfRise(g, ch)))]
    ensures IsArb(v) && v == last ==>
      && r.main == st.main + [At(Shift(XY(g, t, Peak, ci as real), HalfRise(g, ch)))]
      && r.sub == st.sub + [At(Shift(XY(g, t, Trough, ci as real), HalfRise(g, ch)))]
      && r.text == st.text
    ensures IsArb(v) ==> |r.sub| > |st.sub|
    ensures IsArb(v) && IsArb(last) && v != last ==> r.main[|st.main|] == Break && r.sub[|st.sub|] == Break
    ensures IsArb(v) && !IsArb(last) ==> r.main[|st.main|] == r.sub[|st.sub|] == At(Point(ScaledTime(g, t) - HalfRise(g, ch), LastY(st)))
    ensures IsArb(v) && v != last ==> r.text == st.text + [ValueLabel(g, ch, ci, t, v)]
    ensures IsArb(v) && IsArb(last) && v != last ==>
      && r.main == st.main + [Break, LastOr(st.sub),
           At(Shift(XY(g, t, Trough, ci as real), -HalfRise(g, ch))), At(Shift(XY(g, t, Peak, ci as real), HalfRise(g, ch)))]
      && r.sub == st.sub + [Break, st.main[|st.main| - 1],
           At(Shift(XY(g, t, Peak, ci as real), -HalfRise(g, ch))), At(Shift(XY(g, t, Trough, ci as real), HalfRise(g, ch)))]
    ensures IsArb(v) && !IsArb(last) ==>
      && r.main == st.main + [At(Point(ScaledTime(g, t) - HalfRise(g, ch), LastY(st))),
           At(Shift(XY(g, t, Peak, ci as real), HalfRise(g, ch)))]
      && r.sub == st.sub + [At(Point(ScaledTime(g, t) - HalfRise(g, ch), LastY(st))),
           At(Shift(XY(g, t, Trough, ci as real), HalfRise(g, ch)))]
    ensures !IsArb(v) && !IsArb(last) ==> r.sub == st.sub
    ensures !IsArb(v) && IsArb(last) ==> r.sub == st.sub + [
      At(Shift(XY(g, t, Trough, ci as real), -HalfRise(g, ch))),
      At(Shift(XY(g, t, v, ci as real), HalfRise(g, ch))),
      Break]
  {
    var rf := HalfRise(g, ch);
    var c := ci as real;
    if IsArb(v) then
      var bot := XY(g, t, Trough, c);
      var top := XY(g, t, Peak, c);
      var rails :=
        if IsArb(last) then
          if v != last then
            (st.main + [Break, LastOr(st.sub), At(Shift(bot, -rf)), At(Shift(top, rf))],
             st.sub + [Break, st.main[|st.main| - 1], At(Shift(top, -rf)), At(Shift(bot, rf))])
          else
            (st.main + [At(Shift(top, rf))], st.sub + [At(Shift(bot, rf))])
        else
          var gap := At(Point(bot.x - rf, LastY(st)));
          (st.main + [gap, At(Shift(top, rf))], st.sub + [gap, At(Shift(bot, rf))]);
      var text := if v != last then st.text + [ValueLabel(g, ch, ci, t, v)] else st.text;
      Stream(rails.0, rails.1, text)
    else
      var sp := XY(g, t, v, c);
      var main := st.main + [At(Point(sp.x - rf, LastY(st))), At(Shift(sp, rf))];
      var sub :=
        if IsArb(last) then st.sub + [At(Shift(XY(g, t, Trough, c), -rf)), At(Shift(sp, rf)), Break]
        else st.sub;
      Stream(main, sub, st.text)
  }

  /** A channel's samples after the initial state: (time, value) pairs. */
  type Track = seq<(real, Value)>

  /** The value before sample `i`: the initial value, then the previous sample's. */
  function Prev(init: Value, tr: Track, i: nat): Value
    requires i < |tr|
  {
    if i == 0 then init else tr[i - 1].1
  }

  /** The streams after the whole track. */
  function Compile(g: Geometry, ch: Channel, ci: nat, init: Value, tr: Track): (st: Stream)
    ensures Ready(st)
    ensures |st.main| > |tr| && st.main[0] == At(XY(g, 0.0, init, ci as real))
    ensures |st.text| >= |Seed(g, ch, ci, init).text|
    ensures st.text[..|Seed(g, ch, ci, init).text|] == Seed(g, ch, ci, init).text
    decreases |tr|
  {
    if |tr| == 0 then Seed(g, ch, ci, init)
    else
      var n := |tr| - 1;
      var before := Compile(g, ch, ci, init, tr[..n]);
      var r := Advance(g, ch, ci, before, tr[n].0, tr[n].1, Prev(init, tr, n));
      PrefixOfPrefix(r.main, before.main, 1);
      PrefixOfPrefix(r.text, before.text, |Seed(g, ch, ci, init).text|);
      r
  }

  /** A prefix of a prefix is a prefix. */
  lemma PrefixOfPrefix<T>(a: seq<T>, b: seq<T>, k: nat)
    requires |b| <= |a| && a[..|b|] == b && k <= |b|
    ensures a[..k] == b[..k]
  {}

  /** Whether sample `i` changes the channel to a (new) arbitrary value. */
  predicate NewArb(init: Value, tr: Track, i: nat)
    requires i < |tr|
  {
    IsArb(tr[i].1) && tr[i].1 != Prev(init, tr, i)
  }

  /** How many samples of the track change the channel to a new arbitrary value. */
  function ArbChanges(init: Value, tr: Track): (n: nat)
    ensures n <= |tr|
    decreases |tr|
  {
    if |tr| == 0 then 0
    else ArbChanges(init, tr[..|tr| - 1]) + (if NewArb(init, tr, |tr| - 1) then 1 else 0)
  }

  /** Each change into an arbitrary value adds exactly one text label, and
      nothing else does. */
  lemma {:induction false} TextPerArbChange(g: Geometry, ch: Channel, ci: nat, init: Value, tr: Track)
    ensures |Compile(g, ch, ci, init, tr).text| == |Seed(g, ch, ci, init).text| + ArbChanges(init, tr)
    decreases |tr|
  {
    if |tr| > 0 {
      var n := |tr| - 1;
      TextPerArbChange(g, ch, ci, init, tr[..n]);
      TextStep(g, ch, ci, init, tr);
      ArbChangesFront(init, tr, n);
    }
  }

  /** The last sample adds a text label exactly when it changes the channel
      to a new arbitrary value. */
  lemma TextStep(g: Geometry, ch: Channel, ci: nat, init: Value, tr: Track)
    requires |tr| > 0
    ensures |Compile(g, ch, ci, init, tr).text|
      == |Compile(g, ch, ci, init, tr[..|tr| - 1]).text| + (if NewArb(init, tr, |tr| - 1) then 1 else 0)
  {
    CompileSnoc(g, ch, ci, init, tr);
  }

  /** The streams after a track are the last sample's step from the
      streams after the samples before it. */
  lemma CompileSnoc(g: Geometry, ch: Channel, ci: nat, init: Value, tr: Track)
    requires |tr| > 0
    ensures Compile(g, ch, ci, init, tr) == Advance(g, ch, ci, Compile(g, ch, ci, init, tr[..|tr| - 1]),
      tr[|tr| - 1].0, tr[|tr| - 1].1, Prev(init, tr, |tr| - 1))
  {
  }

  /** Counting over a prefix only looks at the prefix. */
  lemma {:induction false} ArbChangesFront(init: Value, tr: Track, n: nat)
    requires n == |tr| - 1
    ensures ArbChanges(init, tr) == ArbChanges(init, tr[..n]) + (if NewArb(init, tr, n) then 1 else 0)
  {}

  /** The number of breaks on a rail. */
  function Breaks(vs: seq<Vertex>): (n: nat)
    ensures n <= |vs|
  {
    if |vs| == 0 then 0 else Breaks(vs[..|vs| - 1]) + (if vs[|vs| - 1] == Break then 1 else 0)
  }

  lemma {:induction false} BreaksAppend(a: seq<Vertex>, b: seq<Vertex>)
    ensures Breaks(a + b) == Breaks(a) + Breaks(b)
    decreases |b|
  {
    if |b| == 0 {
      assert a + b == a;
    } else {
      var n := |b| - 1;
      BreaksAppend(a, b[..n]);
      assert (a + b)[..|a + b| - 1] == a + b[..n];
    }
  }

  /** The main rail only breaks where one arbitrary value changes into
      another; unchanged arbitrary values, and every logic or analog
      value, extend it without a break. */
  lemma MainBreaksOnlyOnArbChange(g: Geometry, ch: Channel, ci: nat, st: Stream, t: real, v: Value, last: Value)
    requires Ready(st)
    ensures var r := Advance(g, ch, ci, st, t, v, last);
      Breaks(r.main) >= Breaks(st.main) + (if IsArb(v) && IsArb(last) && v != last then 1 else 0)
      && (!(IsArb(v) && IsArb(last) && v != last) ==> Breaks(r.main) == Breaks(st.main))
  {
    var r := Advance(g, ch, ci, st, t, v, last);
    var tail := r.main[|st.main|..];
    assert r.main == st.main + tail;
    BreaksAppend(st.main, tail);
    if IsArb(v) && IsArb(last) && v != last {
      assert tail == [Break, LastOr(st.sub)] + tail[2..];
      BreaksAppend([Break, LastOr(st.sub)], tail[2..]);
      BreaksAppend([Break], [LastOr(st.sub)]);
      assert Breaks([Break]) == 1 by { assert [Break][..0] == []; }
    } else {
      forall i | 0 <= i < |tail| ensures tail[i].At? {}
      AllAtNoBreaks(tail);
    }
  }

  lemma {:induction false} AllAtNoBreaks(vs: seq<Vertex>)
    requires forall i :: 0 <= i < |vs| ==> vs[i].At?
    ensures Breaks(vs) == 0
  {
    if |vs| > 0 {
      AllAtNoBreaks(vs[..|vs| - 1]);
    }
  }

  /** The two levels a logic channel is drawn at. */
  predicate OnLevels(g: Geometry, ci: nat, vx: Vertex) {
    vx.At? ==> vx.p.y == Baseline(g, ci as real) || vx.p.y == Baseline(g, ci as real) - g.channelHeight
  }

  /** Values drawn at one of the two logic levels. */
  predicate TwoLevel(v: Value) {
    LevelHeight(v) == 0.0 || LevelHeight(v) == 1.0
  }

  predicate StreamOnLevels(g: Geometry, ci: nat, st: Stream) {
    (forall i :: 0 <= i < |st.main| ==> OnLevels(g, ci, st.main[i]))
    && (forall i :: 0 <= i < |st.sub| ==> OnLevels(g, ci, st.sub[i]))
  }

  /** A step keeps every vertex at a logic level when the value is one. */
  lemma AdvanceOnLevels(g: Geometry, ch: Channel, ci: nat, st: Stream, t: real, v: Value, last: Value)
    requires Ready(st) && StreamOnLevels(g, ci, st) && TwoLevel(v)
    ensures StreamOnLevels(g, ci, Advance(g, ch, ci, st, t, v, last))
  {
    var r := Advance(g, ch, ci, st, t, v, last);
    var mt, stl := AdvanceTails(g, ch, ci, st, t, v, last);
    AppendOnLevels(g, ci, st.main, mt);
    AppendOnLevels(g, ci, st.sub, stl);
  }

  /** What a step appends to each rail lies on the logic levels. */
  lemma AdvanceTails(g: Geometry, ch: Channel, ci: nat, st: Stream, t: real, v: Value, last: Value)
    returns (mt: seq<Vertex>, stl: seq<Vertex>)
    requires Ready(st) && StreamOnLevels(g, ci, st) && TwoLevel(v)
    ensures Advance(g, ch, ci, st, t, v, last).main == st.main + mt
    ensures Advance(g, ch, ci, st, t, v, last).sub == st.sub + stl
    ensures forall i :: 0 <= i < |mt| ==> OnLevels(g, ci, mt[i])
    ensures forall i :: 0 <= i < |stl| ==> OnLevels(g, ci, stl[i])
  {
    if IsArb(v) && IsArb(last) && v != last {
      mt, stl := BusChangeTails(g, ch, ci, st, t, v, last);
    } else if IsArb(v) {
      mt, stl := BusTails(g, ch, ci, st, t, v, last);
    } else {
      mt, stl := LogicTails(g, ch, ci, st, t, v, last);
    }
  }

  lemma BusChangeTails(g: Geometry, ch: Channel, ci: nat, st: Stream, t: real, v: Value, last: Value)
    returns (mt: seq<Vertex>, stl: seq<Vertex>)
    requires IsArb(v) && IsArb(last) && v != last
    requires Ready(st) && StreamOnLevels(g, ci, st) && TwoLevel(v)
    ensures Advance(g, ch, ci, st, t, v, last).main == st.main + mt
    ensures Advance(g, ch, ci, st, t, v, last).sub == st.sub + stl
    ensures forall i :: 0 <= i < |mt| ==> OnLevels(g, ci, mt[i])
    ensures forall i :: 0 <= i < |stl| ==> OnLevels(g, ci, stl[i])
  {
    var rf, c := HalfRise(g, ch), ci as real;
    var prev := st.main[|st.main| - 1];
    assert OnLevels(g, ci, prev);
    assert OnLevels(g, ci, LastOr(st.sub));
    LevelPoint(g, t, Peak, ci, rf);
    LevelPoint(g, t, Trough, ci, rf);
    LevelPoint(g, t, Peak, ci, -rf);
    LevelPoint(g, t, Trough, ci, -rf);
    mt := [Break, LastOr(st.sub), At(Shift(XY(g, t, Trough, c), -rf)), At(Shift(XY(g, t, Peak, c), rf))];
    stl := [Break, prev, At(Shift(XY(g, t, Peak, c), -rf)), At(Shift(XY(g, t, Trough, c), rf))];
  }

  lemma BusTails(g: Geometry, ch: Channel, ci: nat, st: Stream, t: real, v: Value, last: Value)
    returns (mt: seq<Vertex>, stl: seq<Vertex>)
    requires IsArb(v) && !(IsArb(last) && v != last)
    requires Ready(st) && StreamOnLevels(g, ci, st) && TwoLevel(v)
    ensures Advance(g, ch, ci, st, t, v, last).main == st.main + mt
    ensures Advance(g, ch, ci, st, t, v, last).sub == st.sub + stl
    ensures forall i :: 0 <= i < |mt| ==> OnLevels(g, ci, mt[i])
    ensures forall i :: 0 <= i < |stl| ==> OnLevels(g, ci, stl[i])
  {
    var rf, c := HalfRise(g, ch), ci as real;
    LevelPoint(g, t, Peak, ci, rf);
    LevelPoint(g, t, Trough, ci, rf);
    if IsArb(last) {
      mt, stl := [At(Shift(XY(g, t, Peak, c), rf))], [At(Shift(XY(g, t, Trough, c), rf))];
    } else {
      assert OnLevels(g, ci, st.main[|st.main| - 1]);
      var gap := At(Point(ScaledTime(g, t) - rf, LastY(st)));
      mt, stl := [gap, At(Shift(XY(g, t, Peak, c), rf))], [gap, At(Shift(XY(g, t, Trough, c), rf))];
    }
  }

  lemma LogicTails(g: Geometry, ch: Channel, ci: nat, st: Stream, t: real, v: Value, last: Value)
    returns (mt: seq<Vertex>, stl: seq<Vertex>)
    requires !IsArb(v)
    requires Ready(st) && StreamOnLevels(g, ci, st) && TwoLevel(v)
    ensures Advance(g, ch, ci, st, t, v, last).main == st.main + mt
    ensures Advance(g, ch, ci, st, t, v, last).sub == st.sub + stl
    ensures forall i :: 0 <= i < |mt| ==> OnLevels(g, ci, mt[i])
    ensures forall i :: 0 <= i < |stl| ==> OnLevels(g, ci, stl[i])
  {
    var rf, c := HalfRise(g, ch), ci as real;
    assert OnLevels(g, ci, st.main[|st.main| - 1]);
    var gap := At(Point(ScaledTime(g, t) - rf, LastY(st)));
    LevelPoint(g, t, v, ci, rf);
    mt := [gap, At(Shift(XY(g, t, v, c), rf))];
    if IsArb(last) {
      LevelPoint(g, t, Trough, ci, -rf);
      stl := [At(Shift(XY(g, t, Trough, c), -rf)), At(Shift(XY(g, t, v, c), rf)), Break];
    } else {
      stl := [];
    }
  }

  /** A point drawn for a logic level, moved sideways, stays on its level. */
  lemma LevelPoint(g: Geometry, t: real, v: Value, ci: nat, dx: real)
    requires TwoLevel(v)
    ensures OnLevels(g, ci, At(Shift(XY(g, t, v, ci as real), dx)))
  {}

  lemma AppendOnLevels(g: Geometry, ci: nat, a: seq<Vertex>, b: seq<Vertex>)
    requires forall i :: 0 <= i < |a| ==> OnLevels(g, ci, a[i])
    requires forall i :: 0 <= i < |b| ==> OnLevels(g, ci, b[i])
    ensures forall i :: 0 <= i < |a + b| ==> OnLevels(g, ci, (a + b)[i])
  {}

  /** A channel carrying only logic levels and bus values is drawn entirely
      on its two rails: every vertex lies on the baseline or one channel
      height above it. */
  lemma {:induction false} CompileOnLevels(g: Geometry, ch: Channel, ci: nat, init: Value, tr: Track)
    requires TwoLevel(init)
    requires forall i :: 0 <= i < |tr| ==> TwoLevel(tr[i].1)
    ensures StreamOnLevels(g, ci, Compile(g, ch, ci, init, tr))
    decreases |tr|
  {
    if |tr| > 0 {
      var n := |tr| - 1;
      CompileOnLevels(g, ch, ci, init, tr[..n]);
      AdvanceOnLevels(g, ch, ci, Compile(g, ch, ci, init, tr[..n]), tr[n].0, tr[n].1, Prev(init, tr, n));
    }
  }

  /** A bus value repeated and then changed: `b7` at 1, `b7` again at 2,
      `b6` at 3 gives two value labels; the repeat adds none. */
  lemma BusScenario(g: Geometry, ch: Channel, ci: nat)
    ensures var tr := [(1.0, Arb("b7")), (2.0, Arb("b7")), (3.0, Arb("b6"))];
      |Compile(g, ch, ci, Bool(false), tr).text| == |Seed(g, ch, ci, Bool(false)).text| + 2
  {
    var tr := [(1.0, Arb("b7")), (2.0, Arb("b7")), (3.0, Arb("b6"))];
    TextPerArbChange(g, ch, ci, Bool(false), tr);
    assert tr[..2] == [(1.0, Arb("b7")), (2.0, Arb("b7"))];
    assert tr[..2][..1] == [(1.0, Arb("b7"))];
    assert NewArb(Bool(false), tr, 2);
    assert !NewArb(Bool(false), tr[..2], 1);
    assert NewArb(Bool(false), tr[..2][..1], 0);
    assert ArbChanges(Bool(false), tr[..2][..1]) == 1;
    assert ArbChanges(Bool(false), tr[..2]) == 1;
  }

  /** The values a channel takes at each frame of the replay. */
  function ChannelTrack(fs: seq<Frame>, k: ChanKey): (tr: Track)
    requires forall i :: 0 <= i < |fs| ==> k in fs[i].state
    ensures |tr| == |fs|
    ensures forall i :: 0 <= i < |fs| ==> tr[i] == (fs[i].time, fs[i].state[k])
  {
    seq(|fs|, i requires 0 <= i < |fs| => (fs[i].time, fs[i].state[k]))
  }

  /** The track a channel other than the control channel is drawn from:
      one entry per recorded instant, in strictly ascending time, each
      holding the latest value recorded for the channel up to that instant
      (through negative logic), or its initial value when none was. */
  lemma ReplayedTrack(cs: seq<Channel>, s: Samples, k: ChanKey)
    requires EachSample(cs, s).Ok?
    requires k != Control && k in InitialState(cs)
    ensures var fs := EachSample(cs, s).value.frames;
      forall i :: 0 <= i < |fs| ==> k in fs[i].state
    ensures var fs := EachSample(cs, s).value.frames;
      var tr := ChannelTrack(fs, k);
      && |tr| == |s|
      && (forall i, j :: 0 <= i < j < |tr| ==> tr[i].0 < tr[j].0)
      && (forall i :: 0 <= i < |tr| ==> tr[i].0 in s)
      && (forall i :: 0 <= i < |tr| ==> tr[i].1 == Expected(cs, s, InitialState(cs), fs, k, i))
  {
    var fs := EachSample(cs, s).value.frames;
    forall i | 0 <= i < |fs|
      ensures k in fs[i].state && fs[i].state[k] == Expected(cs, s, InitialState(cs), fs, k, i)
    {
      ReplayKeepsLatestWrite(cs, s, k, i);
    }
    assert Increasing(Times(fs));
  }
}
